=== FILE: README.md ===
# Attendance engine of a vehicle-movement back office

This project models the attendance core of a vehicle-logistics back office.
Drivers, preparators and other staff punch in and out ("pointages", here
`Timelog.Session`), and drivers carry out vehicle movements. The model covers
the decision logic around these records:

- **Timelog routes** (`Timelog`):
  - the whitelist of punch types;
  - the driver punch-sequence validator;
  - the day analysis shown to drivers;
  - the punch-in / punch-out guards that keep at most one active timelog per user.
- **Movement routes** (`Movements`):
  - the status lifecycle (prepare, start, complete, delete, cancel, assign, reassign);
  - the photo endpoints' guards, whitelists and batch filtering.
- **Nightly driver corrector** (`Backfill`):
  - it turns a driver's movements into action points and finds the longest idle period;
  - it decides which break and end-of-service punches to synthesise for the previous day;
  - it aggregates the corrections over all drivers.
- **Automatic disconnection** (`Disconnect`):
  - the 24-hour cap;
  - the role rules (movement activity for drivers and team leaders, preparation activity for preparators, 12 hours for every other role);
  - closing a session with a note;
  - the sweep over all open timelogs.
- **Scheduler** (`Scheduler`):
  - the job list and the running flag through start, stop and shutdown;
  - the status report;
  - the labels and colours of the correction report and its recipients;
  - the manual trigger of the corrector.
- **Daily HR analysis** (`HrReport`):
  - worked time, break detection, status and observations for one employee's day;
  - the duration formatter and the role names.
- **Driver analytics post-processing** (`Analytics`):
  - destination shares and averages;
  - the 7×24 hourly grid;
  - the five peak hours;
  - the driver check of the comparison endpoint.

Supporting modules:

- `Common`: options, results, time units and JavaScript's `Math.round`.
- `Text`: decimal rendering and parsing of integers.
- `Sorting`: the stable sort standing in for `Array.prototype.sort`.

Modelling conventions:

- Timestamps and durations are integer milliseconds.
- "Now", the end of the processed day and every database read are parameters.
- Database queries are replaced by input sequences that are already filtered by user, status and day.

## Model

| member | source | states |
|---|---|---|
| Timelog.ParsePunchType | server/routes/timelog.routes.js:14-20 | A requested type is accepted exactly when it is one of the five names start_service, start_break, end_break, end_service, general. The accepted type prints back as the requested name. |
| Timelog.ParseTypeName | server/routes/timelog.routes.js:14-20 | Every punch type survives printing then parsing. |
| Timelog.ValidateDriverSequence | server/routes/timelog.routes.js:362-404 | For each proposed type, the refusal is the first failing rule in the route's order. Allowed holds exactly when no rule fails: start_service iff not yet started; start_break iff started, no break yet and not ended; end_break iff a break started and has not ended; end_service iff started, not ended and no open break. `general` is always allowed. |
| Timelog.CheckPunchSequence | server/routes/timelog.routes.js:23-28 | No check for non-drivers or `general`. When the lookup of today's punches fails the punch is refused with the generic validation error. Otherwise the answer is the validator's. |
| Timelog.AcceptedDayIsLegal | server/routes/timelog.routes.js:362-404 | Soundness of the validator: any day whose punches were each accepted in turn has, ignoring `general`, one of the legal shapes. These are a prefix of start, break, break end, end, or start then end. |
| Timelog.LegalShapeIsAccepted | server/routes/timelog.routes.js:362-404 | Completeness of the validator: every legal shape can be punched in order with each punch accepted. |
| Timelog.AnalyzeDriverTimelogs | server/routes/timelog.routes.js:414-448 | The four flags hold iff the type occurs. `missingTypes` holds exactly the absent ones among the four, in the fixed order. `isComplete` iff nothing is missing. `sequence` is a time-sorted permutation of the day's entries. |
| Timelog.MissingTypes | server/routes/timelog.routes.js:432-438 | The absent punches are exactly the non-general types not punched, in increasing rank. |
| Timelog.CompleteLegalDay | server/routes/timelog.routes.js:440-445 | For a day the validator accepted, the analysis reports it complete iff its punches were exactly start, break, break end, end in that order. |
| Timelog.FindActive | server/routes/timelog.routes.js:30-34 | Finds the user's first active timelog, or reports that the user has none. |
| Timelog.PunchIn | server/routes/timelog.routes.js:9-73 | The refusal order is: unknown type, driver sequence rule, an already active timelog. On success exactly one new active row is appended. The at-most-one-active-per-user invariant is preserved. |
| Timelog.PunchOut | server/routes/timelog.routes.js:76-104 | Refused iff the user has no active timelog. Otherwise only that row changes: it is closed at `now`. The invariant is preserved, and the user no longer has an active timelog. |
| Timelog.Closed | server/routes/timelog.routes.js:89-102 | The closed row is completed at `now`. Non-empty request notes replace the stored notes. Every other field is unchanged. |
| Movements.Prepare | server/routes/movement.routes.js:231-247 | Succeeds iff the movement exists, is assigned and its driver is on duty. The result is the same movement in `preparing`. The error order is not found, wrong status, not on duty. |
| Movements.Start | server/routes/movement.routes.js:249-276 | Refused, in this order, when the movement is not found, is neither assigned nor preparing, or the driver is not on duty; succeeds otherwise. The result is the movement the status service returned. Its departure time is set to `now` and its timelog link to the active timelog only when the service left them missing. No other field of the service's answer changes. |
| Movements.Complete | server/routes/movement.routes.js:396-413 | Succeeds iff the movement exists and is in progress. The result is the movement the status service returned. Non-empty request notes replace its notes, and no other field of the service's answer changes. |
| Movements.Delete | server/routes/movement.routes.js:422-430 | Allowed iff the movement exists and is neither in progress nor completed. |
| Movements.Cancel | server/routes/movement.routes.js:437-449 | Allowed iff the movement exists and is not completed. The result is the same movement, cancelled. |
| Movements.Assign | server/routes/movement.routes.js:317-338 | There is no status guard. It succeeds iff a driver id is given, the movement exists and the target user is a driver. The movement becomes assigned to that driver and linked to the driver's active timelog or to none. |
| Movements.Reassign | server/routes/movement.routes.js:500-523 | The refusals come in the route's order: no driver id, movement not found, status neither pending nor assigned, driver not found, user not a driver. Otherwise the new status is assigned iff the driver is on duty, pending otherwise. The timelog link, the driver and the reassigning user are recorded, and no other field changes. |
| Movements.DriverStepsMoveForward | server/routes/movement.routes.js:231-413 | When the status service writes the status it is asked for, prepare, start and complete only move a movement forward along pending, assigned, preparing, in progress, completed. |
| Movements.CompletedIsFinal | server/routes/movement.routes.js:319-449 | A completed movement is refused by prepare, start, complete, cancel, delete and reassign. Only the unguarded assign still rewrites it to assigned. |
| Movements.PhotoTarget | server/routes/movement.routes.js:466-473 | Every photo endpoint accepts a movement iff it exists, the caller is an admin or its driver, and it is preparing or in progress. |
| Movements.AddUploadedPhotos | server/routes/movement.routes.js:464-492 | Accepted iff the target is valid, the kind (default `other`) is in the 11-name upload whitelist and at least one file came. Exactly one photo per file is appended, in order, after the existing ones. |
| Movements.AddS3Photo | server/routes/movement.routes.js:738-776 | A missing URL is refused first. Otherwise the photo is accepted iff the target is valid and the kind is in the 9-name S3 whitelist. Exactly that photo is appended. |
| Movements.KeptIndices | server/routes/movement.routes.js:563-581 | Only entries with a whitelisted kind (and, for S3, a URL) are kept. They keep their original order, and there are never more than the input. |
| Movements.KeptIndicesComplete | server/routes/movement.routes.js:563-581 | No valid entry of a batch is dropped. |
| Movements.AllValidBatchKeepsAll | server/routes/movement.routes.js:563-581 | A batch whose entries are all valid keeps every one of them, at its own position. |
| Movements.BatchPhotos | server/routes/movement.routes.js:551-581 | The added photos are the kept entries, in order, with the batch's photo type and time. Each has a whitelisted kind and, for S3, a URL. |
| Movements.AddS3Batch | server/routes/movement.routes.js:536-590 | `urls` and `kinds` are the request's lists after a single or missing value has been wrapped into a one-element list. Accepted iff the target is valid, the URL list is not empty and there are as many kinds as URLs. A count mismatch is refused. The filtered photos are appended after the existing ones. |
| Movements.AddUploadedBatch | server/routes/movement.routes.js:604-644 | Accepted iff the target is valid, files were sent and there are as many kinds as files. The kind-filtered photos are appended. |
| Backfill.ExtractMovementActions | server/services/driverTimelogAutomation.service.js:214-239 | The action points are a time-sorted permutation of every movement's departure and arrival points. |
| Backfill.ActionCount | server/services/driverTimelogAutomation.service.js:214-239 | The number of start points equals the number of movements with a departure time. The number of end points equals the number with an arrival time. |
| Backfill.LongestIdleIndex | server/services/driverTimelogAutomation.service.js:244-270 | Finds the earliest end-then-start pair with the strictly largest positive gap, or none when no pair has a positive gap or there are fewer than two points. |
| Backfill.FindLongestInactivityPeriod | server/services/driverTimelogAutomation.service.js:244-270 | Null for fewer than two points. Null iff no consecutive end-then-start pair has a positive gap. Otherwise the period spans such a pair, its duration is positive and no pair has a larger gap. |
| Backfill.LastStartOf | server/services/driverTimelogAutomation.service.js:161-177 | The break start time is present iff a start_break was punched. It is the time of the last such punch. |
| Backfill.LatestCompletedEnd | server/services/driverTimelogAutomation.service.js:186-192 | Absent iff no movement is completed. Otherwise it is the greatest arrival time (or last update when there is no arrival) among completed movements, and it is attained by one of them. |
| Backfill.AnalyzeDriverDay | server/services/driverTimelogAutomation.service.js:146-209 | The flags hold iff the types occur. A break is needed iff there is no start_break, no movement in progress, at least two action points and a longest idle period of at least 60 minutes; the period is then the longest one. A service end is needed iff there is no end_service and a completed movement exists. |
| Backfill.BreakPair | server/services/driverTimelogAutomation.service.js:275-327 | The break starts at the idle period's start. It ends 60 minutes later, but never after the end of the day. Both halves carry the missing-break reason. |
| Backfill.BreakEndAfter | server/services/driverTimelogAutomation.service.js:332-353 | The missing break end is exactly 60 minutes after the break start, without clamping. |
| Backfill.ServiceEndAt | server/services/driverTimelogAutomation.service.js:358-379 | The missing end of service is at the end of the last completed movement. |
| Backfill.CorrectionsFor | server/services/driverTimelogAutomation.service.js:105-132 | start_break is synthesised iff the full-break case holds; end_break iff the full-break or open-break case holds; end_service iff the service-end case holds. At most three corrections, all of distinct types. In the full-break case the first two are the break pair placed at the idle period. In the open-break case the first is the break end one hour after the break start. Any end_service is placed at the last completed movement's end. |
| Backfill.DayCorrections | server/services/driverTimelogAutomation.service.js:69-141 | A day with no timelog and no movement gets nothing. A day with start_break, end_break and end_service gets nothing. No correction repeats a type the day already has. end_service is added iff the day is not empty, lacks it and has a completed movement. A new start_break always comes with a new end_break. |
| Backfill.DayCorrectionsPlacement | server/services/driverTimelogAutomation.service.js:69-141 | For a day that is not empty, start_break is added iff the day has neither break punch, nothing is in progress and the longest idle period lasts an hour or more; end_break likewise iff a break end is missing after a punched or added start. A new break starts at the longest idle period's start and ends an hour later, clamped to the day end. A lone new break end is one hour after the last start_break. A new end of service is at the latest completed movement's end. |
| Backfill.DayCorrectionsDistinct | server/services/driverTimelogAutomation.service.js:105-132 | A day's corrections never synthesise the same punch type twice. |
| Backfill.Synthesize | server/services/driverTimelogAutomation.service.js:295-372 | The synthesised row is completed, instantaneous at the correction's time, of the correction's type, and marked auto-generated with its reason. |
| Backfill.DayCorrectionsIdempotent | server/services/driverTimelogAutomation.service.js:95-132 | Deciding again on the day with the synthesised rows added yields no further correction. |
| Backfill.CorrectedDayIsComplete | server/services/driverTimelogAutomation.service.js:95-132 | A day whose punch types are the original ones plus those of its corrections needs no correction. |
| Backfill.ProcessDrivers | server/services/driverTimelogAutomation.service.js:33-51 | The processed count is the number of drivers whose processing did not throw. Only drivers with at least one correction are listed. |
| Backfill.ProcessDriversLists | server/services/driverTimelogAutomation.service.js:33-51 | The listed drivers are exactly those whose day was read and calls for corrections, in input order, each with the corrections its own day calls for. |
| Backfill.ProcessAllDrivers | server/services/driverTimelogAutomation.service.js:16-64 | Fails iff the driver list cannot be read. No drivers gives zero processed and no total. Otherwise the listed drivers are exactly those whose day was read and calls for corrections, in input order, each with its own corrections, and the total is the sum of their corrections. |
| Backfill.FailureIsolation | server/services/driverTimelogAutomation.service.js:34-51 | A driver whose processing throws changes neither the count nor the corrections reported for the others. |
| Backfill.TotalCountsEveryDriver | server/services/driverTimelogAutomation.service.js:55-59 | The total equals the sum of every processed driver's correction count. Drivers without corrections contribute zero. |
| Disconnect.LatestDone | server/services/autoTimelog.service.js:117-120 | A single-document query sorted descending returns none iff nothing is finished. Otherwise it returns a finished record whose sort date is not below any other finished record's (a missing date sorts lowest). |
| Disconnect.MovementLookup | server/services/autoTimelog.service.js:117-127 | The driver lookup reports no completed movement iff none is completed, and something in progress iff some movement is in progress. A reported end is the arrival (else the last update) of a completed movement whose arrival is not below any other completed movement's, missing arrivals sorting lowest. |
| Disconnect.PreparationLookup | server/services/autoTimelog.service.js:181-191 | The same lookup for preparations: the end time (else the last update) of a completed preparation whose end time is not below any other's. |
| Disconnect.MovementLookupIsLatestArrival | server/services/autoTimelog.service.js:117-150 | When every completed movement has an arrival time, the lookup reports the latest arrival: one completed movement arrived then, and none arrived later. |
| Disconnect.ActivityDecision | server/services/autoTimelog.service.js:114-237 | Disconnect iff idle: more than 15 minutes since the last completed task or, with none, nothing in progress and more than 2 hours connected. A failed lookup keeps the session with the check-failed reason. Closing reasons go with disconnection and only with it. With a completed task the reason is the last-task or recent-task reason with the rounded minutes since its end; without one it is the no-task reason with the rounded hours connected, or the pending-work reason. Movement wording for drivers, preparation wording otherwise. |
| Disconnect.ShouldDisconnectUser | server/services/autoTimelog.service.js:74-109 | Disconnect iff over 24 hours, or a driver or team leader is idle by movements, or a preparator is idle by preparations, or any other role is over 12 hours. The cap is checked first and gives its own reason. Below it, drivers and team leaders get the movement decision and preparators the preparation decision; other roles get the over- or under-12-hours reason with the rounded hours and their role. |
| Disconnect.DisconnectMonotone | server/services/autoTimelog.service.js:74-237 | With the same lookups, a session due for closing stays due at any later time. |
| Disconnect.LookupFailureRetains | server/services/autoTimelog.service.js:166-172 | Below the cap, a failed lookup never disconnects a driver, team leader or preparator. |
| Disconnect.DriverIdleExamples | server/services/autoTimelog.service.js:150-165 | Sixteen minutes after the last arrival a driver is disconnected; fourteen minutes after it they are not. |
| Disconnect.FreshSessionClosedByEarlierMovement | server/services/autoTimelog.service.js:117-160 | The last movement is not tied to the current session, so a driver who just punched in is closed when their last movement ended over 15 minutes ago. |
| Disconnect.DisconnectUser | server/services/autoTimelog.service.js:242-263 | The session is completed at `now` and marked auto-disconnected with the reason. The note is appended after existing notes on a new line, or stands alone. Identity, start and type are kept. |
| Disconnect.EntryOutcome | server/services/autoTimelog.service.js:33-61 | Each open timelog counts as processed once. It is closed iff it has an owner, is due and saves. A failed save adds exactly one error. |
| Disconnect.EndOrphanedServices | server/services/autoTimelog.service.js:12-69 | Fails iff the open timelogs cannot be read. No open timelog gives zero of everything. Otherwise every open timelog is counted as processed, and the disconnected count equals both the closed rows and the number of entries that have an owner, are due and save. Disconnections plus errors never exceed the processed count. |
| Disconnect.SweepEntries | server/services/autoTimelog.service.js:33-61 | The loop counts every entry as processed, its disconnected count equals the closed rows, and disconnections plus errors never exceed the processed count. |
| Disconnect.DisconnectedCount | server/services/autoTimelog.service.js:33-61 | The sweep disconnects exactly the entries that have an owner, are due and save successfully. |
| Disconnect.ClosedAreAutoDisconnected | server/services/autoTimelog.service.js:33-61 | Every row the sweep closes is completed at the sweep's time and marked auto-disconnected. |
| Disconnect.SweepAppend | server/services/autoTimelog.service.js:33-61 | Sweeping two lists together gives the counts, errors and closed rows of sweeping them one after the other: entries are independent. |
| Disconnect.OwnerlessEntryIgnored | server/services/autoTimelog.service.js:36-40 | A timelog whose owner no longer exists changes neither the closed rows nor the errors. |
| Scheduler.Fresh | server/services/scheduler.service.js:8-11 | A new scheduler has no job and is not running. |
| Scheduler.Initialize | server/services/scheduler.service.js:16-100 | Exactly five jobs are installed, not started, in the fixed order with their cron expressions. The running flag is untouched. |
| Scheduler.Start | server/services/scheduler.service.js:108-118 | Every job is started, and the scheduler is running. |
| Scheduler.Stop | server/services/scheduler.service.js:123-133 | Every job is stopped, and the scheduler is not running. |
| Scheduler.Shutdown | server/services/scheduler.service.js:138-149 | Shutdown stops everything and ends not running. Jobs are destroyed when the library offers it. Every job keeps its name and cron expression, so the status still lists the five jobs. |
| Scheduler.StartIdempotent | server/services/scheduler.service.js:108-118 | Starting twice is starting once. |
| Scheduler.StopAfterStart | server/services/scheduler.service.js:108-133 | Stopping after starting is the same as stopping. |
| Scheduler.GetStatus | server/services/scheduler.service.js:322-328 | The job count is the number of jobs. Each job is reported active exactly when the scheduler is running. |
| Scheduler.StatusAfterReinitialize | server/services/scheduler.service.js:94-328 | The status follows the flag, not the jobs: re-initialising a running scheduler reports five unstarted jobs as active. The server initialises once, so this is a property of the status report, not a sequence the server performs. |
| Scheduler.TypeLabel | server/services/scheduler.service.js:296-304 | Each of the four punch type names has its fixed label; any other name is shown as is. |
| Scheduler.TypeColor | server/services/scheduler.service.js:309-317 | Each of the four punch type names has its fixed colour; any other name gets grey #6B7280. |
| Scheduler.LabelsDistinguishTypes | server/services/scheduler.service.js:296-317 | Distinct reported punch types have distinct labels and colours, never the default grey. |
| Scheduler.ReportRecipients | server/services/scheduler.service.js:175-178 | The recipients are exactly the e-mail addresses of admins and directors that have a non-empty address. |
| Scheduler.ReportDelivery | server/services/scheduler.service.js:169-207 | No send is attempted iff there is no recipient. With recipients the report is sent iff the mail service succeeds, and a sent report goes to exactly those recipients. |
| Scheduler.RunDriverTimelogProcessingNow | server/services/scheduler.service.js:154-164 | The corrector's error propagates, and then no report is attempted. Otherwise the report is delivered as above. |
| Scheduler.ReportDoesNotAffectResult | server/services/scheduler.service.js:154-207 | The result returned is the corrector's, whatever the recipients and whether sending fails. |
| HrReport.AsWrittenReadsBack | server/services/reportAutomation.service.js:427-434 | The formatter as written prints a positive duration as its whole hours and, separately, the leftover minutes rounded on their own. That minutes field can reach 60. |
| HrReport.FormatDurationAsWrittenOverflows | server/services/reportAutomation.service.js:430-433 | 59.5 minutes prints as "0h60", a minutes field of 60, where rounding first prints "1h00". |
| HrReport.FormatsAgreeUnlessMinutesRoundUp | server/services/reportAutomation.service.js:427-434 | For non-negative durations the written and intended formatters agree exactly when the minutes left after whole hours are below 59.5. |
| HrReport.FormatDurationReadsBack | server/services/reportAutomation.service.js:427-434 | The corrected format reads back as hours and a two-digit minutes field below 60 that together make the duration rounded to the minute. |
| HrReport.TranslateRole | server/services/reportAutomation.service.js:453-462 | The five known roles map to their French names; any other role is returned unchanged. |
| HrReport.FirstBreak | server/services/reportAutomation.service.js:227-286 | The break is the first completed timelog lasting 15 to 120 minutes that is neither first nor last. No earlier timelog qualifies, and none is found when none qualifies. |
| HrReport.AnalyzeEmployeeDay | server/services/reportAutomation.service.js:174-271 | An empty day is "not clocked in" with the single no-punch observation, zero worked time and every other field empty. Without a break, the break end and duration are empty. Otherwise: status on duty iff some timelog is active, else finished; worked time is the sum over completed timelogs only; start is the first timelog's start; at most the first break counts and effective time is worked time minus it; observations are those of each timelog in order, then the duration ones. |
| HrReport.BreakIsInsideTheDay | server/services/reportAutomation.service.js:276-286 | The reported break is a completed timelog strictly inside the day, lasting 15 to 120 minutes. |
| HrReport.BreakWithinTotal | server/services/reportAutomation.service.js:216-248 | With no negative durations, the break is positive and within the worked time, so effective time is non-negative. |
| HrReport.OngoingObservedPerActiveLog | server/services/reportAutomation.service.js:208-210 | "Service en cours" is observed exactly once per active timelog. |
| HrReport.LongAndShortExclusive | server/services/reportAutomation.service.js:260-264 | A day is never observed as both long and short. |
| Analytics.Percentage | server/controllers/driverAnalytics.controller.js:245 | The share is count×100/total rounded half up, and 0 for an empty total. |
| Analytics.PercentageBounds | server/controllers/driverAnalytics.controller.js:245 | A part of the total gets a share between 0 and 100. |
| Analytics.PercentageMonotone | server/controllers/driverAnalytics.controller.js:245 | A larger count never gets a smaller share. |
| Analytics.AverageMinutes | server/controllers/driverAnalytics.controller.js:246 | The average trip in whole minutes is rounded half up; it defaults to 0 with no trip. |
| Analytics.DestinationName | server/controllers/driverAnalytics.controller.js:243 | A missing or empty name becomes "Non spécifiée"; any other name is kept. |
| Analytics.DestinationStats | server/controllers/driverAnalytics.controller.js:237-248 | The total is the sum of the group counts. Each group keeps its position, count and driver count, with its share of the total, its name and its average. |
| Analytics.DestinationSharesBounded | server/controllers/driverAnalytics.controller.js:235-248 | Every share lies between 0 and 100. Groups in decreasing count order get non-increasing shares. |
| Analytics.EmptyGrid | server/controllers/driverAnalytics.controller.js:311-323 | Seven named days, each with 24 zero hourly counts. |
| Analytics.HourlyGrid | server/controllers/driverAnalytics.controller.js:310-332 | Slots no statistic names stay 0. Otherwise a slot holds the count of the last statistic for that day and hour. |
| Analytics.HourTotalsFrom | server/controllers/driverAnalytics.controller.js:335-345 | One total per hour that occurs, equal to the sum over all days, in increasing hour order, with every occurring hour present. |
| Analytics.PeakHours | server/controllers/driverAnalytics.controller.js:347-349 | Five hour totals, or all of them when fewer hours occur. They are largest first, with equal totals in increasing hour order. No hour appears twice, and each is an occurring hour with its true total. |
| Analytics.PeakHoursAreTop | server/controllers/driverAnalytics.controller.js:347-349 | Every hour left out of the peak hours has a smaller total than each kept one, or an equal total and a later hour. |
| Analytics.MatchingDrivers | server/controllers/driverAnalytics.controller.js:71-74 | The matched users are exactly the stored drivers whose id was requested. |
| Analytics.CompareDrivers | server/controllers/driverAnalytics.controller.js:61-101 | Without ids nothing is checked. A user query that throws gives the server error. Otherwise the request is accepted iff the number of matching drivers equals the number of ids, and refused with the fixed message otherwise. |
| Analytics.CompareDriversAccepts | server/controllers/driverAnalytics.controller.js:71-80 | With unique user ids, the count check accepts exactly the requests whose ids are pairwise distinct and all belong to drivers. |

## Left out

- HTTP handling (status codes, JSON shapes), MongoDB queries and `populate`: the routes are modelled by their guards and the records they write. Queries are input sequences already filtered by user, status and day.
- `moment`/`Date` day boundaries and the Europe/Paris timezone: `now` and the end of the processed day are integer parameters.
- node-cron triggering and the job bodies other than the corrector (daily, weekly and monthly reports, cleanup). The jobs are records with a name, a cron expression and started/destroyed flags. Whether the library offers `destroy` is a parameter of `Scheduler.Shutdown`.
- E-mail, WhatsApp and HTML report construction, and the Excel workbooks: only the recipients and the outcome of sending are modelled.
- Concurrency: the source has no mutual exclusion between scheduled and manual runs, and the model has none either.
- `testUserDisconnection`, the GET routes and the movement routes other than the ones in the table are not part of this model.
- The disconnection sweep as run at an instant: each user's lookups and whether their save fails are inputs of `Disconnect.EndOrphanedServices`, so a lookup is modelled as giving the same answer throughout the sweep.
- The reason strings in `Disconnect.ReasonText` use `Math.round` of the elapsed time. Every number is an integer of milliseconds, so halves round up exactly as JavaScript rounds them.
- `Backfill.DayCorrectionsIdempotent`: idempotence holds for the per-day decision only. In the stored data, the synthesised rows get a creation date at run time. That date falls outside the day the next run queries, so a second run does not see them.
- `Backfill.ProcessDrivers`: a driver whose processing throws after some rows were saved keeps those rows in the database. The model treats the driver as skipped and does not model the partial writes. A correction carries its reason as one of four values; the reason text of the stored row and of the result, including the rounded idle minutes of the break start, is not modelled.
- `Movements.Start`, `Movements.Complete`: the status is written by `movementService.updateMovementStatus`, which is not part of this model. Its answer is an input. The model assumes nothing about it, so the contract does not say the result is in progress or completed, nor what dates the service sets. A service that throws or returns nothing ends in the generic server error, which is not modelled.
- `Movements.AddS3Batch`, `Movements.AddUploadedBatch`: the request's `photoUrls` and `photoTypes` are taken after the route has wrapped a non-array value into a one-element list. A missing value becomes one empty entry, so a request without `photoUrls` passes the emptiness check and adds nothing.
- Tie order of single-document queries: the database may return any of several records with equal sort dates. `Disconnect.LatestDone` takes the first in list order.
- `Scheduler.TypeLabel`, `Scheduler.TypeColor`, `HrReport.TranslateRole`: names of JavaScript object prototype members (for instance `constructor`) would hit inherited properties in the lookup. The model returns the fallback for them.
- `Analytics.CompareDrivers`: which ids make the user query throw (ids that are not valid object ids) is not modelled; the query's answer is an input, `None` when it throws. The comparison data fetched after the check is not modelled.
- `HrReport.AnalyzeEmployeeDay`: times are kept as millisecond instants and durations as milliseconds. The report's `HH:mm` clock formatting of instants is not modelled. An end stamp is `InvalidDate` when missing. Worked, break and effective times are exact sums of milliseconds. The source sums floating-point minutes, each log's duration divided by 60 000. For several logs that sum can fall just beside the exact total: 600 minutes computed as 600.0000000000001 adds the long-day observation, and 240 minutes computed as 239.99999999999997 adds the short-day one. The model does neither. The two agree except when the exact total lies on 240, 360 or 600 minutes, or on a half minute, where rounding in the formatter can go the other way. The formatted durations are what the formatter as written, `HrReport.FormatDurationAsWritten`, prints for the exact totals, so a single log of 59.5 minutes prints "0h60"; a sum of several logs that is 59.5 minutes exactly may print "0h59" in the source. `totalWorkedHours` is kept as the millisecond total.
- `Analytics.Percentage`, `Analytics.AverageMinutes`: floating-point division is replaced by exact rational rounding. The two can differ only when a floating-point quotient lands next to a half.
- `Analytics.DestinationStats`, `Analytics.HourlyGrid`: the aggregation pipelines themselves (grouping, averaging in milliseconds, sorting by count) are inputs. Only their post-processing is modelled.
- Where the code and its design description differ, the code is followed:
  - the synthesised break rows are both instantaneous (start equals end);
  - the driver disconnection rule looks only for movements in progress, not for movements being prepared.

## Findings

| source | as written | input that shows it | evidently intended | confidence | as-written member | corrected member |
|---|---|---|---|---|---|---|
| server/services/reportAutomation.service.js:430-433 | hours are floored first and the leftover minutes are rounded afterwards, so the leftover can round up to 60 | 59.5 minutes (3 570 000 ms) prints "0h60" | "1h00": round to whole minutes, then split into hours and minutes below 60 | not executed | HrReport.FormatDurationAsWrittenOverflows | HrReport.FormatDurationReadsBack |

=== FILE: analytics.dfy ===
/** Post-processing of the driver analytics aggregates: destination shares,
    the weekly hour-by-hour grid, the five peak hours, and the check that
    every driver to compare exists. */
module Analytics {
  import opened Common
  import Sorting

  // ---------------------------------------------------------------------
  // Destination statistics
  // ---------------------------------------------------------------------

  /** One destination group as the aggregation returns it: the destination
      name (absent or empty when unknown), the number of completed movements,
      the trip durations of those having both a departure and an arrival
      time, and the number of distinct drivers. */
  datatype DestinationGroup = DestinationGroup(name: Option<string>, count: nat, tripDurations: seq<int>, uniqueDrivers: nat)

  datatype DestinationStat = DestinationStat(destination: string, count: nat, percentage: int, averageCompletionTimeMinutes: int, uniqueDrivers: nat)

  const UnknownDestination: string := "Non spécifiée"

  function Sum(xs: seq<int>): int
  {
    if |xs| == 0 then 0 else Sum(xs[..|xs| - 1]) + xs[|xs| - 1]
  }

  function TotalMovements(groups: seq<DestinationGroup>): nat
  {
    if |groups| == 0 then 0 else TotalMovements(groups[..|groups| - 1]) + groups[|groups| - 1].count
  }

  /** `Math.round(count / total * 100)`, or 0 for an empty total. */
  function Percentage(count: nat, total: nat): (p: int)
    ensures total == 0 ==> p == 0
    ensures total > 0 ==> 2 * total * p <= 200 * count + total < 2 * total * (p + 1)
  {
    if total > 0 then RoundDiv(100 * count, total) else 0
  }

  /** Cancelling a positive factor from a strict inequality between products. */
  lemma ProductOrder(a: int, b: int, t: int)
    requires t > 0 && a * t < b * t
    ensures a < b
  {
  }

  /** The share of a part of the total lies between 0 and 100. */
  lemma PercentageBounds(count: nat, total: nat)
    requires count <= total
    ensures 0 <= Percentage(count, total) <= 100
  {
    if total > 0 {
      var p := Percentage(count, total);
      assert p * (2 * total) <= 200 * count + total;
      assert 200 * count + total < 101 * (2 * total);
      ProductOrder(p, 101, 2 * total);
      assert (-1) * (2 * total) < (p + 1) * (2 * total) - 2 * total;
      assert (p + 1) * (2 * total) - 2 * total == p * (2 * total);
      ProductOrder(-1, p, 2 * total);
    }
  }

  /** A larger count never gets a smaller share. */
  lemma PercentageMonotone(a: nat, b: nat, total: nat)
    requires a <= b
    ensures Percentage(a, total) <= Percentage(b, total)
  {
    if total > 0 {
      var pa := Percentage(a, total);
      var pb := Percentage(b, total);
      var t := 2 * total;
      assert t * pa <= 200 * a + total;
      assert 200 * b + total < t * (pb + 1);
      assert 200 * a <= 200 * b;
      assert pa * t < (pb + 1) * t;
      ProductOrder(pa, pb + 1, t);
    }
  }

  /** The average trip in whole minutes, rounded; 0 without any trip. */
  function AverageMinutes(durations: seq<int>): (m: int)
    ensures |durations| == 0 ==> m == 0
    ensures |durations| > 0 ==>
      2 * |durations| * MsPerMinute * m <= 2 * Sum(durations) + |durations| * MsPerMinute < 2 * |durations| * MsPerMinute * (m + 1)
  {
    if |durations| == 0 then 0 else RoundDiv(Sum(durations), |durations| * MsPerMinute)
  }

  function DestinationName(name: Option<string>): (d: string)
    ensures d == UnknownDestination <==> name.None? || name.value == "" || name.value == UnknownDestination
    ensures name.Some? && name.value != "" ==> d == name.value
  {
    if name.Some? && name.value != "" then name.value else UnknownDestination
  }

  function FormatDestination(g: DestinationGroup, total: nat): DestinationStat
  {
    DestinationStat(DestinationName(g.name), g.count, Percentage(g.count, total), AverageMinutes(g.tripDurations), g.uniqueDrivers)
  }

  /** The destination statistics, in the aggregation's order, with each
      group's share of all movements. */
  function DestinationStats(groups: seq<DestinationGroup>): (r: (nat, seq<DestinationStat>))
    ensures r.0 == TotalMovements(groups) && |r.1| == |groups|
    ensures forall i :: 0 <= i < |groups| ==>
      && r.1[i].count == groups[i].count
      && r.1[i].percentage == Percentage(groups[i].count, r.0)
      && r.1[i].destination == DestinationName(groups[i].name)
      && r.1[i].averageCompletionTimeMinutes == AverageMinutes(groups[i].tripDurations)
      && r.1[i].uniqueDrivers == groups[i].uniqueDrivers
  {
    var total := TotalMovements(groups);
    (total, seq(|groups|, i requires 0 <= i < |groups| => FormatDestination(groups[i], total)))
  }

  lemma {:induction false} CountWithinTotal(groups: seq<DestinationGroup>, i: nat)
    requires i < |groups|
    ensures groups[i].count <= TotalMovements(groups)
  {
    if i < |groups| - 1 {
      CountWithinTotal(groups[..|groups| - 1], i);
    }
  }

  /** Every share lies between 0 and 100, and groups listed by decreasing
      count get non-increasing shares. */
  lemma DestinationSharesBounded(groups: seq<DestinationGroup>)
    ensures forall i :: 0 <= i < |groups| ==> 0 <= DestinationStats(groups).1[i].percentage <= 100
    ensures (forall i, j :: 0 <= i < j < |groups| ==> groups[i].count >= groups[j].count) ==>
      forall i, j :: 0 <= i < j < |groups| ==> DestinationStats(groups).1[i].percentage >= DestinationStats(groups).1[j].percentage
  {
    var total := TotalMovements(groups);
    forall i | 0 <= i < |groups|
      ensures 0 <= DestinationStats(groups).1[i].percentage <= 100
    {
      CountWithinTotal(groups, i);
      PercentageBounds(groups[i].count, total);
    }
    forall i, j | 0 <= i < j < |groups| && groups[i].count >= groups[j].count
      ensures DestinationStats(groups).1[i].percentage >= DestinationStats(groups).1[j].percentage
    {
      PercentageMonotone(groups[j].count, groups[i].count, total);
    }
  }

  // ---------------------------------------------------------------------
  // Hourly statistics
  // ---------------------------------------------------------------------

  /** One (hour, day of week) group: hours 0..23, days 1 (Sunday) to 7. */
  datatype HourStat = HourStat(hour: int, dayOfWeek: int, count: nat)

  predicate ValidStat(s: HourStat) { 0 <= s.hour < 24 && 1 <= s.dayOfWeek <= 7 }

  predicate AllValid(stats: seq<HourStat>) { forall i :: 0 <= i < |stats| ==> ValidStat(stats[i]) }

  const DayNames: seq<string> := ["Dimanche", "Lundi", "Mardi", "Mercredi", "Jeudi", "Vendredi", "Samedi"]

  /** One day of the grid: its name, its 1-based index and 24 hourly counts. */
  datatype DayRow = DayRow(name: string, dayIndex: int, hourly: seq<nat>)

  predicate IsGrid(g: seq<DayRow>)
  {
    |g| == 7 && forall d :: 0 <= d < 7 ==> |g[d].hourly| == 24 && g[d].name == DayNames[d] && g[d].dayIndex == d + 1
  }

  function EmptyGrid(): (g: seq<DayRow>)
    ensures IsGrid(g)
    ensures forall d, h :: 0 <= d < 7 && 0 <= h < 24 ==> g[d].hourly[h] == 0
  {
    seq(7, d requires 0 <= d < 7 => DayRow(DayNames[d], d + 1, seq(24, h => 0)))
  }

  predicate Matches(s: HourStat, d: int, h: int) { s.dayOfWeek == d + 1 && s.hour == h }

  /** The grid filled from the statistics in order, each one overwriting its
      slot, so the last statistic for a slot wins. */
  function HourlyGrid(stats: seq<HourStat>): (g: seq<DayRow>)
    requires AllValid(stats)
    ensures IsGrid(g)
    ensures forall d, h :: 0 <= d < 7 && 0 <= h < 24 && (forall i :: 0 <= i < |stats| ==> !Matches(stats[i], d, h)) ==>
      g[d].hourly[h] == 0
    ensures forall d, h, i ::
      (&& 0 <= d < 7 && 0 <= h < 24 && 0 <= i < |stats| && Matches(stats[i], d, h)
       && (forall j :: i < j < |stats| ==> !Matches(stats[j], d, h)))
      ==> g[d].hourly[h] == stats[i].count
  {
    if |stats| == 0 then EmptyGrid()
    else
      var prev := HourlyGrid(stats[..|stats| - 1]);
      var s := stats[|stats| - 1];
      var d := s.dayOfWeek - 1;
      var row := prev[d];
      var g := prev[d := row.(hourly := row.hourly[s.hour := s.count])];
      assert forall i :: 0 <= i < |stats| - 1 ==> stats[i] == stats[..|stats| - 1][i];
      g
  }

  /** The total count of one hour, across all days. */
  datatype HourTotal = HourTotal(hour: int, count: nat)

  function HourSum(stats: seq<HourStat>, h: int): nat
  {
    if |stats| == 0 then 0
    else HourSum(stats[..|stats| - 1], h) + (if stats[|stats| - 1].hour == h then stats[|stats| - 1].count else 0)
  }

  predicate HourPresent(stats: seq<HourStat>, h: int)
  {
    exists i :: 0 <= i < |stats| && stats[i].hour == h
  }

  /** The per-hour totals of the hours that occur, in increasing hour order
      (the order in which integer-keyed object values are enumerated). */
  function HourTotalsFrom(stats: seq<HourStat>, h: nat): (r: seq<HourTotal>)
    requires h <= 24
    ensures forall k :: 0 <= k < |r| ==> h <= r[k].hour < 24 && HourPresent(stats, r[k].hour) && r[k].count == HourSum(stats, r[k].hour)
    ensures forall k, l :: 0 <= k < l < |r| ==> r[k].hour < r[l].hour
    ensures forall x :: h <= x < 24 && HourPresent(stats, x) ==> HourTotal(x, HourSum(stats, x)) in r
    decreases 24 - h
  {
    if h == 24 then []
    else if HourPresent(stats, h) then [HourTotal(h, HourSum(stats, h))] + HourTotalsFrom(stats, h + 1)
    else HourTotalsFrom(stats, h + 1)
  }

  function NegCount(t: HourTotal): int { -(t.count as int) }

  /** Every element of a sequence sorted from `totals` is one of the totals. */
  lemma SortedTotals(stats: seq<HourStat>, sorted: seq<HourTotal>)
    requires multiset(sorted) == multiset(HourTotalsFrom(stats, 0))
    ensures forall k :: 0 <= k < |sorted| ==> HourPresent(stats, sorted[k].hour) && sorted[k].count == HourSum(stats, sorted[k].hour)
  {
    var totals := HourTotalsFrom(stats, 0);
    forall k | 0 <= k < |sorted|
      ensures HourPresent(stats, sorted[k].hour) && sorted[k].count == HourSum(stats, sorted[k].hour)
    {
      assert sorted[k] in multiset(totals);
    }
  }

  function HourOf(t: HourTotal): int { t.hour }

  /** The stably sorted totals run from the largest count down, increasing
      hour among equal counts, and so never repeat an hour. */
  lemma SortedTotalsOrder(stats: seq<HourStat>, sorted: seq<HourTotal>)
    requires multiset(sorted) == multiset(HourTotalsFrom(stats, 0))
    requires Sorting.SortedThenBy(sorted, NegCount, HourOf)
    ensures forall k, l :: 0 <= k < l < |sorted| ==>
              sorted[k].count > sorted[l].count || (sorted[k].count == sorted[l].count && sorted[k].hour < sorted[l].hour)
    ensures forall k, l :: 0 <= k < l < |sorted| ==> sorted[k].hour != sorted[l].hour
  {
    forall k, l | 0 <= k < l < |sorted|
      ensures sorted[k].count > sorted[l].count || (sorted[k].count == sorted[l].count && sorted[k].hour < sorted[l].hour)
    {
      assert NegCount(sorted[k]) < NegCount(sorted[l])
        || (NegCount(sorted[k]) == NegCount(sorted[l]) && HourOf(sorted[k]) < HourOf(sorted[l]));
    }
    SortedTotals(stats, sorted);
  }

  /** The five hours with the largest totals (all of them when fewer occur),
      largest first; equal totals keep increasing hour order, because the
      sort is stable and the totals come in increasing hour order. */
  function PeakHours(stats: seq<HourStat>): (r: seq<HourTotal>)
    ensures |r| == Min(5, |HourTotalsFrom(stats, 0)|)
    ensures forall k, l :: 0 <= k < l < |r| ==>
              r[k].count > r[l].count || (r[k].count == r[l].count && r[k].hour < r[l].hour)
    ensures forall k, l :: 0 <= k < l < |r| ==> r[k].hour != r[l].hour
    ensures forall k :: 0 <= k < |r| ==> HourPresent(stats, r[k].hour) && r[k].count == HourSum(stats, r[k].hour)
  {
    var totals := HourTotalsFrom(stats, 0);
    var sorted := Sorting.SortBy(totals, NegCount);
    SortedTotals(stats, sorted);
    Sorting.SortByIsStable(totals, NegCount, HourOf);
    SortedTotalsOrder(stats, sorted);
    if |sorted| <= 5 then sorted else sorted[..5]
  }

  /** The peak hours are the first entries of the sorted totals. */
  lemma PeakHoursPrefix(stats: seq<HourStat>)
    ensures var sorted := Sorting.SortBy(HourTotalsFrom(stats, 0), NegCount);
      |PeakHours(stats)| <= |sorted| && forall k :: 0 <= k < |PeakHours(stats)| ==> PeakHours(stats)[k] == sorted[k]
  {
  }

  /** Where an occurring hour's total lands in the sorted totals. */
  lemma PositionInSorted(stats: seq<HourStat>, x: nat) returns (m: nat)
    requires x < 24 && HourPresent(stats, x)
    ensures m < |Sorting.SortBy(HourTotalsFrom(stats, 0), NegCount)|
    ensures Sorting.SortBy(HourTotalsFrom(stats, 0), NegCount)[m] == HourTotal(x, HourSum(stats, x))
  {
    var totals := HourTotalsFrom(stats, 0);
    var sorted := Sorting.SortBy(totals, NegCount);
    var t := HourTotal(x, HourSum(stats, x));
    assert t in multiset(totals);
    assert t in multiset(sorted);
    m :| 0 <= m < |sorted| && sorted[m] == t;
  }

  /** No hour left out of the peak hours has a larger total than one kept. */
  lemma PeakHoursAreTop(stats: seq<HourStat>, x: nat)
    requires x < 24 && HourPresent(stats, x)
    requires forall k :: 0 <= k < |PeakHours(stats)| ==> PeakHours(stats)[k].hour != x
    ensures forall k :: 0 <= k < |PeakHours(stats)| ==>
              HourSum(stats, x) < PeakHours(stats)[k].count
              || (HourSum(stats, x) == PeakHours(stats)[k].count && PeakHours(stats)[k].hour < x)
  {
    var totals := HourTotalsFrom(stats, 0);
    var sorted := Sorting.SortBy(totals, NegCount);
    var m := PositionInSorted(stats, x);
    var r := PeakHours(stats);
    PeakHoursPrefix(stats);
    Sorting.SortByIsStable(totals, NegCount, HourOf);
    SortedTotalsOrder(stats, sorted);
    assert m >= |r| by {
      if m < |r| {
        assert false;
      }
    }
    forall k | 0 <= k < |r|
      ensures HourSum(stats, x) < r[k].count || (HourSum(stats, x) == r[k].count && r[k].hour < x)
    {
      assert r[k] == sorted[k] && k < m;
    }
  }

  // ---------------------------------------------------------------------
  // Driver comparison
  // ---------------------------------------------------------------------

  predicate Distinct<T(==)>(s: seq<T>)
  {
    forall i, j :: 0 <= i < j < |s| ==> s[i] != s[j]
  }

  /** The stored users that are drivers with one of the requested ids, as the
      user query returns them (each user once). */
  function MatchingDrivers(users: seq<User>, ids: seq<string>): (r: seq<User>)
    ensures forall u :: u in r <==> u in users && u.role == "driver" && u.id in ids
    ensures |r| <= |users|
  {
    if |users| == 0 then []
    else
      var rest := MatchingDrivers(users[..|users| - 1], ids);
      var u := users[|users| - 1];
      assert users == users[..|users| - 1] + [u];
      if u.role == "driver" && u.id in ids then rest + [u] else rest
  }

  const NotAllDrivers: string := "Certains utilisateurs spécifiés n'existent pas ou ne sont pas des chauffeurs"
  const ServerError: string := "Erreur serveur"

  /** The comparison request check: without ids nothing is checked;
      otherwise the number of matching drivers must equal the number of
      requested ids. `users` is the user query's answer, `None` when the
      query throws (a malformed id or a failed read), which the handler turns
      into the server error. */
  function CompareDrivers(userIds: Option<seq<string>>, users: Option<seq<User>>): (r: Result<seq<string>, string>)
    ensures userIds.None? ==> r == Ok([])
    ensures userIds.Some? && users.None? ==> r == Err(ServerError)
    ensures userIds.Some? && users.Some? ==>
      (r.Ok? <==> |MatchingDrivers(users.value, userIds.value)| == |userIds.value|)
    ensures r.Ok? && userIds.Some? ==> r.value == userIds.value
    ensures r.Err? ==> (r.error == ServerError <==> users.None?)
    ensures r.Err? && users.Some? ==> r.error == NotAllDrivers
  {
    match userIds
    case None => Ok([])
    case Some(ids) =>
      match users
      case None => Err(ServerError)
      case Some(us) => if |MatchingDrivers(us, ids)| != |ids| then Err(NotAllDrivers) else Ok(ids)
  }

  predicate UniqueIds(users: seq<User>)
  {
    forall i, j :: 0 <= i < j < |users| ==> users[i].id != users[j].id
  }

  /** When user ids are unique in the store, the count check accepts exactly
      the requests whose ids are pairwise distinct and all belong to drivers. */
  lemma CompareDriversAccepts(ids: seq<string>, users: seq<User>)
    requires UniqueIds(users)
    ensures CompareDrivers(Some(ids), Some(users)).Ok? <==>
      Distinct(ids) && forall id :: id in ids ==> exists u :: u in users && u.role == "driver" && u.id == id
  {
    var m := MatchingDrivers(users, ids);
    MatchingIdsUnique(users, ids);
    var mids := set u | u in m :: u.id;
    var req := set id | id in ids;
    var drivers := set u | u in users && u.role == "driver" :: u.id;
    assert mids == req * drivers;
    DistinctSetCard(m);
    SetCardAtMostLength(ids);
    SubsetCard(req * drivers, req);
    if |m| == |ids| {
      assert |req| == |ids|;
      LengthEqualsCardIsDistinct(ids);
      assert req * drivers == req;
      forall id | id in ids
        ensures exists u :: u in users && u.role == "driver" && u.id == id
      {
        assert id in req;
        assert id in drivers;
      }
    } else {
      if Distinct(ids) && forall id :: id in ids ==> exists u :: u in users && u.role == "driver" && u.id == id {
        DriversRequestMatches(ids, users);
        assert false;
      }
    }
  }

  /** Distinct ids that all belong to drivers each find their driver. */
  lemma DriversRequestMatches(ids: seq<string>, users: seq<User>)
    requires UniqueIds(users) && Distinct(ids)
    requires forall id :: id in ids ==> exists u :: u in users && u.role == "driver" && u.id == id
    ensures |MatchingDrivers(users, ids)| == |ids|
  {
    var m := MatchingDrivers(users, ids);
    MatchingIdsUnique(users, ids);
    var mids := set u | u in m :: u.id;
    var req := set id | id in ids;
    var drivers := set u | u in users && u.role == "driver" :: u.id;
    assert mids == req * drivers;
    forall id | id in req
      ensures id in drivers
    {
      var u :| u in users && u.role == "driver" && u.id == id;
    }
    assert req * drivers == req;
    DistinctSetCard(m);
    DistinctCardIsLength(ids);
  }

  lemma {:induction false} MatchingIdsUnique(users: seq<User>, ids: seq<string>)
    requires UniqueIds(users)
    ensures UniqueIds(MatchingDrivers(users, ids))
    ensures forall u, v :: u in MatchingDrivers(users, ids) && v in MatchingDrivers(users, ids) && u.id == v.id ==> u == v
  {
    if |users| > 0 {
      var prefix := users[..|users| - 1];
      assert UniqueIds(prefix);
      MatchingIdsUnique(prefix, ids);
      var u := users[|users| - 1];
      forall v | v in MatchingDrivers(prefix, ids)
        ensures v.id != u.id
      {
        var k :| 0 <= k < |prefix| && prefix[k] == v;
      }
    }
  }

  /** A sequence of users with unique ids has as many ids as elements. */
  lemma {:induction false} DistinctSetCard(s: seq<User>)
    requires UniqueIds(s)
    ensures |set u | u in s :: u.id| == |s|
  {
    if |s| > 0 {
      var prefix := s[..|s| - 1];
      var last := s[|s| - 1];
      assert UniqueIds(prefix);
      DistinctSetCard(prefix);
      var before := set u | u in prefix :: u.id;
      assert (set u | u in s :: u.id) == before + {last.id};
      assert last.id !in before;
    }
  }

  /** A subset is no larger than its superset, and a proper subset is smaller. */
  lemma {:induction false} SubsetCard<T>(a: set<T>, b: set<T>)
    requires a <= b
    ensures |a| <= |b|
    ensures a != b ==> |a| < |b|
    decreases |b|
  {
    if b != {} {
      var x :| x in b;
      SubsetCard(a - {x}, b - {x});
      assert |b - {x}| == |b| - 1;
      if x in a {
        assert |a - {x}| == |a| - 1;
        if a - {x} == b - {x} {
          assert a == (a - {x}) + {x};
          assert b == (b - {x}) + {x};
        }
      } else {
        assert a - {x} == a;
      }
    }
  }

  lemma {:induction false} SetCardAtMostLength<T>(s: seq<T>)
    ensures |set x | x in s| <= |s|
  {
    if |s| > 0 {
      var prefix := s[..|s| - 1];
      SetCardAtMostLength(prefix);
      assert (set x | x in s) == (set x | x in prefix) + {s[|s| - 1]};
    }
  }

  lemma {:induction false} DistinctCardIsLength<T>(s: seq<T>)
    requires Distinct(s)
    ensures |set x | x in s| == |s|
  {
    if |s| > 0 {
      var prefix := s[..|s| - 1];
      DistinctCardIsLength(prefix);
      assert (set x | x in s) == (set x | x in prefix) + {s[|s| - 1]};
      assert s[|s| - 1] !in prefix;
    }
  }

  lemma {:induction false} LengthEqualsCardIsDistinct<T>(s: seq<T>)
    requires |set x | x in s| == |s|
    ensures Distinct(s)
  {
    if |s| > 0 {
      var prefix := s[..|s| - 1];
      var last := s[|s| - 1];
      assert (set x | x in s) == (set x | x in prefix) + {last};
      SetCardAtMostLength(prefix);
      if last in prefix {
        assert false;
      }
      assert |set x | x in prefix| == |prefix|;
      LengthEqualsCardIsDistinct(prefix);
    }
  }
}

=== FILE: backfill.dfy ===
/** The nightly corrector of driver timelogs: from a driver's movements of
    the previous day it finds the longest idle period between a completed
    movement and the next departure, and synthesises the break and
    end-of-service punches the driver forgot. */
module Backfill {
  import opened Common
  import opened Timelog
  import opened Movements
  import Sorting

  // ---------------------------------------------------------------------
  // Action points and the longest idle period
  // ---------------------------------------------------------------------

  datatype ActionKind = StartAction | EndAction

  datatype Action = Action(kind: ActionKind, time: int, movementId: string)

  function ActionTime(a: Action): int { a.time }

  /** One movement's action points: its departure, then its arrival. */
  function MovementActions(m: Movement): seq<Action>
  {
    (if m.departureTime.Some? then [Action(StartAction, m.departureTime.value, m.id)] else [])
    + (if m.arrivalTime.Some? then [Action(EndAction, m.arrivalTime.value, m.id)] else [])
  }

  /** The action points of all movements, in the order they are collected. */
  function RawActions(ms: seq<Movement>): seq<Action>
  {
    if |ms| == 0 then [] else RawActions(ms[..|ms| - 1]) + MovementActions(ms[|ms| - 1])
  }

  predicate HasDeparture(m: Movement) { m.departureTime.Some? }
  predicate HasArrival(m: Movement) { m.arrivalTime.Some? }

  /** The collected action points, sorted by time (stably). */
  function ExtractMovementActions(ms: seq<Movement>): (r: seq<Action>)
    ensures Sorting.SortedBy(r, ActionTime)
    ensures multiset(r) == multiset(RawActions(ms))
  {
    Sorting.SortBy(RawActions(ms), ActionTime)
  }

  predicate IsStartAction(a: Action) { a.kind == StartAction }
  predicate IsEndAction(a: Action) { a.kind == EndAction }

  /** One start point per departure time and one end point per arrival time. */
  lemma {:induction false} ActionCount(ms: seq<Movement>)
    ensures CountWhere(ExtractMovementActions(ms), IsStartAction) == CountWhere(ms, HasDeparture)
    ensures CountWhere(ExtractMovementActions(ms), IsEndAction) == CountWhere(ms, HasArrival)
  {
    RawActionCount(ms);
    CountWherePermutation(ExtractMovementActions(ms), RawActions(ms), IsStartAction);
    CountWherePermutation(ExtractMovementActions(ms), RawActions(ms), IsEndAction);
  }

  lemma {:induction false} RawActionCount(ms: seq<Movement>)
    ensures CountWhere(RawActions(ms), IsStartAction) == CountWhere(ms, HasDeparture)
    ensures CountWhere(RawActions(ms), IsEndAction) == CountWhere(ms, HasArrival)
  {
    if |ms| > 0 {
      var m := ms[|ms| - 1];
      RawActionCount(ms[..|ms| - 1]);
      CountWhereAppend(RawActions(ms[..|ms| - 1]), MovementActions(m), IsStartAction);
      CountWhereAppend(RawActions(ms[..|ms| - 1]), MovementActions(m), IsEndAction);
      var dep := if m.departureTime.Some? then [Action(StartAction, m.departureTime.value, m.id)] else [];
      var arr := if m.arrivalTime.Some? then [Action(EndAction, m.arrivalTime.value, m.id)] else [];
      assert MovementActions(m) == dep + arr;
      CountWhereAppend(dep, arr, IsStartAction);
      CountWhereAppend(dep, arr, IsEndAction);
    }
  }

  /** Position `i` starts an idle pair: an end point directly followed by a start point. */
  predicate IsIdlePair(a: seq<Action>, i: int)
  {
    0 <= i < |a| - 1 && a[i].kind == EndAction && a[i + 1].kind == StartAction
  }

  function Gap(a: seq<Action>, i: int): int
    requires 0 <= i < |a| - 1
  {
    a[i + 1].time - a[i].time
  }

  /** `best` is the answer for the pairs starting before `n`: the earliest
      pair with the strictly largest positive gap, or none when no pair has a
      positive gap. */
  predicate BestUpTo(a: seq<Action>, n: int, best: Option<nat>)
  {
    && (best.None? ==> forall j :: 0 <= j < n && IsIdlePair(a, j) ==> Gap(a, j) <= 0)
    && (best.Some? ==>
          && best.value < n && IsIdlePair(a, best.value) && Gap(a, best.value) > 0
          && (forall j :: 0 <= j < n && IsIdlePair(a, j) ==> Gap(a, j) <= Gap(a, best.value))
          && (forall j :: 0 <= j < best.value && IsIdlePair(a, j) ==> Gap(a, j) < Gap(a, best.value)))
  }

  /** The scan of consecutive pairs from position `i`, keeping a pair only
      when its gap strictly exceeds the best so far (initially zero). */
  function ScanIdle(a: seq<Action>, i: nat, best: Option<nat>): (r: Option<nat>)
    requires 1 <= |a| && i <= |a| - 1
    requires BestUpTo(a, i, best)
    ensures BestUpTo(a, |a| - 1, r)
    decreases |a| - 1 - i
  {
    if i == |a| - 1 then best
    else
      var maxGap := if best.Some? then Gap(a, best.value) else 0;
      var next := if IsIdlePair(a, i) && Gap(a, i) > maxGap then Some(i) else best;
      ScanIdle(a, i + 1, next)
  }

  /** Index of the longest idle pair; none with fewer than two points. */
  function LongestIdleIndex(a: seq<Action>): (r: Option<nat>)
    ensures |a| < 2 ==> r.None?
    ensures BestUpTo(a, |a| - 1, r)
  {
    if |a| < 2 then None else ScanIdle(a, 0, None)
  }

  /** An idle period; `duration` is in milliseconds. */
  datatype Period = Period(startTime: int, endTime: int, duration: int)

  function FindLongestInactivityPeriod(a: seq<Action>): (r: Option<Period>)
    ensures |a| < 2 ==> r.None?
    ensures r.None? <==> forall j :: IsIdlePair(a, j) ==> Gap(a, j) <= 0
    ensures r.Some? ==> r.value.duration > 0 && r.value.duration == r.value.endTime - r.value.startTime
    ensures r.Some? ==> exists i :: IsIdlePair(a, i) && a[i].time == r.value.startTime && a[i + 1].time == r.value.endTime
    ensures r.Some? ==> forall j :: IsIdlePair(a, j) ==> Gap(a, j) <= r.value.duration
  {
    match LongestIdleIndex(a)
    case None => None
    case Some(i) => Some(Period(a[i].time, a[i + 1].time, Gap(a, i)))
  }

  // ---------------------------------------------------------------------
  // Day analysis
  // ---------------------------------------------------------------------

  /** The start time of the last timelog of kind `k` (later rows overwrite earlier ones). */
  function LastStartOf(logs: seq<Session>, k: PunchType): (r: Option<int>)
    ensures r.None? <==> k !in Kinds(logs)
    ensures r.Some? ==> exists i :: 0 <= i < |logs| && logs[i].kind == k && logs[i].startTime == r.value
                                      && forall j :: i < j < |logs| ==> logs[j].kind != k
  {
    if |logs| == 0 then None
    else if logs[|logs| - 1].kind == k then Some(logs[|logs| - 1].startTime)
    else
      var r := LastStartOf(logs[..|logs| - 1], k);
      assert Kinds(logs) == Kinds(logs[..|logs| - 1]) + [logs[|logs| - 1].kind];
      r
  }

  /** When a completed movement ended: its arrival, else its last update. */
  function EffectiveEnd(m: Movement): int { m.arrivalTime.GetOr(m.updatedAt) }

  predicate IsCompleted(m: Movement) { m.status == MovementStatus.Completed }

  /** The latest end among completed movements. */
  function LatestCompletedEnd(ms: seq<Movement>): (r: Option<int>)
    ensures r.None? <==> forall i :: 0 <= i < |ms| ==> !IsCompleted(ms[i])
    ensures r.Some? ==> exists i :: 0 <= i < |ms| && IsCompleted(ms[i]) && EffectiveEnd(ms[i]) == r.value
    ensures r.Some? ==> forall i :: 0 <= i < |ms| && IsCompleted(ms[i]) ==> EffectiveEnd(ms[i]) <= r.value
  {
    if |ms| == 0 then None
    else
      var rest := LatestCompletedEnd(ms[..|ms| - 1]);
      var m := ms[|ms| - 1];
      assert forall i :: 0 <= i < |ms| - 1 ==> ms[i] == ms[..|ms| - 1][i];
      if !IsCompleted(m) then rest
      else if rest.None? then Some(EffectiveEnd(m))
      else Some(Max(rest.value, EffectiveEnd(m)))
  }

  predicate HasInProgress(ms: seq<Movement>)
  {
    exists i :: 0 <= i < |ms| && ms[i].status == InProgress
  }

  /** A break is proposed for an idle period of at least one hour. */
  const MinBreakGap: int := 60 * MsPerMinute

  datatype DayAnalysis = DayAnalysis(
    hasServiceStart: bool,
    hasBreakStart: bool,
    hasBreakEnd: bool,
    hasServiceEnd: bool,
    needsBreak: bool,
    needsServiceEnd: bool,
    inactivityPeriod: Option<Period>,
    breakStartTime: Option<int>,
    lastMovementEndTime: Option<int>,
    hasActiveMovement: bool)

  function AnalyzeDriverDay(logs: seq<Session>, ms: seq<Movement>): (an: DayAnalysis)
    ensures an.hasServiceStart <==> StartService in Kinds(logs)
    ensures an.hasBreakStart <==> StartBreak in Kinds(logs)
    ensures an.hasBreakEnd <==> EndBreak in Kinds(logs)
    ensures an.hasServiceEnd <==> EndService in Kinds(logs)
    ensures an.breakStartTime == LastStartOf(logs, StartBreak)
    ensures an.hasBreakStart <==> an.breakStartTime.Some?
    ensures an.hasActiveMovement <==> HasInProgress(ms)
    ensures an.lastMovementEndTime == LatestCompletedEnd(ms)
    ensures an.needsBreak <==>
      && !an.hasBreakStart && !an.hasActiveMovement
      && |ExtractMovementActions(ms)| >= 2
      && FindLongestInactivityPeriod(ExtractMovementActions(ms)).Some?
      && FindLongestInactivityPeriod(ExtractMovementActions(ms)).value.duration >= MinBreakGap
    ensures an.needsBreak ==> an.inactivityPeriod == FindLongestInactivityPeriod(ExtractMovementActions(ms))
    ensures an.needsBreak <==> an.inactivityPeriod.Some?
    ensures an.needsServiceEnd <==> !an.hasServiceEnd && an.lastMovementEndTime.Some?
  {
    var ks := Kinds(logs);
    var actions := ExtractMovementActions(ms);
    var active := HasInProgress(ms);
    var last := LatestCompletedEnd(ms);
    var period := FindLongestInactivityPeriod(actions);
    var needsBreak := StartBreak !in ks && !active && |actions| >= 2 && period.Some? && period.value.duration >= MinBreakGap;
    DayAnalysis(
      StartService in ks, StartBreak in ks, EndBreak in ks, EndService in ks,
      needsBreak,
      EndService !in ks && (|logs| > 0 || |ms| > 0) && last.Some?,
      if needsBreak then period else None,
      LastStartOf(logs, StartBreak),
      last,
      active)
  }

  // ---------------------------------------------------------------------
  // Corrections
  // ---------------------------------------------------------------------

  /** One synthesised punch: its type, its time and why it was made. */
  datatype Correction = Correction(kind: PunchType, time: int, reason: GenReason)

  const BreakLength: int := 60 * MsPerMinute

  /** Both halves of a missing break: at the idle period's start, and one hour
      later but never past the end of the day. */
  function BreakPair(p: Period, dayEnd: int): (cs: seq<Correction>)
    ensures |cs| == 2
    ensures cs[0] == Correction(StartBreak, p.startTime, MissingBreak)
    ensures cs[1].kind == EndBreak && cs[1].reason == MissingBreak
    ensures cs[1].time == Min(p.startTime + BreakLength, dayEnd)
    ensures p.startTime <= dayEnd ==> p.startTime <= cs[1].time <= p.startTime + BreakLength
  {
    var end := p.startTime + BreakLength;
    [Correction(StartBreak, p.startTime, MissingBreak),
     Correction(EndBreak, if end > dayEnd then dayEnd else end, MissingBreak)]
  }

  /** The end of a break that was started but never ended: one hour after
      its start, without clamping. */
  function BreakEndAfter(breakStart: int): (c: Correction)
    ensures c.kind == EndBreak && c.reason == MissingBreakEnd
    ensures c.time - breakStart == BreakLength
  {
    Correction(EndBreak, breakStart + BreakLength, MissingBreakEnd)
  }

  /** The end of service, at the end of the last completed movement. */
  function ServiceEndAt(lastEnd: int): (c: Correction)
    ensures c.kind == EndService && c.reason == MissingServiceEnd && c.time == lastEnd
  {
    Correction(EndService, lastEnd, MissingServiceEnd)
  }

  predicate FullBreakCase(an: DayAnalysis) { an.needsBreak && !an.hasBreakStart && !an.hasBreakEnd }
  predicate BreakEndCase(an: DayAnalysis) { an.hasBreakStart && !an.hasBreakEnd }
  predicate ServiceEndCase(an: DayAnalysis) { an.needsServiceEnd && an.lastMovementEndTime.Some? }

  function KindsOf(cs: seq<Correction>): (ks: seq<PunchType>)
    ensures |ks| == |cs| && forall i :: 0 <= i < |cs| ==> ks[i] == cs[i].kind
  {
    if |cs| == 0 then [] else KindsOf(cs[..|cs| - 1]) + [cs[|cs| - 1].kind]
  }

  /** What `AnalyzeDriverDay` guarantees about the analysis it returns. */
  predicate ConsistentAnalysis(an: DayAnalysis)
  {
    && (an.needsBreak ==> !an.hasBreakStart && an.inactivityPeriod.Some?)
    && (an.hasBreakStart ==> an.breakStartTime.Some?)
    && (an.needsServiceEnd ==> an.lastMovementEndTime.Some?)
  }

  /** The movement side of the break rule: nothing in progress and an idle
      period of at least an hour between two actions. */
  predicate BreakWanted(ms: seq<Movement>)
  {
    && !HasInProgress(ms)
    && |ExtractMovementActions(ms)| >= 2
    && FindLongestInactivityPeriod(ExtractMovementActions(ms)).Some?
    && FindLongestInactivityPeriod(ExtractMovementActions(ms)).value.duration >= MinBreakGap
  }

  /** The facts about a day that the corrections depend on. */
  predicate Describes(an: DayAnalysis, logs: seq<Session>, ms: seq<Movement>)
  {
    && (an.hasBreakStart <==> StartBreak in Kinds(logs))
    && (an.hasBreakEnd <==> EndBreak in Kinds(logs))
    && (an.hasServiceEnd <==> EndService in Kinds(logs))
    && (an.needsBreak <==> !an.hasBreakStart && BreakWanted(ms))
    && (an.needsServiceEnd <==> !an.hasServiceEnd && LatestCompletedEnd(ms).Some?)
    && an.lastMovementEndTime == LatestCompletedEnd(ms)
    && an.breakStartTime == LastStartOf(logs, StartBreak)
    && (an.needsBreak ==> an.inactivityPeriod == FindLongestInactivityPeriod(ExtractMovementActions(ms)))
  }

  lemma AnalysisIsConsistent(logs: seq<Session>, ms: seq<Movement>)
    ensures ConsistentAnalysis(AnalyzeDriverDay(logs, ms))
    ensures Describes(AnalyzeDriverDay(logs, ms), logs, ms)
  {
  }

  /** The full-break pair, the end of an unfinished break and the end of
      service, each under its own condition and in that order. */
  function Assembled(an: DayAnalysis, dayEnd: int): seq<Correction>
    requires ConsistentAnalysis(an)
  {
    (if FullBreakCase(an) then BreakPair(an.inactivityPeriod.value, dayEnd) else [])
    + (if BreakEndCase(an) then [BreakEndAfter(an.breakStartTime.value)] else [])
    + (if ServiceEndCase(an) then [ServiceEndAt(an.lastMovementEndTime.value)] else [])
  }

  /** The corrections an analysis calls for: which punch types are
      synthesised, under which case, and where each is placed. */
  function CorrectionsFor(an: DayAnalysis, dayEnd: int): (r: seq<Correction>)
    requires ConsistentAnalysis(an)
    ensures StartBreak in KindsOf(r) <==> FullBreakCase(an)
    ensures EndBreak in KindsOf(r) <==> FullBreakCase(an) || BreakEndCase(an)
    ensures EndService in KindsOf(r) <==> ServiceEndCase(an)
    ensures forall i :: 0 <= i < |r| ==> r[i].kind in {StartBreak, EndBreak, EndService}
    ensures forall i, j :: 0 <= i < j < |r| ==> r[i].kind != r[j].kind
    ensures |r| <= 3
    ensures FullBreakCase(an) ==> |r| >= 2 && r[..2] == BreakPair(an.inactivityPeriod.value, dayEnd)
    ensures BreakEndCase(an) ==> |r| >= 1 && r[0] == BreakEndAfter(an.breakStartTime.value)
    ensures forall i :: 0 <= i < |r| && r[i].kind == EndService ==>
              ServiceEndCase(an) && r[i] == ServiceEndAt(an.lastMovementEndTime.value)
  {
    AssembledKinds(an, dayEnd);
    AssembledPlacement(an, dayEnd);
    Assembled(an, dayEnd)
  }

  /** Which punch types an analysis calls for. */
  lemma AssembledKinds(an: DayAnalysis, dayEnd: int)
    requires ConsistentAnalysis(an)
    ensures var r := Assembled(an, dayEnd);
      && (StartBreak in KindsOf(r) <==> FullBreakCase(an))
      && (EndBreak in KindsOf(r) <==> FullBreakCase(an) || BreakEndCase(an))
      && (EndService in KindsOf(r) <==> ServiceEndCase(an))
      && (forall i :: 0 <= i < |r| ==> r[i].kind in {StartBreak, EndBreak, EndService})
      && (forall i, j :: 0 <= i < j < |r| ==> r[i].kind != r[j].kind)
      && |r| <= 3
  {
    var breakPair := if FullBreakCase(an) then BreakPair(an.inactivityPeriod.value, dayEnd) else [];
    var breakEnd := if BreakEndCase(an) then [BreakEndAfter(an.breakStartTime.value)] else [];
    var serviceEnd := if ServiceEndCase(an) then [ServiceEndAt(an.lastMovementEndTime.value)] else [];
    var r := Assembled(an, dayEnd);
    CorrectionKinds(an, r, breakPair, breakEnd, serviceEnd);
    KindFacts(an, r);
  }

  /** Corrections whose punch types are the expected ones have the kind facts. */
  lemma KindFacts(an: DayAnalysis, r: seq<Correction>)
    requires KindsOf(r) == ExpectedKinds(an)
    ensures && (StartBreak in KindsOf(r) <==> FullBreakCase(an))
      && (EndBreak in KindsOf(r) <==> FullBreakCase(an) || BreakEndCase(an))
      && (EndService in KindsOf(r) <==> ServiceEndCase(an))
      && (forall i :: 0 <= i < |r| ==> r[i].kind in {StartBreak, EndBreak, EndService})
      && (forall i, j :: 0 <= i < j < |r| ==> r[i].kind != r[j].kind)
      && |r| <= 3
  {
    ExpectedKindsFacts(an);
  }

  /** Where the punches an analysis calls for are placed. */
  lemma AssembledPlacement(an: DayAnalysis, dayEnd: int)
    requires ConsistentAnalysis(an)
    ensures var r := Assembled(an, dayEnd);
      && (FullBreakCase(an) ==> |r| >= 2 && r[..2] == BreakPair(an.inactivityPeriod.value, dayEnd))
      && (BreakEndCase(an) ==> |r| >= 1 && r[0] == BreakEndAfter(an.breakStartTime.value))
      && (forall i :: 0 <= i < |r| && r[i].kind == EndService ==>
            ServiceEndCase(an) && r[i] == ServiceEndAt(an.lastMovementEndTime.value))
  {
    var breakPair := if FullBreakCase(an) then BreakPair(an.inactivityPeriod.value, dayEnd) else [];
    var breakEnd := if BreakEndCase(an) then [BreakEndAfter(an.breakStartTime.value)] else [];
    var serviceEnd := if ServiceEndCase(an) then [ServiceEndAt(an.lastMovementEndTime.value)] else [];
    CorrectionPlacement(an, dayEnd, Assembled(an, dayEnd), breakPair, breakEnd, serviceEnd);
  }

  /** Where each synthesised punch lands: the break pair first, or the end
      of the open break, and the end of service last. */
  lemma CorrectionPlacement(an: DayAnalysis, dayEnd: int, r: seq<Correction>,
                            breakPair: seq<Correction>, breakEnd: seq<Correction>, serviceEnd: seq<Correction>)
    requires ConsistentAnalysis(an)
    requires breakPair == if FullBreakCase(an) then BreakPair(an.inactivityPeriod.value, dayEnd) else []
    requires breakEnd == if BreakEndCase(an) then [BreakEndAfter(an.breakStartTime.value)] else []
    requires serviceEnd == if ServiceEndCase(an) then [ServiceEndAt(an.lastMovementEndTime.value)] else []
    requires r == breakPair + breakEnd + serviceEnd
    ensures FullBreakCase(an) ==> |r| >= 2 && r[..2] == BreakPair(an.inactivityPeriod.value, dayEnd)
    ensures BreakEndCase(an) ==> |r| >= 1 && r[0] == BreakEndAfter(an.breakStartTime.value)
    ensures forall i :: 0 <= i < |r| && r[i].kind == EndService ==>
              ServiceEndCase(an) && r[i] == ServiceEndAt(an.lastMovementEndTime.value)
  {
    var head := breakPair + breakEnd;
    assert forall i :: 0 <= i < |head| ==> head[i].kind != EndService;
    assert r == head + serviceEnd;
    assert forall i :: 0 <= i < |head| ==> r[i] == head[i];
    if FullBreakCase(an) {
      assert r[..2] == breakPair;
    }
    forall i | 0 <= i < |r| && r[i].kind == EndService
      ensures ServiceEndCase(an) && r[i] == ServiceEndAt(an.lastMovementEndTime.value)
    {
      assert r[i] == serviceEnd[i - |head|];
    }
  }

  /** The punch types an analysis calls for, in the order they are made. */
  function ExpectedKinds(an: DayAnalysis): seq<PunchType>
  {
    (if FullBreakCase(an) then [StartBreak, EndBreak] else if BreakEndCase(an) then [EndBreak] else [])
    + (if ServiceEndCase(an) then [EndService] else [])
  }

  lemma ExpectedKindsFacts(an: DayAnalysis)
    ensures var ks := ExpectedKinds(an);
      && (StartBreak in ks <==> FullBreakCase(an))
      && (EndBreak in ks <==> FullBreakCase(an) || BreakEndCase(an))
      && (EndService in ks <==> ServiceEndCase(an))
      && (forall i :: 0 <= i < |ks| ==> ks[i] in {StartBreak, EndBreak, EndService})
      && (forall i, j :: 0 <= i < j < |ks| ==> ks[i] != ks[j])
      && |ks| <= 3
  {
  }

  lemma CorrectionKinds(an: DayAnalysis, r: seq<Correction>, breakPair: seq<Correction>, breakEnd: seq<Correction>, serviceEnd: seq<Correction>)
    requires ConsistentAnalysis(an)
    requires FullBreakCase(an) ==> |breakPair| == 2 && breakPair[0].kind == StartBreak && breakPair[1].kind == EndBreak
    requires !FullBreakCase(an) ==> breakPair == []
    requires BreakEndCase(an) ==> |breakEnd| == 1 && breakEnd[0].kind == EndBreak
    requires !BreakEndCase(an) ==> breakEnd == []
    requires ServiceEndCase(an) ==> |serviceEnd| == 1 && serviceEnd[0].kind == EndService
    requires !ServiceEndCase(an) ==> serviceEnd == []
    requires r == breakPair + breakEnd + serviceEnd
    ensures KindsOf(r) == ExpectedKinds(an)
  {
    KindsOfAppend(breakPair, breakEnd);
    KindsOfAppend(breakPair + breakEnd, serviceEnd);
    var b := if FullBreakCase(an) then [StartBreak, EndBreak] else if BreakEndCase(an) then [EndBreak] else [];
    assert KindsOf(breakPair + breakEnd) == b;
  }

  lemma KindsOfAppend(a: seq<Correction>, b: seq<Correction>)
    ensures KindsOf(a + b) == KindsOf(a) + KindsOf(b)
  {
  }

  /** The corrections for one driver-day; a day without any timelog or
      movement is skipped. No correction repeats a punch type the day already
      has, and a day that has a break and an end of service needs none. */
  function DayCorrections(logs: seq<Session>, ms: seq<Movement>, dayEnd: int): (r: seq<Correction>)
    ensures |logs| == 0 && |ms| == 0 ==> r == []
    ensures StartBreak in Kinds(logs) && EndBreak in Kinds(logs) && EndService in Kinds(logs) ==> r == []
    ensures forall k :: k in KindsOf(r) ==> k !in Kinds(logs)
    ensures EndService in KindsOf(r) <==> (|logs| > 0 || |ms| > 0) && EndService !in Kinds(logs) && LatestCompletedEnd(ms).Some?
    ensures StartBreak in KindsOf(r) ==> EndBreak in KindsOf(r)
  {
    if |logs| == 0 && |ms| == 0 then []
    else
      var an := AnalyzeDriverDay(logs, ms);
      AnalysisIsConsistent(logs, ms);
      CorrectionsForDay(an, logs, ms, dayEnd);
      CorrectionsFor(an, dayEnd)
  }

  /** Which break and end-of-service punches a day gets, and at what times:
      a new break starts at the longest idle period and lasts an hour,
      clamped to the day's end; a lone new break end comes an hour after the
      last break start; a new end of service is at the latest completed
      movement's end. */
  lemma DayCorrectionsPlacement(logs: seq<Session>, ms: seq<Movement>, dayEnd: int)
    ensures var r := DayCorrections(logs, ms, dayEnd);
      (StartBreak in KindsOf(r) <==>
         (|logs| > 0 || |ms| > 0) && StartBreak !in Kinds(logs) && EndBreak !in Kinds(logs) && BreakWanted(ms))
    ensures var r := DayCorrections(logs, ms, dayEnd);
      (EndBreak in KindsOf(r) <==>
         (|logs| > 0 || |ms| > 0) && EndBreak !in Kinds(logs) && (StartBreak in Kinds(logs) || BreakWanted(ms)))
    ensures var r := DayCorrections(logs, ms, dayEnd);
      StartBreak in KindsOf(r) ==>
        (BreakWanted(ms) && |r| >= 2
         && r[..2] == BreakPair(FindLongestInactivityPeriod(ExtractMovementActions(ms)).value, dayEnd))
    ensures var r := DayCorrections(logs, ms, dayEnd);
      EndBreak in KindsOf(r) && StartBreak !in KindsOf(r) ==>
        (LastStartOf(logs, StartBreak).Some? && |r| >= 1
         && r[0] == BreakEndAfter(LastStartOf(logs, StartBreak).value))
    ensures var r := DayCorrections(logs, ms, dayEnd);
      forall i :: 0 <= i < |r| && r[i].kind == EndService ==>
        LatestCompletedEnd(ms).Some? && r[i] == ServiceEndAt(LatestCompletedEnd(ms).value)
  {
    if |logs| > 0 || |ms| > 0 {
      var an := AnalyzeDriverDay(logs, ms);
      AnalysisIsConsistent(logs, ms);
      DayBreakKinds(an, logs, ms, dayEnd);
      DayBreakPlacement(an, logs, ms, dayEnd);
      DayServicePlacement(an, logs, ms, dayEnd);
      assert DayCorrections(logs, ms, dayEnd) == CorrectionsFor(an, dayEnd);
    }
  }

  /** The break cases of `CorrectionsFor`, stated in terms of the day's
      punches and movements. */
  lemma DayBreakKinds(an: DayAnalysis, logs: seq<Session>, ms: seq<Movement>, dayEnd: int)
    requires ConsistentAnalysis(an) && Describes(an, logs, ms)
    ensures var r := CorrectionsFor(an, dayEnd);
      && (StartBreak in KindsOf(r) <==> StartBreak !in Kinds(logs) && EndBreak !in Kinds(logs) && BreakWanted(ms))
      && (EndBreak in KindsOf(r) <==> EndBreak !in Kinds(logs) && (StartBreak in Kinds(logs) || BreakWanted(ms)))
  {
  }

  /** The placement of synthesised break punches, in terms of the day. */
  lemma DayBreakPlacement(an: DayAnalysis, logs: seq<Session>, ms: seq<Movement>, dayEnd: int)
    requires ConsistentAnalysis(an) && Describes(an, logs, ms)
    ensures var r := CorrectionsFor(an, dayEnd);
      && (StartBreak in KindsOf(r) ==>
            (BreakWanted(ms) && |r| >= 2
             && r[..2] == BreakPair(FindLongestInactivityPeriod(ExtractMovementActions(ms)).value, dayEnd)))
      && (EndBreak in KindsOf(r) && StartBreak !in KindsOf(r) ==>
            (LastStartOf(logs, StartBreak).Some? && |r| >= 1
             && r[0] == BreakEndAfter(LastStartOf(logs, StartBreak).value)))
  {
    var r := CorrectionsFor(an, dayEnd);
    if StartBreak in KindsOf(r) {
      assert FullBreakCase(an);
      assert an.inactivityPeriod == FindLongestInactivityPeriod(ExtractMovementActions(ms));
    } else if EndBreak in KindsOf(r) {
      assert BreakEndCase(an);
    }
  }

  /** The placement of a synthesised end of service, in terms of the day. */
  lemma DayServicePlacement(an: DayAnalysis, logs: seq<Session>, ms: seq<Movement>, dayEnd: int)
    requires ConsistentAnalysis(an) && Describes(an, logs, ms)
    ensures var r := CorrectionsFor(an, dayEnd);
      forall i :: 0 <= i < |r| && r[i].kind == EndService ==>
        LatestCompletedEnd(ms).Some? && r[i] == ServiceEndAt(LatestCompletedEnd(ms).value)
  {
  }

  /** The corrections of an analysis that describes a day, stated in terms
      of the day's punch types and movements. */
  lemma CorrectionsForDay(an: DayAnalysis, logs: seq<Session>, ms: seq<Movement>, dayEnd: int)
    requires ConsistentAnalysis(an) && Describes(an, logs, ms)
    ensures var r := CorrectionsFor(an, dayEnd);
      && (StartBreak in Kinds(logs) && EndBreak in Kinds(logs) && EndService in Kinds(logs) ==> r == [])
      && (forall k :: k in KindsOf(r) ==> k !in Kinds(logs))
      && (EndService in KindsOf(r) <==> EndService !in Kinds(logs) && LatestCompletedEnd(ms).Some?)
      && (StartBreak in KindsOf(r) ==> EndBreak in KindsOf(r))
  {
    var r := CorrectionsFor(an, dayEnd);
    NoRepeatedKind(an, logs, ms, r);
    if StartBreak in Kinds(logs) && EndBreak in Kinds(logs) && EndService in Kinds(logs) {
      NoCaseNoCorrection(an, dayEnd);
    }
  }

  /** Without any of the three cases an analysis calls for no correction. */
  lemma NoCaseNoCorrection(an: DayAnalysis, dayEnd: int)
    requires ConsistentAnalysis(an)
    requires !FullBreakCase(an) && !BreakEndCase(an) && !ServiceEndCase(an)
    ensures CorrectionsFor(an, dayEnd) == []
  {
  }

  /** A day's corrections never synthesise the same punch type twice. */
  lemma DayCorrectionsDistinct(logs: seq<Session>, ms: seq<Movement>, dayEnd: int)
    ensures forall i, j :: 0 <= i < j < |DayCorrections(logs, ms, dayEnd)| ==>
      DayCorrections(logs, ms, dayEnd)[i].kind != DayCorrections(logs, ms, dayEnd)[j].kind
  {
    if |logs| > 0 || |ms| > 0 {
      AnalysisIsConsistent(logs, ms);
      assert DayCorrections(logs, ms, dayEnd) == CorrectionsFor(AnalyzeDriverDay(logs, ms), dayEnd);
    }
  }

  lemma NoRepeatedKind(an: DayAnalysis, logs: seq<Session>, ms: seq<Movement>, r: seq<Correction>)
    requires Describes(an, logs, ms)
    requires StartBreak in KindsOf(r) <==> FullBreakCase(an)
    requires EndBreak in KindsOf(r) <==> FullBreakCase(an) || BreakEndCase(an)
    requires EndService in KindsOf(r) <==> ServiceEndCase(an)
    requires forall i :: 0 <= i < |r| ==> r[i].kind in {StartBreak, EndBreak, EndService}
    ensures forall k :: k in KindsOf(r) ==> k !in Kinds(logs)
  {
  }

  function CorrectionNote(c: Correction): string
  {
    match c.kind
    case StartBreak => "Pause créée automatiquement - période d'inactivité détectée"
    case EndBreak => "Fin de pause créée automatiquement - 1h après le début"
    case _ => "Fin de service créée automatiquement après le dernier mouvement"
  }

  /** The timelog row written for a correction: completed, instantaneous and
      marked as generated, with the correction's reason. */
  function Synthesize(id: string, userId: string, c: Correction): (s: Session)
    ensures s.status == Status.Completed && s.startTime == c.time && s.endTime == Some(c.time)
    ensures s.kind == c.kind && s.userId == userId
    ensures s.isAutoGenerated && s.autoGenerationReason == Some(c.reason) && !s.isAutoDisconnected
  {
    Session(id, userId, c.time, Some(c.time), Status.Completed, c.kind, true, Some(c.reason), false, "", CorrectionNote(c))
  }

  function SynthesizeAll(userId: string, cs: seq<Correction>, ids: seq<string>): (ss: seq<Session>)
    requires |ids| == |cs|
    ensures |ss| == |cs| && forall i :: 0 <= i < |cs| ==> ss[i] == Synthesize(ids[i], userId, cs[i])
    ensures Kinds(ss) == KindsOf(cs)
  {
    seq(|cs|, i requires 0 <= i < |cs| => Synthesize(ids[i], userId, cs[i]))
  }

  /** Running the per-day decision again on the corrected day changes
      nothing: the corrected day needs no further correction. */
  lemma DayCorrectionsIdempotent(logs: seq<Session>, ms: seq<Movement>, dayEnd: int, userId: string, ids: seq<string>)
    requires |ids| == |DayCorrections(logs, ms, dayEnd)|
    ensures DayCorrections(logs + SynthesizeAll(userId, DayCorrections(logs, ms, dayEnd), ids), ms, dayEnd) == []
  {
    var cs := DayCorrections(logs, ms, dayEnd);
    var extra := SynthesizeAll(userId, cs, ids);
    KindsAppend(logs, extra);
    CorrectedDayIsComplete(logs, logs + extra, ms, dayEnd);
  }

  /** A day whose punch types are the original ones followed by those of its
      corrections needs no correction. */
  lemma CorrectedDayIsComplete(logs: seq<Session>, logs2: seq<Session>, ms: seq<Movement>, dayEnd: int)
    requires Kinds(logs2) == Kinds(logs) + KindsOf(DayCorrections(logs, ms, dayEnd))
    ensures DayCorrections(logs2, ms, dayEnd) == []
  {
    if |logs| == 0 && |ms| == 0 {
      assert |logs2| == 0;
    } else {
      var an := AnalyzeDriverDay(logs, ms);
      var an2 := AnalyzeDriverDay(logs2, ms);
      AnalysisIsConsistent(logs, ms);
      AnalysisIsConsistent(logs2, ms);
      NothingLeftToCorrect(an, an2, logs, logs2, ms, dayEnd);
    }
  }

  /** Once a day holds the punches its analysis called for, the analysis of
      the corrected day calls for nothing. */
  lemma NothingLeftToCorrect(an: DayAnalysis, an2: DayAnalysis, logs: seq<Session>, logs2: seq<Session>, ms: seq<Movement>, dayEnd: int)
    requires ConsistentAnalysis(an) && Describes(an, logs, ms)
    requires ConsistentAnalysis(an2) && Describes(an2, logs2, ms)
    requires Kinds(logs2) == Kinds(logs) + KindsOf(CorrectionsFor(an, dayEnd))
    ensures CorrectionsFor(an2, dayEnd) == []
  {
    assert !FullBreakCase(an2);
    assert !BreakEndCase(an2);
    assert !ServiceEndCase(an2);
    NoCaseNoCorrection(an2, dayEnd);
  }

  // ---------------------------------------------------------------------
  // The batch over all drivers
  // ---------------------------------------------------------------------

  /** A driver's data for the processed day. */
  datatype DayData = DayData(timelogs: seq<Session>, movements: seq<Movement>)

  /** `day` is `None` when reading or correcting this driver's day threw. */
  datatype DriverRecord = DriverRecord(driver: User, day: Option<DayData>)

  datatype DriverCorrections = DriverCorrections(driver: User, corrections: seq<Correction>)

  /** The batch summary; `totalCorrections` is absent when there were no drivers at all. */
  datatype BatchResult = BatchResult(processedDrivers: nat, corrections: seq<DriverCorrections>, totalCorrections: Option<nat>)

  datatype BatchError = DriverQueryFailed

  predicate Loaded(d: DriverRecord) { d.day.Some? }

  function CorrectionsOf(d: DriverRecord, dayEnd: int): seq<Correction>
    requires Loaded(d)
  {
    DayCorrections(d.day.value.timelogs, d.day.value.movements, dayEnd)
  }

  /** A driver the batch reports: its day was read and calls for corrections. */
  predicate Listed(d: DriverRecord, dayEnd: int)
  {
    Loaded(d) && |CorrectionsOf(d, dayEnd)| > 0
  }

  /** `Listed` as a function value, for `IndicesWhere`. */
  function ListedAt(dayEnd: int): DriverRecord -> bool
  {
    d => Listed(d, dayEnd)
  }

  /** The entry reported for a driver whose day calls for corrections. */
  function Entry(d: DriverRecord, dayEnd: int): DriverCorrections
    requires Loaded(d)
  {
    DriverCorrections(d.driver, CorrectionsOf(d, dayEnd))
  }

  /** Per-driver processing: a driver that fails is skipped; every driver
      with corrections is listed, in input order, with its own corrections. */
  function ProcessDrivers(ds: seq<DriverRecord>, dayEnd: int): (r: (nat, seq<DriverCorrections>))
    ensures r.0 == CountWhere(ds, Loaded)
    ensures |r.1| <= r.0
    ensures forall k :: 0 <= k < |r.1| ==> |r.1[k].corrections| > 0
  {
    if |ds| == 0 then (0, [])
    else
      var p := ProcessDrivers(ds[..|ds| - 1], dayEnd);
      var d := ds[|ds| - 1];
      if !Loaded(d) then p
      else
        var cs := CorrectionsOf(d, dayEnd);
        var listed := if |cs| > 0 then p.1 + [DriverCorrections(d.driver, cs)] else p.1;
        ListedNonEmpty(p.1, DriverCorrections(d.driver, cs));
        (p.0 + 1, listed)
  }

  /** The drivers listed are exactly those whose day was read and calls for
      corrections, in input order, each with its own corrections. */
  lemma {:induction false} ProcessDriversLists(ds: seq<DriverRecord>, dayEnd: int)
    ensures var idx := IndicesWhere(ds, ListedAt(dayEnd));
      var listed := ProcessDrivers(ds, dayEnd).1;
      |listed| == |idx| && forall k :: 0 <= k < |idx| ==> listed[k] == Entry(ds[idx[k]], dayEnd)
    decreases |ds|
  {
    if |ds| > 0 {
      var n := |ds| - 1;
      ProcessDriversLists(ds[..n], dayEnd);
      ListedEntries(ds, dayEnd, ProcessDrivers(ds[..n], dayEnd).1);
      ProcessDriversStep(ds, dayEnd);
    }
  }

  /** One more driver: its entry is appended when it is listed. */
  lemma ProcessDriversStep(ds: seq<DriverRecord>, dayEnd: int)
    requires |ds| > 0
    ensures var last := ds[|ds| - 1];
      ProcessDrivers(ds, dayEnd).1
      == ProcessDrivers(ds[..|ds| - 1], dayEnd).1 + (if Listed(last, dayEnd) then [Entry(last, dayEnd)] else [])
  {
  }

  /** The step of `ProcessDrivers`' listing: the prefix's entries, then the
      last driver's when it is listed. */
  lemma ListedEntries(ds: seq<DriverRecord>, dayEnd: int, prev: seq<DriverCorrections>)
    requires |ds| > 0
    requires var idx := IndicesWhere(ds[..|ds| - 1], ListedAt(dayEnd));
      |prev| == |idx| && forall k :: 0 <= k < |idx| ==> prev[k] == Entry(ds[..|ds| - 1][idx[k]], dayEnd)
    ensures var idx := IndicesWhere(ds, ListedAt(dayEnd));
      var next := prev + (if Listed(ds[|ds| - 1], dayEnd) then [Entry(ds[|ds| - 1], dayEnd)] else []);
      |next| == |idx| && forall k :: 0 <= k < |idx| ==> next[k] == Entry(ds[idx[k]], dayEnd)
  {
    var n := |ds| - 1;
    var p := IndicesWhere(ds[..n], ListedAt(dayEnd));
    var idx := IndicesWhere(ds, ListedAt(dayEnd));
    assert idx == p + (if ListedAt(dayEnd)(ds[n]) then [n] else []);
    forall k | 0 <= k < |p|
      ensures prev[k] == Entry(ds[p[k]], dayEnd)
    {
      assert ds[..n][p[k]] == ds[p[k]];
    }
  }

  lemma ListedNonEmpty(listed: seq<DriverCorrections>, x: DriverCorrections)
    requires forall k :: 0 <= k < |listed| ==> |listed[k].corrections| > 0
    ensures |x.corrections| > 0 ==> forall k :: 0 <= k < |listed + [x]| ==> |(listed + [x])[k].corrections| > 0
  {
  }

  function SumCorrections(listed: seq<DriverCorrections>): nat
  {
    if |listed| == 0 then 0 else SumCorrections(listed[..|listed| - 1]) + |listed[|listed| - 1].corrections|
  }

  /** `processAllDrivers`: fails only when the list of drivers cannot be read. */
  function ProcessAllDrivers(drivers: Option<seq<DriverRecord>>, dayEnd: int): (r: Result<BatchResult, BatchError>)
    ensures drivers.None? <==> r.Err?
    ensures drivers == Some([]) ==> r == Ok(BatchResult(0, [], None))
    ensures r.Ok? ==> r.value.processedDrivers == CountWhere(drivers.value, Loaded)
    ensures r.Ok? && |drivers.value| > 0 ==> r.value.totalCorrections == Some(SumCorrections(r.value.corrections))
    ensures r.Ok? ==> forall k :: 0 <= k < |r.value.corrections| ==> |r.value.corrections[k].corrections| > 0
    ensures r.Ok? ==> var idx := IndicesWhere(drivers.value, ListedAt(dayEnd));
      |r.value.corrections| == |idx|
      && forall k :: 0 <= k < |idx| ==> r.value.corrections[k] == Entry(drivers.value[idx[k]], dayEnd)
  {
    match drivers
    case None => Err(DriverQueryFailed)
    case Some(ds) =>
      if |ds| == 0 then Ok(BatchResult(0, [], None))
      else
        var (n, listed) := ProcessDrivers(ds, dayEnd);
        ProcessDriversLists(ds, dayEnd);
        Ok(BatchResult(n, listed, Some(SumCorrections(listed))))
  }

  lemma {:induction false} SumCorrectionsAppend(a: seq<DriverCorrections>, b: seq<DriverCorrections>)
    ensures SumCorrections(a + b) == SumCorrections(a) + SumCorrections(b)
    decreases |b|
  {
    if |b| == 0 {
      assert a + b == a;
    } else {
      assert (a + b)[..|a + b| - 1] == a + b[..|b| - 1];
      SumCorrectionsAppend(a, b[..|b| - 1]);
    }
  }

  /** Processing a concatenation of driver lists is processing each list. */
  lemma {:induction false} ProcessDriversAppend(a: seq<DriverRecord>, b: seq<DriverRecord>, dayEnd: int)
    ensures ProcessDrivers(a + b, dayEnd).0 == ProcessDrivers(a, dayEnd).0 + ProcessDrivers(b, dayEnd).0
    ensures ProcessDrivers(a + b, dayEnd).1 == ProcessDrivers(a, dayEnd).1 + ProcessDrivers(b, dayEnd).1
    decreases |b|
  {
    if |b| == 0 {
      assert a + b == a;
    } else {
      var b' := b[..|b| - 1];
      assert (a + b)[..|a + b| - 1] == a + b';
      assert (a + b)[|a + b| - 1] == b[|b| - 1];
      ProcessDriversAppend(a, b', dayEnd);
    }
  }

  /** Failure isolation: a driver whose processing throws changes neither the
      count nor the corrections reported for the other drivers. */
  lemma FailureIsolation(a: seq<DriverRecord>, failed: DriverRecord, b: seq<DriverRecord>, dayEnd: int)
    requires !Loaded(failed)
    ensures ProcessDrivers(a + [failed] + b, dayEnd) == ProcessDrivers(a + b, dayEnd)
  {
    ProcessDriversAppend(a + [failed], b, dayEnd);
    ProcessDriversAppend(a, [failed], dayEnd);
    ProcessDriversAppend(a, b, dayEnd);
    assert [failed][..0] == [];
  }

  /** The total equals the sum of every processed driver's correction count,
      drivers without corrections contributing zero. */
  function AllCorrections(ds: seq<DriverRecord>, dayEnd: int): nat
  {
    if |ds| == 0 then 0
    else AllCorrections(ds[..|ds| - 1], dayEnd) + (if Loaded(ds[|ds| - 1]) then |CorrectionsOf(ds[|ds| - 1], dayEnd)| else 0)
  }

  lemma {:induction false} TotalCountsEveryDriver(ds: seq<DriverRecord>, dayEnd: int)
    ensures SumCorrections(ProcessDrivers(ds, dayEnd).1) == AllCorrections(ds, dayEnd)
  {
    if |ds| > 0 {
      TotalCountsEveryDriver(ds[..|ds| - 1], dayEnd);
      var listed := ProcessDrivers(ds[..|ds| - 1], dayEnd).1;
      var d := ds[|ds| - 1];
      if Loaded(d) && |CorrectionsOf(d, dayEnd)| > 0 {
        SumCorrectionsAppend(listed, [DriverCorrections(d.driver, CorrectionsOf(d, dayEnd))]);
        assert [DriverCorrections(d.driver, CorrectionsOf(d, dayEnd))][..0] == [];
      }
    }
  }
}

=== FILE: common.dfy ===
/** Shared vocabulary of the attendance engine: optional values, results,
    time units and the JavaScript rounding rule the services rely on. */
module Common {

  /** A value that may be absent (a nullable field or a query that found nothing). */
  datatype Option<+T> = None | Some(value: T) {
    function GetOr(default: T): T
    {
      match this
      case Some(v) => v
      case None => default
    }
  }

  /** The outcome of an operation that either succeeds or is refused with a reason. */
  datatype Result<+T, +E> = Ok(value: T) | Err(error: E)

  /** A user account; `role` is the stored role name ("driver", "preparator",
      "team-leader", "admin", "direction", or anything else). */
  datatype User = User(id: string, username: string, fullName: string, role: string, email: string, phone: string)

  /** Timestamps are integer milliseconds, as JavaScript `Date` values are. */
  const MsPerMinute: int := 60_000
  const MsPerHour: int := 3_600_000

  /** `Math.round(n / d)` for a positive divisor: JavaScript rounds halves
      upwards, i.e. it returns `floor(n / d + 1/2)`. */
  function RoundDiv(n: int, d: int): (r: int)
    requires d > 0
    ensures 2 * d * r <= 2 * n + d < 2 * d * (r + 1)
  {
    var q := (2 * n + d) / (2 * d);
    assert 2 * n + d == (2 * d) * q + (2 * n + d) % (2 * d);
    q
  }

  function Max(a: int, b: int): int { if a < b then b else a }
  function Min(a: int, b: int): int { if a < b then a else b }

  /** Number of elements of `s` that satisfy `p`. */
  function CountWhere<T>(s: seq<T>, p: T -> bool): (n: nat)
    ensures n <= |s|
  {
    if |s| == 0 then 0 else CountWhere(s[..|s| - 1], p) + (if p(s[|s| - 1]) then 1 else 0)
  }

  /** The positions of the elements of `s` that satisfy `p`, in increasing order. */
  function IndicesWhere<T>(s: seq<T>, p: T -> bool): (idx: seq<nat>)
    ensures forall k :: 0 <= k < |idx| ==> idx[k] < |s| && p(s[idx[k]])
    ensures forall k, l :: 0 <= k < l < |idx| ==> idx[k] < idx[l]
    ensures forall i :: 0 <= i < |s| && p(s[i]) ==> i in idx
  {
    if |s| == 0 then []
    else
      var n := |s| - 1;
      var prev := IndicesWhere(s[..n], p);
      assert forall i :: 0 <= i < n ==> s[..n][i] == s[i];
      prev + (if p(s[n]) then [n] else [])
  }

  lemma {:induction false} CountWhereAppend<T>(a: seq<T>, b: seq<T>, p: T -> bool)
    ensures CountWhere(a + b, p) == CountWhere(a, p) + CountWhere(b, p)
    decreases |b|
  {
    if |b| == 0 {
      assert a + b == a;
    } else {
      assert (a + b)[..|a + b| - 1] == a + b[..|b| - 1];
      CountWhereAppend(a, b[..|b| - 1], p);
    }
  }

  /** Counting does not depend on the order of the elements. */
  lemma {:induction false} CountWherePermutation<T>(a: seq<T>, b: seq<T>, p: T -> bool)
    requires multiset(a) == multiset(b)
    ensures CountWhere(a, p) == CountWhere(b, p)
    decreases |a|
  {
    if |a| > 0 {
      var x := a[|a| - 1];
      var init := a[..|a| - 1];
      assert a == init + [x];
      assert x in multiset(b);
      var j :| 0 <= j < |b| && b[j] == x;
      var rest := b[..j] + b[j + 1..];
      RemoveAtMultiset(b, j);
      assert multiset(init) + multiset{x} == multiset(rest) + multiset{x};
      MultisetCancel(multiset(init), multiset(rest), x);
      CountWherePermutation(init, rest, p);
      CountWhereAppend(init, [x], p);
      CountWhereRemoveAt(b, j, p);
    }
  }

  lemma RemoveAtMultiset<T>(b: seq<T>, j: nat)
    requires j < |b|
    ensures multiset(b) == multiset(b[..j] + b[j + 1..]) + multiset{b[j]}
  {
    SplitAt(b, j);
  }

  lemma MultisetCancel<T>(m: multiset<T>, n: multiset<T>, x: T)
    requires m + multiset{x} == n + multiset{x}
    ensures m == n
  {
    forall y
      ensures m[y] == n[y]
    {
      assert (m + multiset{x})[y] == (n + multiset{x})[y];
    }
  }

  lemma CountWhereRemoveAt<T>(b: seq<T>, j: nat, p: T -> bool)
    requires j < |b|
    ensures CountWhere(b, p) == CountWhere(b[..j] + b[j + 1..], p) + (if p(b[j]) then 1 else 0)
  {
    var left, x, right := b[..j], b[j], b[j + 1..];
    SplitAt(b, j);
    CountWhereAppend(left + [x], right, p);
    CountWhereAppend(left, [x], p);
    CountWhereAppend(left, right, p);
    assert CountWhere([x], p) == if p(x) then 1 else 0 by {
      assert [x][..0] == [];
    }
  }

  lemma SplitAt<T>(b: seq<T>, j: nat)
    requires j < |b|
    ensures b == (b[..j] + [b[j]]) + b[j + 1..]
  {
  }
}

=== FILE: disconnect.dfy ===
/** The automatic disconnection sweep: every open timelog is examined and
    closed when its owner has been idle too long, by rules that depend on the
    owner's role. */
module Disconnect {
  import opened Common
  import opened Text
  import opened Timelog
  import Movements

  // ---------------------------------------------------------------------
  // The "last completed activity" lookups
  // ---------------------------------------------------------------------

  /** A preparation (vehicle preparation task) as far as the sweep reads it. */
  datatype PrepStatus = PrepPending | PrepInProgress | PrepCompleted | PrepCancelled

  datatype Preparation = Preparation(userId: string, status: PrepStatus, endTime: Option<int>, updatedAt: int)

  /** The database order of a descending sort: a missing date sorts below every date. */
  predicate NotAfter(a: Option<int>, b: Option<int>)
  {
    a.None? || (b.Some? && a.value <= b.value)
  }

  /** The first of the finished records with the greatest sort date, as a
      single-document query sorted descending on that date returns it. */
  function LatestDone<T>(xs: seq<T>, done: T -> bool, date: T -> Option<int>): (r: Option<T>)
    ensures r.None? <==> forall i :: 0 <= i < |xs| ==> !done(xs[i])
    ensures r.Some? ==> exists i :: 0 <= i < |xs| && xs[i] == r.value && done(xs[i])
    ensures r.Some? ==> forall i :: 0 <= i < |xs| && done(xs[i]) ==> NotAfter(date(xs[i]), date(r.value))
  {
    if |xs| == 0 then None
    else
      var rest := LatestDone(xs[1..], done, date);
      assert forall i :: 1 <= i < |xs| ==> xs[i] == xs[1..][i - 1];
      if !done(xs[0]) then rest
      else if rest.None? || NotAfter(date(rest.value), date(xs[0])) then Some(xs[0])
      else rest
  }

  /** What the sweep learns about a user's activity: the end of the last
      completed task (if any) and whether one is in progress, or that the
      lookup failed. */
  datatype ActivityLookup = Lookup(lastCompletedEnd: Option<int>, hasInProgress: bool) | LookupFailed

  predicate MovementDone(m: Movements.Movement) { m.status == Movements.Completed }
  function MovementDate(m: Movements.Movement): Option<int> { m.arrivalTime }

  /** The driver lookup: last completed movement by arrival, its end being its
      arrival or else its last update. */
  function MovementLookup(ms: seq<Movements.Movement>): (l: ActivityLookup)
    ensures l.Lookup?
    ensures l.lastCompletedEnd.None? <==> forall i :: 0 <= i < |ms| ==> !MovementDone(ms[i])
    ensures l.lastCompletedEnd.Some? ==>
      exists i :: && 0 <= i < |ms| && MovementDone(ms[i])
                  && l.lastCompletedEnd.value == ms[i].arrivalTime.GetOr(ms[i].updatedAt)
                  && forall j :: 0 <= j < |ms| && MovementDone(ms[j]) ==> NotAfter(MovementDate(ms[j]), MovementDate(ms[i]))
    ensures l.hasInProgress <==> exists i :: 0 <= i < |ms| && ms[i].status == Movements.InProgress
  {
    var last := LatestDone(ms, MovementDone, MovementDate);
    Lookup(if last.Some? then Some(last.value.arrivalTime.GetOr(last.value.updatedAt)) else None,
           exists i :: 0 <= i < |ms| && ms[i].status == Movements.InProgress)
  }

  predicate PrepDone(p: Preparation) { p.status == PrepCompleted }
  function PrepDate(p: Preparation): Option<int> { p.endTime }

  /** The preparator lookup: last completed preparation by end time. */
  function PreparationLookup(ps: seq<Preparation>): (l: ActivityLookup)
    ensures l.Lookup?
    ensures l.lastCompletedEnd.None? <==> forall i :: 0 <= i < |ps| ==> !PrepDone(ps[i])
    ensures l.lastCompletedEnd.Some? ==>
      exists i :: && 0 <= i < |ps| && PrepDone(ps[i])
                  && l.lastCompletedEnd.value == ps[i].endTime.GetOr(ps[i].updatedAt)
                  && forall j :: 0 <= j < |ps| && PrepDone(ps[j]) ==> NotAfter(PrepDate(ps[j]), PrepDate(ps[i]))
    ensures l.hasInProgress <==> exists i :: 0 <= i < |ps| && ps[i].status == PrepInProgress
  {
    var last := LatestDone(ps, PrepDone, PrepDate);
    Lookup(if last.Some? then Some(last.value.endTime.GetOr(last.value.updatedAt)) else None,
           exists i :: 0 <= i < |ps| && ps[i].status == PrepInProgress)
  }

  /** When every completed movement has an arrival time, the driver lookup
      reports the latest arrival: one completed movement arrived then, and
      none arrived later. */
  lemma MovementLookupIsLatestArrival(ms: seq<Movements.Movement>)
    requires forall i :: 0 <= i < |ms| && MovementDone(ms[i]) ==> ms[i].arrivalTime.Some?
    ensures MovementLookup(ms).lastCompletedEnd.Some? ==>
      exists i :: 0 <= i < |ms| && MovementDone(ms[i]) && ms[i].arrivalTime == MovementLookup(ms).lastCompletedEnd
    ensures MovementLookup(ms).lastCompletedEnd.Some? ==>
      forall i :: 0 <= i < |ms| && MovementDone(ms[i]) ==> ms[i].arrivalTime.value <= MovementLookup(ms).lastCompletedEnd.value
  {
  }

  // ---------------------------------------------------------------------
  // The decision
  // ---------------------------------------------------------------------

  const HardCap: int := 24 * MsPerHour
  const DefaultLimit: int := 12 * MsPerHour
  const NoActivityLimit: int := 2 * MsPerHour
  const IdleLimit: int := 15 * MsPerMinute

  /** Why a session was closed or kept open. Hours and minutes are the
      elapsed time rounded to the nearest unit. */
  datatype Reason =
    | OverCap(hours: int)
    | OverRoleLimit(hours: int, role: string)
    | UnderRoleLimit(hours: int, role: string)
    | NoMovement(hours: int)
    | MovementPending
    | LastMovement(minutes: int)
    | RecentMovement(minutes: int)
    | NoPreparation(hours: int)
    | PreparationPending
    | LastPreparation(minutes: int)
    | RecentPreparation(minutes: int)
    | CheckFailed

  function ReasonText(r: Reason): string
  {
    match r
    case OverCap(h) => "Connecté depuis " + IntToString(h) + "h (> 24h)"
    case OverRoleLimit(h, role) => "Connecté depuis " + IntToString(h) + "h (> 12h pour " + role + ")"
    case UnderRoleLimit(h, role) => "Connecté depuis " + IntToString(h) + "h (< 12h pour " + role + ")"
    case NoMovement(h) => "Aucun mouvement et connecté depuis " + IntToString(h) + "h"
    case MovementPending => "Mouvement en cours ou récemment connecté"
    case LastMovement(m) => "Dernier mouvement terminé il y a " + IntToString(m) + " minutes"
    case RecentMovement(m) => "Dernier mouvement terminé il y a " + IntToString(m) + " minutes (< 15min)"
    case NoPreparation(h) => "Aucune préparation et connecté depuis " + IntToString(h) + "h"
    case PreparationPending => "Préparation en cours ou récemment connecté"
    case LastPreparation(m) => "Dernière préparation terminée il y a " + IntToString(m) + " minutes"
    case RecentPreparation(m) => "Dernière préparation terminée il y a " + IntToString(m) + " minutes (< 15min)"
    case CheckFailed => "Erreur lors de la vérification"
  }

  /** The reasons that accompany a disconnection. */
  predicate ClosingReason(r: Reason)
  {
    r.OverCap? || r.OverRoleLimit? || r.NoMovement? || r.LastMovement? || r.NoPreparation? || r.LastPreparation?
  }

  datatype Decision = Decision(disconnect: bool, reason: Reason)

  predicate IsDriverRole(role: string) { role == "driver" || role == "team-leader" }

  /** The activity rule shared by drivers and preparators: idle for more than
      15 minutes since the last completed task, or, with none, nothing in
      progress and connected for more than two hours. A failed lookup keeps
      the session open. */
  predicate Idle(l: ActivityLookup, startTime: int, now: int)
  {
    l.Lookup? &&
    if l.lastCompletedEnd.Some? then now - l.lastCompletedEnd.value > IdleLimit
    else !l.hasInProgress && now - startTime > NoActivityLimit
  }

  /** The activity rule with its reason; `drivers` selects the movement
      wording, otherwise the preparation wording. */
  function ActivityDecision(l: ActivityLookup, startTime: int, now: int, drivers: bool): (d: Decision)
    ensures d.disconnect <==> Idle(l, startTime, now)
    ensures d.disconnect <==> ClosingReason(d.reason)
    ensures l.LookupFailed? ==> d == Decision(false, CheckFailed)
    ensures l.Lookup? && l.lastCompletedEnd.Some? ==>
      var m := RoundDiv(now - l.lastCompletedEnd.value, MsPerMinute);
      d.reason in (if drivers then {LastMovement(m), RecentMovement(m)} else {LastPreparation(m), RecentPreparation(m)})
    ensures l.Lookup? && l.lastCompletedEnd.None? ==>
      var h := RoundDiv(now - startTime, MsPerHour);
      d.reason in (if drivers then {NoMovement(h), MovementPending} else {NoPreparation(h), PreparationPending})
  {
    match l
    case LookupFailed => Decision(false, CheckFailed)
    case Lookup(last, inProgress) =>
      if last.None? then
        var hours := RoundDiv(now - startTime, MsPerHour);
        if !inProgress && now - startTime > NoActivityLimit then
          Decision(true, if drivers then NoMovement(hours) else NoPreparation(hours))
        else Decision(false, if drivers then MovementPending else PreparationPending)
      else
        var minutes := RoundDiv(now - last.value, MsPerMinute);
        if now - last.value > IdleLimit then
          Decision(true, if drivers then LastMovement(minutes) else LastPreparation(minutes))
        else Decision(false, if drivers then RecentMovement(minutes) else RecentPreparation(minutes))
  }

  /** Whether the session of a user with `role`, opened at `startTime`, is
      closed at `now`: always after 24 hours; drivers and team leaders by
      movement activity, preparators by preparation activity, every other
      role after 12 hours. */
  function ShouldDisconnectUser(startTime: int, role: string, movements: ActivityLookup, preparations: ActivityLookup, now: int): (d: Decision)
    ensures d.disconnect <==>
      || now - startTime > HardCap
      || (IsDriverRole(role) && Idle(movements, startTime, now))
      || (role == "preparator" && Idle(preparations, startTime, now))
      || (!IsDriverRole(role) && role != "preparator" && now - startTime > DefaultLimit)
    ensures now - startTime > HardCap ==> d.reason == OverCap(RoundDiv(now - startTime, MsPerHour))
    ensures d.disconnect <==> ClosingReason(d.reason)
    ensures now - startTime <= HardCap && IsDriverRole(role) ==> d == ActivityDecision(movements, startTime, now, true)
    ensures now - startTime <= HardCap && role == "preparator" ==> d == ActivityDecision(preparations, startTime, now, false)
    ensures now - startTime <= HardCap && !IsDriverRole(role) && role != "preparator" ==>
      var h := RoundDiv(now - startTime, MsPerHour);
      d.reason in {OverRoleLimit(h, role), UnderRoleLimit(h, role)}
  {
    var elapsed := now - startTime;
    var hours := RoundDiv(elapsed, MsPerHour);
    if elapsed > HardCap then Decision(true, OverCap(hours))
    else if IsDriverRole(role) then ActivityDecision(movements, startTime, now, true)
    else if role == "preparator" then ActivityDecision(preparations, startTime, now, false)
    else if elapsed > DefaultLimit then Decision(true, OverRoleLimit(hours, role))
    else Decision(false, UnderRoleLimit(hours, role))
  }

  /** Waiting longer never reopens the question: a session that would be
      closed now would also be closed at any later sweep with the same
      lookups. */
  lemma DisconnectMonotone(startTime: int, role: string, movements: ActivityLookup, preparations: ActivityLookup, now: int, later: int)
    requires now <= later
    requires ShouldDisconnectUser(startTime, role, movements, preparations, now).disconnect
    ensures ShouldDisconnectUser(startTime, role, movements, preparations, later).disconnect
  {
  }

  /** Below the 24-hour cap a failed lookup keeps drivers and preparators connected. */
  lemma LookupFailureRetains(startTime: int, role: string, now: int)
    requires now - startTime <= HardCap
    requires IsDriverRole(role) || role == "preparator"
    ensures ShouldDisconnectUser(startTime, role, LookupFailed, LookupFailed, now) == Decision(false, CheckFailed)
  {
  }

  /** Sixteen minutes after the last arrival a driver is disconnected, fourteen
      minutes after it they are not. */
  lemma DriverIdleExamples()
    ensures ShouldDisconnectUser(0, "driver", Lookup(Some(10 * MsPerHour), false), LookupFailed, 10 * MsPerHour + 16 * MsPerMinute)
         == Decision(true, LastMovement(16))
    ensures ShouldDisconnectUser(0, "driver", Lookup(Some(10 * MsPerHour), false), LookupFailed, 10 * MsPerHour + 14 * MsPerMinute)
         == Decision(false, RecentMovement(14))
  {
    assert RoundDiv(16 * MsPerMinute, MsPerMinute) == 16;
    assert RoundDiv(14 * MsPerMinute, MsPerMinute) == 14;
  }

  /** The last completed movement is not restricted to the current session:
      a driver who has just punched in is disconnected when their last
      completed movement ended more than 15 minutes earlier. */
  lemma FreshSessionClosedByEarlierMovement(startTime: int, lastEnd: int, now: int)
    requires lastEnd < startTime <= now
    requires now - lastEnd > IdleLimit
    ensures ShouldDisconnectUser(startTime, "driver", Lookup(Some(lastEnd), false), LookupFailed, now).disconnect
  {
  }

  // ---------------------------------------------------------------------
  // Closing a session and the sweep
  // ---------------------------------------------------------------------

  function AutoNote(reason: string): string { "Service terminé automatiquement: " + reason }

  /** Closes `log` at `now` with the given reason: the note is appended to
      any existing notes on a new line. */
  function DisconnectUser(log: Session, reason: string, now: int): (s: Session)
    ensures s.endTime == Some(now) && s.status == Completed
    ensures s.isAutoDisconnected && s.autoDisconnectReason == reason
    ensures log.notes == "" ==> s.notes == AutoNote(reason)
    ensures log.notes != "" ==> |s.notes| > |log.notes| && s.notes[..|log.notes|] == log.notes && s.notes[|log.notes|..] == "\n" + AutoNote(reason)
    ensures s.id == log.id && s.userId == log.userId && s.startTime == log.startTime && s.kind == log.kind
    ensures s.isAutoGenerated == log.isAutoGenerated && s.autoGenerationReason == log.autoGenerationReason
  {
    var notes := if log.notes == "" then AutoNote(reason) else log.notes + "\n" + AutoNote(reason);
    log.(endTime := Some(now), status := Completed, notes := notes,
         isAutoDisconnected := true, autoDisconnectReason := reason)
  }

  /** One open timelog as the sweep finds it: its owner (absent when the
      account no longer exists), the owner's lookups, and whether saving the
      closed timelog fails (with the error message). */
  datatype ActiveEntry = ActiveEntry(
    log: Session,
    user: Option<User>,
    movements: ActivityLookup,
    preparations: ActivityLookup,
    saveFailure: Option<string>)

  datatype SweepError = SweepError(userId: string, username: string, message: string)

  datatype SweepResult = SweepResult(processed: nat, disconnected: nat, errors: seq<SweepError>, closed: seq<Session>)

  function DecisionFor(e: ActiveEntry, now: int): Decision
    requires e.user.Some?
  {
    ShouldDisconnectUser(e.log.startTime, e.user.value.role, e.movements, e.preparations, now)
  }

  /** Whether the sweep closes this entry's timelog. */
  predicate Closes(e: ActiveEntry, now: int)
  {
    e.user.Some? && DecisionFor(e, now).disconnect && e.saveFailure.None?
  }

  /** What one entry contributes to the sweep's result. */
  function EntryOutcome(e: ActiveEntry, now: int): (r: SweepResult)
    ensures r.processed == 1
    ensures r.disconnected == |r.closed| == (if Closes(e, now) then 1 else 0)
    ensures |r.errors| == (if e.user.Some? && DecisionFor(e, now).disconnect && e.saveFailure.Some? then 1 else 0)
  {
    if e.user.None? then SweepResult(1, 0, [], [])
    else
      var d := DecisionFor(e, now);
      if !d.disconnect then SweepResult(1, 0, [], [])
      else if e.saveFailure.Some? then
        SweepResult(1, 0, [SweepError(e.user.value.id, e.user.value.fullName, e.saveFailure.value)], [])
      else SweepResult(1, 1, [], [DisconnectUser(e.log, ReasonText(d.reason), now)])
  }

  function Combine(x: SweepResult, y: SweepResult): SweepResult
  {
    SweepResult(x.processed + y.processed, x.disconnected + y.disconnected, x.errors + y.errors, x.closed + y.closed)
  }

  /** The loop over all open timelogs: every entry is counted as processed,
      an entry without owner is skipped, and a failed save is recorded as an
      error without stopping the sweep. */
  function SweepEntries(entries: seq<ActiveEntry>, now: int): (r: SweepResult)
    ensures r.processed == |entries|
    ensures r.disconnected == |r.closed|
    ensures r.disconnected + |r.errors| <= r.processed
  {
    if |entries| == 0 then SweepResult(0, 0, [], [])
    else Combine(SweepEntries(entries[..|entries| - 1], now), EntryOutcome(entries[|entries| - 1], now))
  }

  datatype SweepFailure = ActiveQueryFailed

  /** `endOrphanedServices`: `active` is `None` when reading the open
      timelogs fails, and that error is rethrown; otherwise the open timelogs
      are swept one by one. */
  function EndOrphanedServices(active: Option<seq<ActiveEntry>>, now: int): (r: Result<SweepResult, SweepFailure>)
    ensures r.Err? <==> active.None?
    ensures active == Some([]) ==> r == Ok(SweepResult(0, 0, [], []))
    ensures r.Ok? ==> r.value.processed == |active.value|
    ensures r.Ok? ==> r.value.disconnected == |r.value.closed| == CountWhere(active.value, e => Closes(e, now))
    ensures r.Ok? ==> r.value.disconnected + |r.value.errors| <= r.value.processed
  {
    match active
    case None => Err(ActiveQueryFailed)
    case Some(entries) =>
      DisconnectedCount(entries, now);
      Ok(SweepEntries(entries, now))
  }

  /** The sweep disconnects exactly the entries that have an owner, are due
      for disconnection and save successfully. */
  lemma {:induction false} DisconnectedCount(entries: seq<ActiveEntry>, now: int)
    ensures SweepEntries(entries, now).disconnected == CountWhere(entries, e => Closes(e, now))
  {
    if |entries| > 0 {
      DisconnectedCount(entries[..|entries| - 1], now);
    }
  }

  /** Every timelog the sweep closes is completed at the sweep's time and
      marked as automatically disconnected. */
  lemma {:induction false} ClosedAreAutoDisconnected(entries: seq<ActiveEntry>, now: int)
    ensures forall k :: 0 <= k < |SweepEntries(entries, now).closed| ==>
      var s := SweepEntries(entries, now).closed[k];
      s.status == Completed && s.isAutoDisconnected && s.endTime == Some(now)
  {
    if |entries| > 0 {
      ClosedAreAutoDisconnected(entries[..|entries| - 1], now);
    }
  }

  /** Sweeping two lists of timelogs one after the other gives the same
      result as sweeping them together: the entries are independent. */
  lemma {:induction false} SweepAppend(a: seq<ActiveEntry>, b: seq<ActiveEntry>, now: int)
    ensures SweepEntries(a + b, now).processed == SweepEntries(a, now).processed + SweepEntries(b, now).processed
    ensures SweepEntries(a + b, now).closed == SweepEntries(a, now).closed + SweepEntries(b, now).closed
    ensures SweepEntries(a + b, now).errors == SweepEntries(a, now).errors + SweepEntries(b, now).errors
    decreases |b|
  {
    if |b| == 0 {
      assert a + b == a;
    } else {
      var b' := b[..|b| - 1];
      assert (a + b)[..|a + b| - 1] == a + b';
      assert (a + b)[|a + b| - 1] == b[|b| - 1];
      SweepAppend(a, b', now);
      CombineAssociative(SweepEntries(a, now), SweepEntries(b', now), EntryOutcome(b[|b| - 1], now));
    }
  }

  lemma CombineAssociative(x: SweepResult, y: SweepResult, z: SweepResult)
    ensures Combine(Combine(x, y), z) == Combine(x, Combine(y, z))
  {
    assert x.closed + y.closed + z.closed == x.closed + (y.closed + z.closed);
    assert x.errors + y.errors + z.errors == x.errors + (y.errors + z.errors);
  }

  /** A timelog whose owner no longer exists only raises the processed count. */
  lemma OwnerlessEntryIgnored(a: seq<ActiveEntry>, e: ActiveEntry, b: seq<ActiveEntry>, now: int)
    requires e.user.None?
    ensures SweepEntries(a + [e] + b, now).closed == SweepEntries(a + b, now).closed
    ensures SweepEntries(a + [e] + b, now).errors == SweepEntries(a + b, now).errors
  {
    OwnerlessLast(a, e, now);
    SweepAppend(a + [e], b, now);
    SweepAppend(a, b, now);
  }

  lemma OwnerlessLast(a: seq<ActiveEntry>, e: ActiveEntry, now: int)
    requires e.user.None?
    ensures SweepEntries(a + [e], now).closed == SweepEntries(a, now).closed
    ensures SweepEntries(a + [e], now).errors == SweepEntries(a, now).errors
  {
    assert (a + [e])[..|a + [e]| - 1] == a;
  }
}

=== FILE: hrreport.dfy ===
/** The daily HR analysis of one employee's timelogs, the duration
    formatting it uses, and the role names shown in the report. */
module HrReport {
  import opened Common
  import opened Text
  import opened Timelog

  // ---------------------------------------------------------------------
  // Duration formatting
  // ---------------------------------------------------------------------

  /** The duration formatter as written: whole hours by flooring, then the
      minutes left over (JavaScript's truncated remainder) rounded. Rounding
      after splitting lets the minutes reach 60. */
  function FormatDurationAsWritten(ms: int): (s: string)
    ensures ms == 0 ==> s == "0h00"
  {
    if ms == 0 then "0h00"
    else
      var hours := ms / MsPerHour;
      var remainder := if ms >= 0 then ms % MsPerHour else -((-ms) % MsPerHour);
      var mins := RoundDiv(remainder, MsPerMinute);
      Render(hours, mins)
  }

  /** The duration formatter as intended: round to whole minutes first,
      then split into hours and minutes. */
  function FormatDuration(ms: int): string
  {
    var total := RoundDiv(ms, MsPerMinute);
    Render(total / 60, total % 60)
  }

  /** "<hours>h<minutes on two digits>", the shape both formatters print. */
  function Render(hours: int, minutes: int): string
  {
    IntToString(hours) + "h" + PadStart2(IntToString(minutes))
  }

  /** Reads "<hours>h<two digits>" back into its hours and minutes fields. */
  function ParseHoursMinutes(s: string): Option<(nat, nat)>
  {
    if |s| >= 4 && s[|s| - 3] == 'h' && AllDigits(s[..|s| - 3]) && AllDigits(s[|s| - 2..])
    then Some((ParseNat(s[..|s| - 3]), ParseNat(s[|s| - 2..])))
    else None
  }

  lemma {:induction false} TwoDigits(m: nat)
    requires m < 100
    ensures |PadStart2(NatToString(m))| == 2 && AllDigits(PadStart2(NatToString(m)))
    ensures ParseNat(PadStart2(NatToString(m))) == m
  {
    ParseNatToString(m);
    if m < 10 {
      ParseLeadingZero(NatToString(m));
    } else {
      assert NatToString(m) == NatToString(m / 10) + [DigitChar(m % 10)];
    }
  }

  /** For a non-negative duration the intended format reads back as hours
      and a minutes field below 60 that together make the duration rounded
      to the minute. */
  lemma {:induction false} FormatDurationReadsBack(ms: int)
    requires ms >= 0
    ensures var total := RoundDiv(ms, MsPerMinute);
      ParseHoursMinutes(FormatDuration(ms)) == Some((total / 60, total % 60))
    ensures var p := ParseHoursMinutes(FormatDuration(ms)).value;
      p.1 < 60 && 60 * p.0 + p.1 == RoundDiv(ms, MsPerMinute)
  {
    var total := RoundDiv(ms, MsPerMinute);
    assert total >= 0;
    RenderReadsBack(total / 60, total % 60);
  }

  /** Hours and a two-digit minutes field read back from their rendering. */
  lemma RenderReadsBack(h: nat, m: nat)
    requires m < 100
    ensures ParseHoursMinutes(Render(h, m)) == Some((h, m))
  {
    TwoDigits(m);
    ParseNatToString(h);
    assert Render(h, m) == NatToString(h) + "h" + PadStart2(NatToString(m));
    FieldsReadBack(NatToString(h), PadStart2(NatToString(m)));
  }

  /** A digit run, an 'h' and two digits split back into the two runs. */
  lemma FieldsReadBack(hs: string, ms: string)
    requires |hs| >= 1 && AllDigits(hs) && |ms| == 2 && AllDigits(ms)
    ensures ParseHoursMinutes(hs + "h" + ms) == Some((ParseNat(hs), ParseNat(ms)))
  {
    var s := hs + "h" + ms;
    assert s[..|s| - 3] == hs;
    assert s[|s| - 2..] == ms;
    assert s[|s| - 3] == 'h';
  }

  /** For a positive duration the as-written formatter reads back as the
      whole hours and the leftover minutes rounded on their own, a field that
      can reach 60. */
  lemma AsWrittenReadsBack(ms: int)
    requires ms > 0
    ensures ParseHoursMinutes(FormatDurationAsWritten(ms)) == Some((ms / MsPerHour, RoundDiv(ms % MsPerHour, MsPerMinute)))
    ensures 0 <= RoundDiv(ms % MsPerHour, MsPerMinute) <= 60
  {
    var mins := RoundDiv(ms % MsPerHour, MsPerMinute);
    assert 0 <= mins <= 60;
    RenderReadsBack(ms / MsPerHour, mins);
  }

  /** The as-written formatter prints 59.5 minutes as "0h60", a minutes field
      of 60, where the intended formatter prints "1h00". */
  lemma FormatDurationAsWrittenOverflows()
    ensures FormatDurationAsWritten(3_570_000) == "0h60"
    ensures ParseHoursMinutes(FormatDurationAsWritten(3_570_000)) == Some((0, 60))
    ensures FormatDuration(3_570_000) == "1h00"
  {
    assert RoundDiv(3_570_000, MsPerMinute) == 60;
    assert NatToString(60) == NatToString(6) + [DigitChar(0)];
    assert NatToString(1) == "1";
    assert NatToString(0) == "0";
    assert ParseNat("60") == 60 by {
      assert "60"[..1] == "6";
    }
  }

  /** For a non-negative duration the two formatters differ exactly when the
      minutes left over after the whole hours round up to 60, that is when
      they are at least 59.5. */
  lemma FormatsAgreeUnlessMinutesRoundUp(ms: int)
    requires ms >= 0
    ensures FormatDurationAsWritten(ms) == FormatDuration(ms) <==> ms % MsPerHour < 3_570_000
  {
    if ms % MsPerHour < 3_570_000 {
      FormatsAgreeBelow(ms);
    } else {
      FormatsDifferFrom(ms);
    }
  }

  lemma FormatsAgreeBelow(ms: int)
    requires ms >= 0 && ms % MsPerHour < 3_570_000
    ensures FormatDurationAsWritten(ms) == FormatDuration(ms)
  {
    if ms == 0 {
      assert RoundDiv(ms, MsPerMinute) == 0;
      assert Render(0, 0) == "0h00";
    } else {
      MinutesStayBelowSixty(ms);
    }
  }

  lemma FormatsDifferFrom(ms: int)
    requires ms >= 0 && ms % MsPerHour >= 3_570_000
    ensures FormatDurationAsWritten(ms) != FormatDuration(ms)
  {
    MinutesRoundUpToSixty(ms);
    RenderedMinutesDiffer(ms / MsPerHour);
  }

  /** A minutes field of 60 never prints like the next hour's "00". */
  lemma RenderedMinutesDiffer(hours: int)
    requires hours >= 0
    ensures Render(hours, 60) != Render(hours + 1, 0)
  {
    var a := Render(hours, 60);
    var c := Render(hours + 1, 0);
    assert NatToString(60) == NatToString(6) + [DigitChar(0)];
    assert a == NatToString(hours) + "h" + "60";
    assert c == NatToString(hours + 1) + "h" + "00";
    assert a[|a| - 2] != c[|c| - 2];
  }

  /** Below 59.5 leftover minutes, rounding the leftover agrees with
      rounding the whole duration. */
  lemma MinutesStayBelowSixty(ms: int)
    requires ms >= 0 && ms % MsPerHour < 3_570_000
    ensures var total := RoundDiv(ms, MsPerMinute);
      total / 60 == ms / MsPerHour && total % 60 == RoundDiv(ms % MsPerHour, MsPerMinute)
  {
    var hours := ms / MsPerHour;
    var rem := ms % MsPerHour;
    var mins := RoundDiv(rem, MsPerMinute);
    assert ms == MsPerHour * hours + rem;
    assert 0 <= mins < 60;
    assert RoundDiv(ms, MsPerMinute) == 60 * hours + mins;
  }

  /** From 59.5 leftover minutes on, the leftover rounds to 60 and the whole
      duration to the next hour. */
  lemma MinutesRoundUpToSixty(ms: int)
    requires ms >= 0 && ms % MsPerHour >= 3_570_000
    ensures RoundDiv(ms % MsPerHour, MsPerMinute) == 60
    ensures var total := RoundDiv(ms, MsPerMinute);
      total / 60 == ms / MsPerHour + 1 && total % 60 == 0
  {
    var hours := ms / MsPerHour;
    var rem := ms % MsPerHour;
    assert ms == MsPerHour * hours + rem;
    assert RoundDiv(ms, MsPerMinute) == 60 * (hours + 1);
  }

  // ---------------------------------------------------------------------
  // Role names
  // ---------------------------------------------------------------------

  /** The French name of a role; an unknown role is shown as is. */
  function TranslateRole(role: string): (name: string)
    ensures role == "driver" ==> name == "Chauffeur"
    ensures role == "preparator" ==> name == "Préparateur"
    ensures role == "team-leader" ==> name == "Chef d'équipe"
    ensures role == "admin" ==> name == "Administrateur"
    ensures role == "direction" ==> name == "Direction"
    ensures role !in ["driver", "preparator", "team-leader", "admin", "direction"] ==> name == role
  {
    if role == "driver" then "Chauffeur"
    else if role == "preparator" then "Préparateur"
    else if role == "team-leader" then "Chef d'équipe"
    else if role == "admin" then "Administrateur"
    else if role == "direction" then "Direction"
    else role
  }

  // ---------------------------------------------------------------------
  // The day of one employee
  // ---------------------------------------------------------------------

  const MinBreak: int := 15 * MsPerMinute
  const MaxBreak: int := 120 * MsPerMinute
  const LongDay: int := 600 * MsPerMinute
  const ShortDay: int := 240 * MsPerMinute
  const BreaklessLimit: int := 360 * MsPerMinute

  /** The length of a timelog; one without an end counts as zero. */
  function Duration(s: Session): int
  {
    if s.endTime.Some? then s.endTime.value - s.startTime else 0
  }

  /** A timelog looks like a break when it lasts between 15 minutes and two
      hours and is neither the first nor the last of the day. */
  predicate IsProbablyBreak(index: int, count: int, duration: int)
  {
    MinBreak <= duration <= MaxBreak && index != 0 && index != count - 1
  }

  predicate IsBreakAt(logs: seq<Session>, i: int)
    requires 0 <= i < |logs|
  {
    logs[i].status == Completed && IsProbablyBreak(i, |logs|, Duration(logs[i]))
  }

  /** A formatted clock time: a real instant, or the "Invalid date" a missing
      end time formats to. */
  datatype Stamp = At(ms: int) | InvalidDate

  function EndStamp(s: Session): Stamp
  {
    if s.endTime.Some? then At(s.endTime.value) else InvalidDate
  }

  /** Sum of the durations of the completed timelogs among the first `k`. */
  function CompletedTotal(logs: seq<Session>, k: nat): int
    requires k <= |logs|
  {
    if k == 0 then 0
    else CompletedTotal(logs, k - 1) + (if logs[k - 1].status == Completed then Duration(logs[k - 1]) else 0)
  }

  /** Index of the first completed timelog among the first `k` that looks like a break. */
  function FirstBreak(logs: seq<Session>, k: nat): (r: Option<nat>)
    requires k <= |logs|
    ensures r.Some? ==> r.value < k && IsBreakAt(logs, r.value)
    ensures r.Some? ==> forall j :: 0 <= j < r.value ==> !IsBreakAt(logs, j)
    ensures r.None? ==> forall j :: 0 <= j < k ==> !IsBreakAt(logs, j)
  {
    if k == 0 then None
    else
      var p := FirstBreak(logs, k - 1);
      if p.Some? then p else if IsBreakAt(logs, k - 1) then Some(k - 1) else None
  }

  /** The end stamp of the last completed timelog among the first `k`. */
  function LastCompletedEnd(logs: seq<Session>, k: nat): (r: Option<Stamp>)
    requires k <= |logs|
    ensures r.None? <==> forall j :: 0 <= j < k ==> logs[j].status != Completed
  {
    if k == 0 then None
    else if logs[k - 1].status == Completed then Some(EndStamp(logs[k - 1]))
    else LastCompletedEnd(logs, k - 1)
  }

  const ServiceOngoing: string := "Service en cours"
  const AutoDisconnected: string := "Déconnexion automatique"

  /** The observations one timelog contributes, in order. */
  function LogObservations(s: Session): seq<string>
  {
    (if s.status == Active then [ServiceOngoing] else []) + (if s.isAutoDisconnected then [AutoDisconnected] else [])
  }

  function ObservationsUpTo(logs: seq<Session>, k: nat): seq<string>
    requires k <= |logs|
  {
    if k == 0 then [] else ObservationsUpTo(logs, k - 1) + LogObservations(logs[k - 1])
  }

  /** The observations about the day's length and missing break. */
  function DurationObservations(total: int, breakMs: int): seq<string>
  {
    (if total > LongDay then ["Journée longue (>10h)"] else if total < ShortDay then ["Journée courte (<4h)"] else [])
    + (if breakMs == 0 && total > BreaklessLimit then ["Aucune pause détectée"] else [])
  }

  datatype DayStatus = NotClockedIn | OnDuty | ServiceFinished

  function DayStatusText(st: DayStatus): string
  {
    match st
    case NotClockedIn => "Non pointé"
    case OnDuty => "En service"
    case ServiceFinished => "Service terminé"
  }

  /** The analysis of a day. The three durations are exact sums in
      milliseconds, where the report sums floating-point minutes; the report
      prints each of them through the formatter as written,
      `FormatDurationAsWritten`, so a total within half a minute below a whole
      hour prints with a minutes field of 60. */
  datatype EmployeeDay = EmployeeDay(
    hasWorked: bool,
    isCurrentlyWorking: bool,
    serviceStart: Option<int>,
    serviceEnd: Option<Stamp>,
    breakStart: Option<int>,
    breakEnd: Option<Stamp>,
    totalWorkedMs: int,
    totalWorkedTime: Option<int>,
    effectiveWorkTime: Option<int>,
    breakDuration: Option<int>,
    status: DayStatus,
    observations: seq<string>)

  predicate HasActive(logs: seq<Session>)
  {
    exists i :: 0 <= i < |logs| && logs[i].status == Active
  }

  /** The analysis of one employee's timelogs of the day, in their stored
      order: worked time is the sum of the completed timelogs, the first
      completed timelog that looks like a break is the break, and the status
      and observations follow from these. */
  method AnalyzeEmployeeDay(logs: seq<Session>) returns (r: EmployeeDay)
    ensures r.hasWorked <==> |logs| > 0
    ensures |logs| == 0 ==>
      r == EmployeeDay(false, false, None, None, None, None, 0, None, None, None, NotClockedIn, ["Aucun pointage enregistré"])
    ensures r.breakStart.None? ==> r.breakEnd.None? && r.breakDuration.None?
    ensures r.isCurrentlyWorking <==> HasActive(logs)
    ensures |logs| > 0 ==> r.status == (if HasActive(logs) then OnDuty else ServiceFinished)
    ensures |logs| > 0 ==> r.serviceStart == Some(logs[0].startTime)
    ensures r.serviceEnd == LastCompletedEnd(logs, |logs|)
    ensures |logs| > 0 ==> r.totalWorkedMs == CompletedTotal(logs, |logs|)
    ensures |logs| > 0 ==> r.totalWorkedTime == Some(CompletedTotal(logs, |logs|))
    ensures r.breakStart.Some? <==> FirstBreak(logs, |logs|).Some?
    ensures r.breakStart.Some? ==> var b := FirstBreak(logs, |logs|).value;
      r.breakStart == Some(logs[b].startTime) && r.breakEnd == Some(EndStamp(logs[b]))
        && r.breakDuration == Some(Duration(logs[b]))
        && r.effectiveWorkTime == Some(CompletedTotal(logs, |logs|) - Duration(logs[b]))
    ensures |logs| > 0 && r.breakStart.None? ==>
      r.breakDuration.None? && r.effectiveWorkTime == Some(CompletedTotal(logs, |logs|))
    ensures |logs| > 0 ==>
      r.observations == ObservationsUpTo(logs, |logs|) + DurationObservations(CompletedTotal(logs, |logs|), if r.breakStart.Some? then Duration(logs[FirstBreak(logs, |logs|).value]) else 0)
  {
    if |logs| == 0 {
      return EmployeeDay(false, false, None, None, None, None, 0, None, None, None, NotClockedIn, ["Aucun pointage enregistré"]);
    }
    var total := 0;
    var breakMs := 0;
    var working := false;
    var serviceStart: Option<int> := None;
    var serviceEnd: Option<Stamp> := None;
    var breakStart: Option<int> := None;
    var breakEnd: Option<Stamp> := None;
    var observations: seq<string> := [];
    var i := 0;
    while i < |logs|
      invariant 0 <= i <= |logs|
      invariant total == CompletedTotal(logs, i)
      invariant working <==> exists j :: 0 <= j < i && logs[j].status == Active
      invariant serviceStart == (if i > 0 then Some(logs[0].startTime) else None)
      invariant serviceEnd == LastCompletedEnd(logs, i)
      invariant breakStart.Some? <==> FirstBreak(logs, i).Some?
      invariant breakStart.Some? ==>
        && breakStart == Some(logs[FirstBreak(logs, i).value].startTime)
        && breakEnd == Some(EndStamp(logs[FirstBreak(logs, i).value]))
        && breakMs == Duration(logs[FirstBreak(logs, i).value])
      invariant breakStart.None? ==> breakMs == 0 && breakEnd.None?
      invariant observations == ObservationsUpTo(logs, i)
    {
      var s := logs[i];
      var duration := Duration(s);
      assert FirstBreak(logs, i + 1) ==
        (if FirstBreak(logs, i).Some? then FirstBreak(logs, i) else if IsBreakAt(logs, i) then Some(i) else None);
      assert CompletedTotal(logs, i + 1) == total + (if s.status == Completed then duration else 0);
      if s.status == Active {
        working := true;
        observations := observations + [ServiceOngoing];
        if serviceStart.None? {
          serviceStart := Some(s.startTime);
        }
      } else {
        total := total + duration;
        if serviceStart.None? {
          serviceStart := Some(s.startTime);
        }
        serviceEnd := Some(EndStamp(s));
        if IsProbablyBreak(i, |logs|, duration) && breakStart.None? {
          breakStart := Some(s.startTime);
          breakEnd := Some(EndStamp(s));
          breakMs := breakMs + duration;
        }
      }
      if s.isAutoDisconnected {
        observations := observations + [AutoDisconnected];
      }
      i := i + 1;
    }
    var status := if working then OnDuty else ServiceFinished;
    var effective := total - breakMs;

    r := EmployeeDay(
      true, working, serviceStart, serviceEnd, breakStart, breakEnd, total,
      Some(total),
      Some(effective),
      if breakMs > 0 then Some(breakMs) else None,
      status,
      observations + DurationObservations(total, breakMs));
  }

  /** The reported break is one timelog strictly inside the day lasting
      between 15 minutes and two hours, and no earlier timelog qualified. */
  lemma BreakIsInsideTheDay(logs: seq<Session>)
    requires FirstBreak(logs, |logs|).Some?
    ensures var b := FirstBreak(logs, |logs|).value;
      0 < b < |logs| - 1 && MinBreak <= Duration(logs[b]) <= MaxBreak && logs[b].status == Completed
  {
  }

  /** With no negative durations the break is part of the worked time, so
      the effective time is never negative. */
  lemma {:induction false} BreakWithinTotal(logs: seq<Session>, k: nat)
    requires k <= |logs|
    requires forall j :: 0 <= j < |logs| ==> Duration(logs[j]) >= 0
    requires FirstBreak(logs, k).Some?
    ensures 0 < Duration(logs[FirstBreak(logs, k).value]) <= CompletedTotal(logs, k)
  {
    var b := FirstBreak(logs, k).value;
    if b < k - 1 {
      assert FirstBreak(logs, k - 1) == FirstBreak(logs, k);
      BreakWithinTotal(logs, k - 1);
    } else {
      TotalNonNegative(logs, k - 1);
    }
  }

  lemma {:induction false} TotalNonNegative(logs: seq<Session>, k: nat)
    requires k <= |logs|
    requires forall j :: 0 <= j < |logs| ==> Duration(logs[j]) >= 0
    ensures CompletedTotal(logs, k) >= 0
  {
    if k > 0 {
      TotalNonNegative(logs, k - 1);
    }
  }

  predicate IsOngoing(o: string) { o == ServiceOngoing }
  predicate IsActiveLog(s: Session) { s.status == Active }

  /** "Service en cours" is observed once per open timelog. */
  lemma {:induction false} OngoingObservedPerActiveLog(logs: seq<Session>, k: nat)
    requires k <= |logs|
    ensures CountWhere(ObservationsUpTo(logs, k), IsOngoing) == CountWhere(logs[..k], IsActiveLog)
  {
    if k > 0 {
      OngoingObservedPerActiveLog(logs, k - 1);
      var s := logs[k - 1];
      CountWhereAppend(ObservationsUpTo(logs, k - 1), LogObservations(s), IsOngoing);
      OngoingInOneLog(s);
      assert logs[..k][..k - 1] == logs[..k - 1];
    }
  }

  lemma OngoingInOneLog(s: Session)
    ensures CountWhere(LogObservations(s), IsOngoing) == if IsActiveLog(s) then 1 else 0
  {
    var first: seq<string> := if s.status == Active then [ServiceOngoing] else [];
    var second: seq<string> := if s.isAutoDisconnected then [AutoDisconnected] else [];
    CountWhereAppend(first, second, IsOngoing);
    assert CountWhere(second, IsOngoing) == 0 by {
      assert AutoDisconnected[0] != ServiceOngoing[0];
    }
  }

  /** A day is never both long and short. */
  lemma LongAndShortExclusive(total: int, breakMs: int)
    ensures !("Journée longue (>10h)" in DurationObservations(total, breakMs) && "Journée courte (<4h)" in DurationObservations(total, breakMs))
  {
  }
}

=== FILE: movements.dfy ===
/** Vehicle movements: the status lifecycle enforced by the movement routes
    (prepare, start, complete, delete, cancel, assign, reassign) and the photo
    endpoints' whitelists and batch filtering. */
module Movements {
  import opened Common

  datatype MovementStatus = Pending | Assigned | Preparing | InProgress | Completed | Cancelled

  datatype Photo = Photo(url: string, kind: string, photoType: string, timestamp: int)

  /** A movement record; optional dates are `None` when not yet set. */
  datatype Movement = Movement(
    id: string,
    userId: Option<string>,
    status: MovementStatus,
    departureTime: Option<int>,
    arrivalTime: Option<int>,
    updatedAt: int,
    timeLogId: Option<string>,
    assignedBy: Option<string>,
    notes: string,
    photos: seq<Photo>)

  datatype MoveError =
    | NotFound
    | WrongStatus
    | NotOnDuty
    | DriverIdRequired
    | DriverNotFound
    | NotADriver
    | Forbidden
    | InvalidPhotoType
    | NoPhotos
    | CountMismatch
    | PhotoUrlRequired

  // ---------------------------------------------------------------------
  // Status transitions
  // ---------------------------------------------------------------------

  /** POST `/:id/prepare`. `found` is the movement looked up by id among the
      caller's own movements; `activeLog` is the caller's active timelog id. */
  function Prepare(found: Option<Movement>, activeLog: Option<string>): (r: Result<Movement, MoveError>)
    ensures found.None? ==> r == Err(NotFound)
    ensures found.Some? && found.value.status != Assigned ==> r == Err(WrongStatus)
    ensures found.Some? && found.value.status == Assigned && activeLog.None? ==> r == Err(NotOnDuty)
    ensures r.Ok? <==> found.Some? && found.value.status == Assigned && activeLog.Some?
    ensures r.Ok? ==> r.value == found.value.(status := Preparing)
  {
    match found
    case None => Err(NotFound)
    case Some(m) =>
      if m.status != Assigned then Err(WrongStatus)
      else if activeLog.None? then Err(NotOnDuty)
      else Ok(m.(status := Preparing))
  }

  /** POST `/:id/start`: from `assigned` or `preparing`, while on duty. The
      status itself is written by the movement service, whose answer is
      `updated` (the service is not part of this model); the route then fills
      in the departure time and the timelog link when the service left them
      missing. */
  function Start(found: Option<Movement>, activeLog: Option<string>, updated: Movement, now: int): (r: Result<Movement, MoveError>)
    ensures found.None? ==> r == Err(NotFound)
    ensures found.Some? && found.value.status !in {Assigned, Preparing} ==> r == Err(WrongStatus)
    ensures found.Some? && found.value.status in {Assigned, Preparing} && activeLog.None? ==> r == Err(NotOnDuty)
    ensures r.Ok? <==> found.Some? && found.value.status in {Assigned, Preparing} && activeLog.Some?
    ensures r.Ok? ==> r.value.status == updated.status
    ensures r.Ok? ==> r.value.departureTime == Some(updated.departureTime.GetOr(now))
    ensures r.Ok? ==> r.value.timeLogId == Some(updated.timeLogId.GetOr(activeLog.value))
    ensures r.Ok? ==> r.value.(departureTime := updated.departureTime, timeLogId := updated.timeLogId) == updated
  {
    match found
    case None => Err(NotFound)
    case Some(m) =>
      if m.status != Assigned && m.status != Preparing then Err(WrongStatus)
      else if activeLog.None? then Err(NotOnDuty)
      else
        var m1 := if updated.departureTime.None? then updated.(departureTime := Some(now)) else updated;
        Ok(if m1.timeLogId.None? then m1.(timeLogId := activeLog) else m1)
  }

  /** POST `/:id/complete`: only from `in-progress`. The status is written by
      the movement service, whose answer is `updated`; notes sent with the
      request then replace the stored ones. */
  function Complete(found: Option<Movement>, updated: Movement, notes: string): (r: Result<Movement, MoveError>)
    ensures found.None? ==> r == Err(NotFound)
    ensures r.Ok? <==> found.Some? && found.value.status == InProgress
    ensures r.Ok? ==> r.value.status == updated.status
    ensures r.Ok? ==> r.value.notes == (if notes != "" then notes else updated.notes)
    ensures r.Ok? ==> r.value.(notes := updated.notes) == updated
  {
    match found
    case None => Err(NotFound)
    case Some(m) =>
      if m.status != InProgress then Err(WrongStatus)
      else Ok(updated.(notes := if notes != "" then notes else updated.notes))
  }

  /** DELETE `/:id`: refused once the movement has started or finished. */
  function Delete(found: Option<Movement>): (r: Result<(), MoveError>)
    ensures found.None? ==> r == Err(NotFound)
    ensures r.Ok? <==> found.Some? && found.value.status != InProgress && found.value.status != Completed
  {
    match found
    case None => Err(NotFound)
    case Some(m) =>
      if m.status == InProgress || m.status == Completed then Err(WrongStatus) else Ok(())
  }

  /** POST `/:id/cancel`: anything but a completed movement can be cancelled. */
  function Cancel(found: Option<Movement>): (r: Result<Movement, MoveError>)
    ensures found.None? ==> r == Err(NotFound)
    ensures r.Ok? <==> found.Some? && found.value.status != Completed
    ensures r.Ok? ==> r.value == found.value.(status := Cancelled)
  {
    match found
    case None => Err(NotFound)
    case Some(m) => if m.status == Completed then Err(WrongStatus) else Ok(m.(status := Cancelled))
  }

  /** POST `/:id/assign`: no guard on the movement's current status. The
      movement becomes `assigned` and is linked to the driver's active timelog
      when there is one. */
  function Assign(driverId: string, found: Option<Movement>, driver: Option<User>, activeLog: Option<string>): (r: Result<Movement, MoveError>)
    ensures driverId == "" ==> r == Err(DriverIdRequired)
    ensures driverId != "" && found.None? ==> r == Err(NotFound)
    ensures driverId != "" && found.Some? && driver.None? ==> r == Err(DriverNotFound)
    ensures r.Ok? <==> driverId != "" && found.Some? && driver.Some? && driver.value.role == "driver"
    ensures r.Ok? ==> r.value == found.value.(userId := Some(driverId), timeLogId := activeLog, status := Assigned)
  {
    if driverId == "" then Err(DriverIdRequired)
    else if found.None? then Err(NotFound)
    else if driver.None? then Err(DriverNotFound)
    else if driver.value.role != "driver" then Err(NotADriver)
    else Ok(found.value.(userId := Some(driverId), timeLogId := activeLog, status := Assigned))
  }

  /** POST `/:id/reassign`: only pending or assigned movements; the movement
      is `assigned` when the new driver is on duty and `pending` otherwise. */
  function Reassign(driverId: string, actorId: string, found: Option<Movement>, driver: Option<User>, activeLog: Option<string>): (r: Result<Movement, MoveError>)
    ensures driverId == "" ==> r == Err(DriverIdRequired)
    ensures driverId != "" && found.None? ==> r == Err(NotFound)
    ensures driverId != "" && found.Some? && found.value.status !in {Pending, Assigned} ==> r == Err(WrongStatus)
    ensures driverId != "" && found.Some? && found.value.status in {Pending, Assigned} && driver.None? ==> r == Err(DriverNotFound)
    ensures (driverId != "" && found.Some? && found.value.status in {Pending, Assigned} && driver.Some?
             && driver.value.role != "driver") ==> r == Err(NotADriver)
    ensures r.Ok? <==> driverId != "" && found.Some? && found.value.status in {Pending, Assigned}
                       && driver.Some? && driver.value.role == "driver"
    ensures r.Ok? ==> (r.value.status == Assigned <==> activeLog.Some?)
    ensures r.Ok? ==> r.value.status in {Pending, Assigned}
    ensures r.Ok? ==> r.value.timeLogId == activeLog && r.value.userId == Some(driverId) && r.value.assignedBy == Some(actorId)
    ensures r.Ok? ==> r.value.(userId := found.value.userId, assignedBy := found.value.assignedBy,
                               status := found.value.status, timeLogId := found.value.timeLogId) == found.value
  {
    if driverId == "" then Err(DriverIdRequired)
    else if found.None? then Err(NotFound)
    else if found.value.status != Pending && found.value.status != Assigned then Err(WrongStatus)
    else if driver.None? then Err(DriverNotFound)
    else if driver.value.role != "driver" then Err(NotADriver)
    else
      Ok(found.value.(userId := Some(driverId), assignedBy := Some(actorId),
                      status := if activeLog.Some? then Assigned else Pending, timeLogId := activeLog))
  }

  /** Progress along the lifecycle pending, assigned, preparing, in-progress, completed. */
  function Stage(s: MovementStatus): nat
  {
    match s
    case Pending => 0
    case Assigned => 1
    case Preparing => 2
    case InProgress => 3
    case Completed => 4
    case Cancelled => 5
  }

  /** Prepare, start and complete only ever move a movement forward, given
      that the movement service writes the status it is asked for. */
  lemma DriverStepsMoveForward(m: Movement, activeLog: Option<string>, started: Movement, finished: Movement, now: int, notes: string)
    requires started.status == InProgress && finished.status == Completed
    ensures Prepare(Some(m), activeLog).Ok? ==> Stage(Prepare(Some(m), activeLog).value.status) > Stage(m.status)
    ensures Start(Some(m), activeLog, started, now).Ok? ==> Stage(Start(Some(m), activeLog, started, now).value.status) > Stage(m.status)
    ensures Complete(Some(m), finished, notes).Ok? ==> Stage(Complete(Some(m), finished, notes).value.status) > Stage(m.status)
  {
  }

  /** A completed movement can no longer be prepared, started, completed,
      cancelled, deleted or reassigned; only the unguarded assign route still
      rewrites it. */
  lemma CompletedIsFinal(m: Movement, activeLog: Option<string>, updated: Movement, now: int, notes: string,
                         driverId: string, actorId: string, driver: Option<User>)
    requires m.status == Completed
    ensures Prepare(Some(m), activeLog).Err? && Start(Some(m), activeLog, updated, now).Err?
    ensures Complete(Some(m), updated, notes).Err? && Cancel(Some(m)).Err? && Delete(Some(m)).Err?
    ensures Reassign(driverId, actorId, Some(m), driver, activeLog).Err?
    ensures driverId != "" && driver.Some? && driver.value.role == "driver" ==>
              Assign(driverId, Some(m), driver, activeLog).value.status == Assigned
  {
  }

  // ---------------------------------------------------------------------
  // Photos
  // ---------------------------------------------------------------------

  /** Photo kinds accepted by the multipart upload of `/:id/photos`. */
  const UploadPhotoKinds: seq<string> :=
    ["front", "passenger", "driver", "rear", "windshield", "roof", "meter", "departure", "arrival", "damage", "other"]

  /** Photo kinds accepted by the S3 endpoints and the multipart batch. */
  const S3PhotoKinds: seq<string> :=
    ["front", "passenger", "driver", "rear", "windshield", "roof", "meter", "damage", "other"]

  /** Admins may edit any movement's photos; others only their own movement's. */
  predicate MayEditPhotos(m: Movement, actorId: string, actorRole: string)
  {
    actorRole == "admin" || m.userId == Some(actorId)
  }

  predicate AcceptsPhotos(m: Movement)
  {
    m.status == Preparing || m.status == InProgress
  }

  /** The guards shared by every photo endpoint: found, authorised, and in
      preparation or in progress. */
  function PhotoTarget(found: Option<Movement>, actorId: string, actorRole: string): (r: Result<Movement, MoveError>)
    ensures r.Ok? <==> found.Some? && MayEditPhotos(found.value, actorId, actorRole) && AcceptsPhotos(found.value)
    ensures r.Ok? ==> r.value == found.value
    ensures found.None? ==> r == Err(NotFound)
    ensures found.Some? && !MayEditPhotos(found.value, actorId, actorRole) ==> r == Err(Forbidden)
  {
    match found
    case None => Err(NotFound)
    case Some(m) =>
      if !MayEditPhotos(m, actorId, actorRole) then Err(Forbidden)
      else if !AcceptsPhotos(m) then Err(WrongStatus)
      else Ok(m)
  }

  /** POST `/:id/photos`: every uploaded file becomes a photo of one kind. */
  function AddUploadedPhotos(found: Option<Movement>, actorId: string, actorRole: string,
                             kind: Option<string>, photoType: Option<string>, files: seq<string>, now: int)
    : (r: Result<Movement, MoveError>)
    ensures r.Ok? <==> PhotoTarget(found, actorId, actorRole).Ok? && kind.GetOr("other") in UploadPhotoKinds && |files| > 0
    ensures r.Ok? ==> |r.value.photos| == |found.value.photos| + |files|
    ensures r.Ok? ==> r.value.photos[..|found.value.photos|] == found.value.photos
    ensures r.Ok? ==> forall i :: 0 <= i < |files| ==>
              r.value.photos[|found.value.photos| + i] == Photo(files[i], kind.GetOr("other"), photoType.GetOr("departure"), now)
  {
    match PhotoTarget(found, actorId, actorRole)
    case Err(e) => Err(e)
    case Ok(m) =>
      var k := kind.GetOr("other");
      if k !in UploadPhotoKinds then Err(InvalidPhotoType)
      else if |files| == 0 then Err(NoPhotos)
      else
        var added := seq(|files|, i requires 0 <= i < |files| => Photo(files[i], k, photoType.GetOr("departure"), now));
        Ok(m.(photos := m.photos + added))
  }

  /** POST `/:id/photos/s3`: one photo, its URL required before anything else. */
  function AddS3Photo(photoUrl: string, found: Option<Movement>, actorId: string, actorRole: string,
                      kind: Option<string>, photoType: Option<string>, now: int)
    : (r: Result<Movement, MoveError>)
    ensures photoUrl == "" ==> r == Err(PhotoUrlRequired)
    ensures r.Ok? <==> photoUrl != "" && PhotoTarget(found, actorId, actorRole).Ok? && kind.GetOr("other") in S3PhotoKinds
    ensures r.Ok? ==> r.value.photos == found.value.photos + [Photo(photoUrl, kind.GetOr("other"), photoType.GetOr("departure"), now)]
  {
    if photoUrl == "" then Err(PhotoUrlRequired)
    else
      match PhotoTarget(found, actorId, actorRole)
      case Err(e) => Err(e)
      case Ok(m) =>
        var k := kind.GetOr("other");
        if k !in S3PhotoKinds then Err(InvalidPhotoType)
        else Ok(m.(photos := m.photos + [Photo(photoUrl, k, photoType.GetOr("departure"), now)]))
  }

  /** Entry `i` of a batch is kept when its kind is whitelisted and, for the S3
      batch, its URL is present. */
  predicate KeepEntry(urls: seq<string>, kinds: seq<string>, i: int, needUrl: bool)
    requires |urls| == |kinds|
  {
    0 <= i < |urls| && kinds[i] in S3PhotoKinds && (needUrl ==> urls[i] != "")
  }

  /** The indices a batch keeps, from `from` on, in increasing order. */
  function KeptIndices(urls: seq<string>, kinds: seq<string>, needUrl: bool, from: nat): (idx: seq<nat>)
    requires |urls| == |kinds| && from <= |urls|
    ensures forall k :: 0 <= k < |idx| ==> from <= idx[k] && KeepEntry(urls, kinds, idx[k], needUrl)
    ensures forall k, l :: 0 <= k < l < |idx| ==> idx[k] < idx[l]
    ensures |idx| <= |urls| - from
    decreases |urls| - from
  {
    if from == |urls| then []
    else
      var rest := KeptIndices(urls, kinds, needUrl, from + 1);
      if KeepEntry(urls, kinds, from, needUrl) then [from] + rest else rest
  }

  /** The photos a batch adds: the kept entries, in their original order. */
  function BatchPhotos(urls: seq<string>, kinds: seq<string>, needUrl: bool, photoType: string, now: int): (ps: seq<Photo>)
    requires |urls| == |kinds|
    ensures |ps| <= |urls|
    ensures var idx := KeptIndices(urls, kinds, needUrl, 0);
      |ps| == |idx| && forall k :: 0 <= k < |ps| ==> ps[k] == Photo(urls[idx[k]], kinds[idx[k]], photoType, now)
    ensures forall k :: 0 <= k < |ps| ==> ps[k].kind in S3PhotoKinds && (needUrl ==> ps[k].url != "")
  {
    var idx := KeptIndices(urls, kinds, needUrl, 0);
    seq(|idx|, k requires 0 <= k < |idx| => Photo(urls[idx[k]], kinds[idx[k]], photoType, now))
  }

  /** POST `/:id/photos/batch-s3`: URLs and kinds arrive as parallel lists;
      a length mismatch is refused, invalid entries are dropped. */
  function AddS3Batch(found: Option<Movement>, actorId: string, actorRole: string,
                      urls: seq<string>, kinds: seq<string>, photoType: Option<string>, now: int)
    : (r: Result<Movement, MoveError>)
    ensures r.Ok? <==> PhotoTarget(found, actorId, actorRole).Ok? && |urls| > 0 && |kinds| == |urls|
    ensures PhotoTarget(found, actorId, actorRole).Ok? && |urls| > 0 && |kinds| != |urls| ==> r == Err(CountMismatch)
    ensures r.Ok? ==> r.value.photos == found.value.photos + BatchPhotos(urls, kinds, true, photoType.GetOr("departure"), now)
  {
    match PhotoTarget(found, actorId, actorRole)
    case Err(e) => Err(e)
    case Ok(m) =>
      if |urls| == 0 then Err(NoPhotos)
      else if |kinds| != |urls| then Err(CountMismatch)
      else Ok(m.(photos := m.photos + BatchPhotos(urls, kinds, true, photoType.GetOr("departure"), now)))
  }

  /** POST `/:id/photos/batch`: uploaded files with parallel kinds; entries
      with a non-whitelisted kind are dropped. */
  function AddUploadedBatch(found: Option<Movement>, actorId: string, actorRole: string,
                            files: seq<string>, kinds: seq<string>, photoType: Option<string>, now: int)
    : (r: Result<Movement, MoveError>)
    ensures r.Ok? <==> PhotoTarget(found, actorId, actorRole).Ok? && |files| > 0 && |kinds| == |files|
    ensures r.Ok? ==> r.value.photos == found.value.photos + BatchPhotos(files, kinds, false, photoType.GetOr("departure"), now)
  {
    match PhotoTarget(found, actorId, actorRole)
    case Err(e) => Err(e)
    case Ok(m) =>
      if |files| == 0 then Err(NoPhotos)
      else if |kinds| != |files| then Err(CountMismatch)
      else Ok(m.(photos := m.photos + BatchPhotos(files, kinds, false, photoType.GetOr("departure"), now)))
  }

  /** No valid entry of a batch is dropped. */
  lemma {:induction false} KeptIndicesComplete(urls: seq<string>, kinds: seq<string>, needUrl: bool, from: nat)
    requires |urls| == |kinds| && from <= |urls|
    ensures forall i :: from <= i < |urls| && KeepEntry(urls, kinds, i, needUrl) ==> i in KeptIndices(urls, kinds, needUrl, from)
    decreases |urls| - from
  {
    if from < |urls| {
      KeptIndicesComplete(urls, kinds, needUrl, from + 1);
    }
  }

  /** A batch whose entries are all valid keeps every one of them, in order. */
  lemma {:induction false} AllValidBatchKeepsAll(urls: seq<string>, kinds: seq<string>, needUrl: bool, from: nat)
    requires |urls| == |kinds| && from <= |urls|
    requires forall i :: from <= i < |urls| ==> KeepEntry(urls, kinds, i, needUrl)
    ensures |KeptIndices(urls, kinds, needUrl, from)| == |urls| - from
    ensures forall k :: 0 <= k < |urls| - from ==> KeptIndices(urls, kinds, needUrl, from)[k] == from + k
    decreases |urls| - from
  {
    if from < |urls| {
      AllValidBatchKeepsAll(urls, kinds, needUrl, from + 1);
      var rest := KeptIndices(urls, kinds, needUrl, from + 1);
      var idx := KeptIndices(urls, kinds, needUrl, from);
      KeptFirst(urls, kinds, needUrl, from);
      forall k | 0 <= k < |urls| - from
        ensures idx[k] == from + k
      {
        if k > 0 {
          assert idx[k] == rest[k - 1];
        }
      }
    }
  }

  lemma KeptFirst(urls: seq<string>, kinds: seq<string>, needUrl: bool, from: nat)
    requires |urls| == |kinds| && from < |urls|
    requires KeepEntry(urls, kinds, from, needUrl)
    ensures KeptIndices(urls, kinds, needUrl, from) == [from] + KeptIndices(urls, kinds, needUrl, from + 1)
  {
  }
}

=== FILE: scheduler.dfy ===
/** The scheduler that owns the nightly jobs, its lifecycle, and the
    labels used in the correction report it mails after the backfill. */
module Scheduler {
  import opened Common
  import opened Timelog
  import Backfill

  /** A cron task: created stopped, started and stopped as a whole, and
      destroyed on shutdown. */
  datatype Job = Job(name: string, cron: string, started: bool, destroyed: bool)

  datatype SchedulerState = SchedulerState(jobs: seq<Job>, isRunning: bool)

  /** A new scheduler holds no job and is not running. */
  function Fresh(): (s: SchedulerState)
    ensures |s.jobs| == 0 && !s.isRunning
  {
    SchedulerState([], false)
  }

  /** The five jobs, in registration order, with their cron expressions
      (minute hour day-of-month month day-of-week, Paris time). */
  const JobNames: seq<string> := ["Driver Timelog Automation", "Daily Report", "Weekly Report", "Monthly Report", "Cleanup"]
  const JobCrons: seq<string> := ["0 3 * * *", "0 1 * * *", "0 2 * * 1", "30 2 1 * *", "0 4 * * 0"]

  /** Registers the five jobs, none of them started; any previously listed
      job is dropped from the list. */
  function Initialize(s: SchedulerState): (t: SchedulerState)
    ensures |t.jobs| == 5 && t.isRunning == s.isRunning
    ensures forall i :: 0 <= i < 5 ==> t.jobs[i] == Job(JobNames[i], JobCrons[i], false, false)
  {
    s.(jobs := seq(5, i requires 0 <= i < 5 => Job(JobNames[i], JobCrons[i], false, false)))
  }

  function SetStarted(jobs: seq<Job>, on: bool): (r: seq<Job>)
    ensures |r| == |jobs|
    ensures forall i :: 0 <= i < |jobs| ==> r[i] == jobs[i].(started := on)
  {
    seq(|jobs|, i requires 0 <= i < |jobs| => jobs[i].(started := on))
  }

  /** Starts every listed job and marks the scheduler running. */
  function Start(s: SchedulerState): (t: SchedulerState)
    ensures t.isRunning && |t.jobs| == |s.jobs|
    ensures forall i :: 0 <= i < |t.jobs| ==> t.jobs[i].started && t.jobs[i].name == s.jobs[i].name && t.jobs[i].cron == s.jobs[i].cron
  {
    SchedulerState(SetStarted(s.jobs, true), true)
  }

  /** Stops every listed job and marks the scheduler stopped. */
  function Stop(s: SchedulerState): (t: SchedulerState)
    ensures !t.isRunning && |t.jobs| == |s.jobs|
    ensures forall i :: 0 <= i < |t.jobs| ==> !t.jobs[i].started && t.jobs[i].name == s.jobs[i].name && t.jobs[i].cron == s.jobs[i].cron
  {
    SchedulerState(SetStarted(s.jobs, false), false)
  }

  /** Stops everything, then destroys each job when the cron library offers
      destruction. */
  function Shutdown(s: SchedulerState, canDestroy: bool): (t: SchedulerState)
    ensures !t.isRunning && |t.jobs| == |s.jobs|
    ensures forall i :: 0 <= i < |t.jobs| ==> t.jobs[i] == s.jobs[i].(started := false, destroyed := s.jobs[i].destroyed || canDestroy)
  {
    var stopped := Stop(s);
    if canDestroy then stopped.(jobs := seq(|stopped.jobs|, i requires 0 <= i < |stopped.jobs| => stopped.jobs[i].(destroyed := true)))
    else stopped
  }

  lemma StartIdempotent(s: SchedulerState)
    ensures Start(Start(s)) == Start(s)
  {
  }

  /** Stopping forgets whether the jobs had been started. */
  lemma StopAfterStart(s: SchedulerState)
    ensures Stop(Start(s)) == Stop(s)
  {
  }

  datatype JobStatus = JobStatus(name: string, active: bool)
  datatype Status = Status(isRunning: bool, jobCount: nat, jobs: seq<JobStatus>)

  /** The status report: every job is reported active exactly when the
      scheduler as a whole is running. */
  function GetStatus(s: SchedulerState): (st: Status)
    ensures st.isRunning == s.isRunning && st.jobCount == |s.jobs| == |st.jobs|
    ensures forall i :: 0 <= i < |st.jobs| ==> st.jobs[i] == JobStatus(s.jobs[i].name, s.isRunning)
  {
    Status(s.isRunning, |s.jobs|, seq(|s.jobs|, i requires 0 <= i < |s.jobs| => JobStatus(s.jobs[i].name, s.isRunning)))
  }

  /** The status reports the flag rather than the jobs: re-initialising a
      running scheduler lists five jobs that are not started but are reported
      active. The server initialises the scheduler once at start-up, so this
      sequence does not occur there; were it to occur, the cron jobs started
      before would keep firing, out of `Stop`'s reach, which this record of
      the job list cannot show. */
  lemma StatusAfterReinitialize(s: SchedulerState)
    ensures var t := Initialize(Start(s));
      GetStatus(t).isRunning && forall i :: 0 <= i < |t.jobs| ==> !t.jobs[i].started && GetStatus(t).jobs[i].active
  {
  }

  // ---------------------------------------------------------------------
  // The correction report
  // ---------------------------------------------------------------------

  const LabelStartService: string := "\U{1F7E2} Début de service"
  const LabelStartBreak: string := "\U{23F8}\U{FE0F} Début de pause"
  const LabelEndBreak: string := "\U{25B6}\U{FE0F} Fin de pause"
  const LabelEndService: string := "\U{1F534} Fin de service"

  /** The label of a punch type name; an unknown name is shown as is. */
  function TypeLabel(name: string): (shown: string)
    ensures name == "start_service" ==> shown == LabelStartService
    ensures name == "start_break" ==> shown == LabelStartBreak
    ensures name == "end_break" ==> shown == LabelEndBreak
    ensures name == "end_service" ==> shown == LabelEndService
    ensures name !in ["start_service", "start_break", "end_break", "end_service"] ==> shown == name
  {
    if name == "start_service" then LabelStartService
    else if name == "start_break" then LabelStartBreak
    else if name == "end_break" then LabelEndBreak
    else if name == "end_service" then LabelEndService
    else name
  }

  const DefaultColor: string := "#6B7280"

  /** The accent colour of a punch type name; grey for an unknown name. */
  function TypeColor(name: string): (color: string)
    ensures name == "start_service" ==> color == "#10B981"
    ensures name == "start_break" ==> color == "#F59E0B"
    ensures name == "end_break" ==> color == "#3B82F6"
    ensures name == "end_service" ==> color == "#EF4444"
    ensures name !in ["start_service", "start_break", "end_break", "end_service"] ==> color == DefaultColor
  {
    if name == "start_service" then "#10B981"
    else if name == "start_break" then "#F59E0B"
    else if name == "end_break" then "#3B82F6"
    else if name == "end_service" then "#EF4444"
    else DefaultColor
  }

  /** The four punch types the corrector can report are told apart by both
      their label and their colour. */
  lemma LabelsDistinguishTypes(a: PunchType, b: PunchType)
    requires a != General && b != General && a != b
    ensures TypeLabel(TypeName(a)) != TypeLabel(TypeName(b))
    ensures TypeColor(TypeName(a)) != TypeColor(TypeName(b))
    ensures TypeColor(TypeName(a)) != DefaultColor
  {
    assert LabelStartService[0] != LabelStartBreak[0];
    assert LabelStartService[0] != LabelEndBreak[0];
    assert LabelStartService[0] != LabelEndService[0];
    assert LabelStartBreak[0] != LabelEndBreak[0];
    assert LabelStartBreak[0] != LabelEndService[0];
    assert LabelEndBreak[0] != LabelEndService[0];
  }

  /** Whether a user receives the correction report: an administrator or a
      director with a non-empty e-mail address. */
  predicate IsRecipient(u: User)
  {
    (u.role == "admin" || u.role == "direction") && u.email != ""
  }

  function ReportRecipients(users: seq<User>): (r: seq<string>)
    ensures forall e :: e in r <==> exists i :: 0 <= i < |users| && IsRecipient(users[i]) && users[i].email == e
    ensures forall e :: e in r ==> e != ""
  {
    if |users| == 0 then []
    else
      var rest := ReportRecipients(users[..|users| - 1]);
      assert forall i :: 0 <= i < |users| - 1 ==> users[i] == users[..|users| - 1][i];
      var u := users[|users| - 1];
      if IsRecipient(u) then rest + [u.email] else rest
  }

  /** What happens to the report: nobody to send it to, sent, or the send
      failed (the failure is logged and swallowed). */
  datatype Delivery = NoRecipients | Sent(to: seq<string>) | SendFailed

  function ReportDelivery(users: seq<User>, sendSucceeds: bool): (d: Delivery)
    ensures d == NoRecipients <==> ReportRecipients(users) == []
    ensures d.Sent? <==> ReportRecipients(users) != [] && sendSucceeds
    ensures d.Sent? ==> d.to == ReportRecipients(users)
  {
    var to := ReportRecipients(users);
    if to == [] then NoRecipients else if sendSucceeds then Sent(to) else SendFailed
  }

  /** The manual trigger: runs the corrector, mails the report, and returns
      the corrector's result. The report's fate never changes the result. */
  function RunDriverTimelogProcessingNow(drivers: Option<seq<Backfill.DriverRecord>>, dayEnd: int, users: seq<User>, sendSucceeds: bool)
    : (r: (Result<Backfill.BatchResult, Backfill.BatchError>, Option<Delivery>))
    ensures r.0.Err? <==> drivers.None?
    ensures r.0.Err? <==> r.1.None?
    ensures r.1.Some? ==> r.1.value == ReportDelivery(users, sendSucceeds)
  {
    var result := Backfill.ProcessAllDrivers(drivers, dayEnd);
    if result.Err? then (result, None) else (result, Some(ReportDelivery(users, sendSucceeds)))
  }

  lemma ReportDoesNotAffectResult(drivers: Option<seq<Backfill.DriverRecord>>, dayEnd: int, users: seq<User>, users': seq<User>, ok: bool, ok': bool)
    ensures RunDriverTimelogProcessingNow(drivers, dayEnd, users, ok).0 == RunDriverTimelogProcessingNow(drivers, dayEnd, users', ok').0
    ensures RunDriverTimelogProcessingNow(drivers, dayEnd, users, ok).0 == Backfill.ProcessAllDrivers(drivers, dayEnd)
  {
  }
}

=== FILE: sorting.dfy ===
/** Stable sorting by an integer key, the behaviour of JavaScript's
    `Array.prototype.sort` with a numeric comparator. A stable sort's result
    is determined by the key and the input order, so this insertion sort
    yields exactly what the runtime's sort yields. Descending orders use a
    negated key. */
module Sorting {

  ghost predicate SortedBy<T>(s: seq<T>, key: T -> int)
  {
    forall i, j :: 0 <= i < j < |s| ==> key(s[i]) <= key(s[j])
  }

  /** Inserts `x` into an already sorted `s`, after every element whose key is
      not greater than its own (so equal keys keep their arrival order). */
  function InsertBy<T>(s: seq<T>, x: T, key: T -> int): (r: seq<T>)
    requires SortedBy(s, key)
    ensures SortedBy(r, key)
    ensures multiset(r) == multiset(s) + multiset{x}
    ensures |r| == |s| + 1
    ensures r[0] == x || (|s| > 0 && r[0] == s[0])
  {
    if |s| == 0 then [x]
    else if key(x) < key(s[0]) then [x] + s
    else
      var rest := InsertBy(s[1..], x, key);
      assert s == [s[0]] + s[1..];
      assert key(s[0]) <= key(rest[0]);
      [s[0]] + rest
  }

  /** Stable insertion sort: sorts the prefix, then inserts the last element. */
  function SortBy<T>(s: seq<T>, key: T -> int): (r: seq<T>)
    ensures SortedBy(r, key)
    ensures multiset(r) == multiset(s)
    ensures |r| == |s|
  {
    if |s| == 0 then []
    else
      assert s == s[..|s| - 1] + [s[|s| - 1]];
      InsertBy(SortBy(s[..|s| - 1], key), s[|s| - 1], key)
  }

  ghost predicate StrictlySortedBy<T>(s: seq<T>, key: T -> int)
  {
    forall i, j :: 0 <= i < j < |s| ==> key(s[i]) < key(s[j])
  }

  /** Sorted by `key`, and by `tie` among equal keys. */
  ghost predicate SortedThenBy<T>(s: seq<T>, key: T -> int, tie: T -> int)
  {
    forall i, j :: 0 <= i < j < |s| ==> key(s[i]) < key(s[j]) || (key(s[i]) == key(s[j]) && tie(s[i]) < tie(s[j]))
  }

  lemma {:induction false} InsertByIsStable<T>(s: seq<T>, x: T, key: T -> int, tie: T -> int)
    requires SortedBy(s, key) && SortedThenBy(s, key, tie)
    requires forall i :: 0 <= i < |s| ==> tie(s[i]) < tie(x)
    ensures SortedThenBy(InsertBy(s, x, key), key, tie)
    decreases |s|
  {
    if |s| > 0 && key(x) >= key(s[0]) {
      InsertByIsStable(s[1..], x, key, tie);
      var rest := InsertBy(s[1..], x, key);
      var r := InsertBy(s, x, key);
      assert r == [s[0]] + rest;
      InsertByMembers(s[1..], x, key);
      forall k | 0 <= k < |rest|
        ensures key(s[0]) < key(rest[k]) || (key(s[0]) == key(rest[k]) && tie(s[0]) < tie(rest[k]))
      {
        assert rest[k] in rest;
        if rest[k] != x {
          var m :| 0 <= m < |s[1..]| && s[1..][m] == rest[k];
          assert s[1 + m] == rest[k];
        }
      }
    }
  }

  /** Inserting adds `x` and nothing else. */
  lemma InsertByMembers<T>(s: seq<T>, x: T, key: T -> int)
    requires SortedBy(s, key)
    ensures forall y :: y in InsertBy(s, x, key) ==> y == x || y in s
  {
    forall y | y in InsertBy(s, x, key)
      ensures y == x || y in s
    {
      assert y in multiset(InsertBy(s, x, key));
    }
  }

  /** Stability: when the input is strictly ordered by `tie`, elements with
      equal keys keep that order in the sorted result. */
  lemma {:induction false} SortByIsStable<T>(s: seq<T>, key: T -> int, tie: T -> int)
    requires StrictlySortedBy(s, tie)
    ensures SortedThenBy(SortBy(s, key), key, tie)
    decreases |s|
  {
    if |s| > 0 {
      var init := s[..|s| - 1];
      var x := s[|s| - 1];
      SortByIsStable(init, key, tie);
      var sorted := SortBy(init, key);
      forall i | 0 <= i < |sorted|
        ensures tie(sorted[i]) < tie(x)
      {
        assert sorted[i] in multiset(init) by {
          assert sorted[i] in multiset(sorted);
        }
        var m :| 0 <= m < |init| && init[m] == sorted[i];
        assert s[m] == sorted[i];
      }
      InsertByIsStable(sorted, x, key, tie);
    }
  }
}

=== FILE: text.dfy ===
/** Decimal rendering of integers, as JavaScript's `Number.prototype.toString`
    and `String.prototype.padStart` produce it for whole numbers. */
module Text {

  predicate IsDigit(c: char) { '0' <= c <= '9' }

  function DigitChar(d: nat): (c: char)
    requires d < 10
    ensures IsDigit(c)
  {
    ['0', '1', '2', '3', '4', '5', '6', '7', '8', '9'][d]
  }

  function DigitValue(c: char): (d: nat)
    requires IsDigit(c)
    ensures d < 10
  {
    (c as int - '0' as int) as nat
  }

  lemma DigitRoundTrip(d: nat)
    requires d < 10
    ensures DigitValue(DigitChar(d)) == d
  {
  }

  predicate AllDigits(s: string)
  {
    forall i :: 0 <= i < |s| ==> IsDigit(s[i])
  }

  /** Decimal digits of `n`, without leading zeros (`0` is "0"). */
  function NatToString(n: nat): (s: string)
    ensures |s| >= 1 && AllDigits(s)
    ensures n < 10 <==> |s| == 1
    ensures |s| > 1 ==> s[0] != '0'
  {
    if n < 10 then [DigitChar(n)]
    else NatToString(n / 10) + [DigitChar(n % 10)]
  }

  /** `String(i)` for an integer: a minus sign before the digits when negative. */
  function IntToString(i: int): (s: string)
    ensures |s| >= 1
    ensures i >= 0 ==> s == NatToString(i)
    ensures i < 0 ==> s == "-" + NatToString(-i)
  {
    if i < 0 then "-" + NatToString(-i) else NatToString(i)
  }

  /** `s.padStart(2, '0')`. */
  function PadStart2(s: string): (r: string)
    ensures |s| >= 2 ==> r == s
    ensures |s| < 2 ==> |r| == 2 && r[2 - |s|..] == s
  {
    if |s| == 0 then "00" else if |s| == 1 then "0" + s else s
  }

  /** Reads a run of decimal digits back into a number. */
  function ParseNat(s: string): nat
    requires AllDigits(s)
  {
    if |s| == 0 then 0 else 10 * ParseNat(s[..|s| - 1]) + DigitValue(s[|s| - 1])
  }

  /** Rendering then reading back a natural number is the identity. */
  lemma {:induction false} ParseNatToString(n: nat)
    ensures ParseNat(NatToString(n)) == n
  {
    if n < 10 {
      DigitRoundTrip(n);
    } else {
      var s := NatToString(n);
      assert s[..|s| - 1] == NatToString(n / 10);
      ParseNatToString(n / 10);
      DigitRoundTrip(n % 10);
    }
  }

  /** A leading zero does not change the value of a digit run. */
  lemma ParseLeadingZero(s: string)
    requires AllDigits(s)
    ensures ParseNat("0" + s) == ParseNat(s)
    decreases |s|
  {
    if |s| > 0 {
      assert ("0" + s)[..|"0" + s| - 1] == "0" + s[..|s| - 1];
      ParseLeadingZero(s[..|s| - 1]);
    }
  }
}

=== FILE: timelog.dfy ===
/** Timelogs ("pointages"): the attendance sessions of field staff, the
    punch-type whitelist, the driver punch-sequence validator, the day
    analysis, and the punch-in / punch-out guards that keep at most one
    active timelog per user. */
module Timelog {
  import opened Common
  import Sorting

  datatype PunchType = StartService | StartBreak | EndBreak | EndService | General

  datatype Status = Active | Completed

  /** Why the nightly corrector synthesised a row. */
  datatype GenReason = MissingBreak | MissingBreakEnd | MissingServiceEnd

  /** One attendance record. `notes` and `autoDisconnectReason` use the empty
      string for "absent"; a missing `isAutoGenerated` reads as false. */
  datatype Session = Session(
    id: string,
    userId: string,
    startTime: int,
    endTime: Option<int>,
    status: Status,
    kind: PunchType,
    isAutoGenerated: bool,
    autoGenerationReason: Option<GenReason>,
    isAutoDisconnected: bool,
    autoDisconnectReason: string,
    notes: string)

  function TypeName(t: PunchType): string
  {
    match t
    case StartService => "start_service"
    case StartBreak => "start_break"
    case EndBreak => "end_break"
    case EndService => "end_service"
    case General => "general"
  }

  /** The accepted punch types, in the order the route lists them. */
  const ValidTypeNames: seq<string> := ["start_service", "start_break", "end_break", "end_service", "general"]

  /** The route's whitelist check: a requested type is accepted exactly when it
      is one of the five names. */
  function ParsePunchType(s: string): (r: Option<PunchType>)
    ensures r.Some? <==> s in ValidTypeNames
    ensures r.Some? ==> TypeName(r.value) == s
  {
    if s == "start_service" then Some(StartService)
    else if s == "start_break" then Some(StartBreak)
    else if s == "end_break" then Some(EndBreak)
    else if s == "end_service" then Some(EndService)
    else if s == "general" then Some(General)
    else None
  }

  /** Every punch type survives a print/parse round trip. */
  lemma ParseTypeName(t: PunchType)
    ensures ParsePunchType(TypeName(t)) == Some(t)
  {
  }

  // ---------------------------------------------------------------------
  // Driver punch-sequence validator
  // ---------------------------------------------------------------------

  datatype SequenceError =
    | ServiceAlreadyStarted
    | ServiceNotStarted
    | BreakAlreadyStarted
    | BreakAfterServiceEnd
    | BreakNotStarted
    | BreakAlreadyEnded
    | ServiceAlreadyEnded
    | BreakNotEnded
    | ValidationFailed

  function ErrorMessage(e: SequenceError): string
  {
    match e
    case ServiceAlreadyStarted => "Vous avez déjà commencé votre service aujourd'hui"
    case ServiceNotStarted => "Vous devez d'abord commencer votre service"
    case BreakAlreadyStarted => "Vous avez déjà commencé votre pause aujourd'hui"
    case BreakAfterServiceEnd => "Vous ne pouvez plus prendre de pause après la fin de service"
    case BreakNotStarted => "Vous devez d'abord commencer votre pause"
    case BreakAlreadyEnded => "Vous avez déjà terminé votre pause aujourd'hui"
    case ServiceAlreadyEnded => "Vous avez déjà terminé votre service aujourd'hui"
    case BreakNotEnded => "Vous devez d'abord terminer votre pause"
    case ValidationFailed => "Erreur lors de la validation"
  }

  /** Given the types already punched today and a proposed type, `None` means
      allowed and `Some(e)` names the first rule, in the route's order, that
      refuses it. */
  function ValidateDriverSequence(existing: seq<PunchType>, t: PunchType): (r: Option<SequenceError>)
    ensures t == StartService ==>
      (r.Some? <==> StartService in existing) && (r.Some? ==> r.value == ServiceAlreadyStarted)
    ensures t == StartBreak ==>
      && (StartService !in existing ==> r == Some(ServiceNotStarted))
      && (StartService in existing && StartBreak in existing ==> r == Some(BreakAlreadyStarted))
      && (StartService in existing && StartBreak !in existing && EndService in existing ==> r == Some(BreakAfterServiceEnd))
      && (r.None? <==> StartService in existing && StartBreak !in existing && EndService !in existing)
    ensures t == EndBreak ==>
      && (StartBreak !in existing ==> r == Some(BreakNotStarted))
      && (StartBreak in existing && EndBreak in existing ==> r == Some(BreakAlreadyEnded))
      && (r.None? <==> StartBreak in existing && EndBreak !in existing)
    ensures t == EndService ==>
      && (StartService !in existing ==> r == Some(ServiceNotStarted))
      && (StartService in existing && EndService in existing ==> r == Some(ServiceAlreadyEnded))
      && (StartService in existing && EndService !in existing && StartBreak in existing && EndBreak !in existing ==> r == Some(BreakNotEnded))
      && (r.None? <==> StartService in existing && EndService !in existing && (StartBreak in existing ==> EndBreak in existing))
    ensures t == General ==> r.None?
    ensures r != Some(ValidationFailed)
  {
    match t
    case StartService =>
      if StartService in existing then Some(ServiceAlreadyStarted) else None
    case StartBreak =>
      if StartService !in existing then Some(ServiceNotStarted)
      else if StartBreak in existing then Some(BreakAlreadyStarted)
      else if EndService in existing then Some(BreakAfterServiceEnd)
      else None
    case EndBreak =>
      if StartBreak !in existing then Some(BreakNotStarted)
      else if EndBreak in existing then Some(BreakAlreadyEnded)
      else None
    case EndService =>
      if StartService !in existing then Some(ServiceNotStarted)
      else if EndService in existing then Some(ServiceAlreadyEnded)
      else if StartBreak in existing && EndBreak !in existing then Some(BreakNotEnded)
      else None
    case General => None
  }

  /** The check only runs for drivers punching a type other than `general`. */
  predicate SequenceCheckApplies(role: string, t: PunchType)
  {
    role == "driver" && t != General
  }

  /** The validator as the route calls it: the lookup of today's types may
      fail (`None`), which refuses the punch with a generic message. */
  function CheckPunchSequence(role: string, t: PunchType, today: Option<seq<PunchType>>): (r: Option<SequenceError>)
    ensures !SequenceCheckApplies(role, t) ==> r.None?
    ensures SequenceCheckApplies(role, t) && today.None? ==> r == Some(ValidationFailed)
    ensures SequenceCheckApplies(role, t) && today.Some? ==> r == ValidateDriverSequence(today.value, t)
  {
    if !SequenceCheckApplies(role, t) then None
    else if today.None? then Some(ValidationFailed)
    else ValidateDriverSequence(today.value, t)
  }

  // ---------------------------------------------------------------------
  // Legal driver days: the validator admits exactly the canonical orders
  // ---------------------------------------------------------------------

  /** The day's punches without the `general` ones, which the validator ignores. */
  function Core(s: seq<PunchType>): (c: seq<PunchType>)
    ensures General !in c
    ensures forall t :: t != General ==> (t in c <==> t in s)
  {
    if |s| == 0 then []
    else Core(s[..|s| - 1]) + (if s[|s| - 1] == General then [] else [s[|s| - 1]])
  }

  const FullDay: seq<PunchType> := [StartService, StartBreak, EndBreak, EndService]

  /** A legal driver day: a prefix of start, break, end-of-break, end, or a day
      without a break. */
  predicate LegalShape(c: seq<PunchType>)
  {
    c == [] || c == [StartService] || c == [StartService, StartBreak]
    || c == [StartService, StartBreak, EndBreak] || c == FullDay
    || c == [StartService, EndService]
  }

  /** Every punch of the day was accepted given the punches before it. */
  predicate AcceptedDay(s: seq<PunchType>)
  {
    forall i :: 0 <= i < |s| ==> ValidateDriverSequence(s[..i], s[i]).None?
  }

  /** The validator only looks at which of the four punches are present. */
  lemma ValidateSeesOnlyCore(s: seq<PunchType>, t: PunchType)
    ensures ValidateDriverSequence(s, t) == ValidateDriverSequence(Core(s), t)
  {
    var c := Core(s);
    assert StartService in s <==> StartService in c;
    assert StartBreak in s <==> StartBreak in c;
    assert EndBreak in s <==> EndBreak in c;
    assert EndService in s <==> EndService in c;
  }

  /** From each legal shape, the accepted punches lead to another legal shape. */
  lemma StepShape(c: seq<PunchType>, t: PunchType)
    requires LegalShape(c)
    requires t != General
    requires ValidateDriverSequence(c, t).None?
    ensures LegalShape(c + [t])
  {
    if c == [] {
      assert t == StartService;
    } else if c == [StartService] {
      assert t == StartBreak || t == EndService;
    } else if c == [StartService, StartBreak] {
      assert t == EndBreak;
    } else if c == [StartService, StartBreak, EndBreak] {
      assert t == EndService;
    } else {
      assert false;
    }
  }

  /** One accepted punch keeps a legal day legal. */
  lemma StepKeepsLegal(s: seq<PunchType>, t: PunchType)
    requires LegalShape(Core(s))
    requires ValidateDriverSequence(s, t).None?
    ensures LegalShape(Core(s + [t]))
  {
    assert (s + [t])[..|s + [t]| - 1] == s;
    assert Core(s + [t]) == Core(s) + (if t == General then [] else [t]);
    if t != General {
      ValidateSeesOnlyCore(s, t);
      StepShape(Core(s), t);
    } else {
      assert Core(s) + [] == Core(s);
    }
  }

  /** Soundness: whatever sequence of punches the validator lets through, the
      non-general punches form one of the legal shapes. */
  lemma {:induction false} AcceptedDayIsLegal(s: seq<PunchType>)
    requires AcceptedDay(s)
    ensures LegalShape(Core(s))
    decreases |s|
  {
    if |s| > 0 {
      var p := s[..|s| - 1];
      assert AcceptedDay(p) by {
        forall i | 0 <= i < |p|
          ensures ValidateDriverSequence(p[..i], p[i]).None?
        {
          assert p[..i] == s[..i] && p[i] == s[i];
        }
      }
      AcceptedDayIsLegal(p);
      var t := s[|s| - 1];
      assert ValidateDriverSequence(p, t).None? by {
        assert ValidateDriverSequence(s[..|s| - 1], s[|s| - 1]).None?;
      }
      StepKeepsLegal(p, t);
      assert s == p + [t];
    }
  }

  /** Completeness: every legal shape can be punched in order, each punch
      being accepted. */
  lemma LegalShapeIsAccepted(c: seq<PunchType>)
    requires LegalShape(c)
    ensures AcceptedDay(c)
  {
    var f := FullDay;
    assert f[..0] == [] && f[..1] == [StartService] && f[..2] == [StartService, StartBreak]
      && f[..3] == [StartService, StartBreak, EndBreak];
    assert ValidateDriverSequence([], StartService).None?;
    assert ValidateDriverSequence([StartService], StartBreak).None?;
    assert ValidateDriverSequence([StartService], EndService).None?;
    assert ValidateDriverSequence([StartService, StartBreak], EndBreak).None?;
    assert ValidateDriverSequence([StartService, StartBreak, EndBreak], EndService).None?;
    if c == [StartService, EndService] {
      assert c[..1] == [StartService];
    } else if c != [] {
      assert c == f[..|c|];
      forall i | 0 <= i < |c|
        ensures ValidateDriverSequence(c[..i], c[i]).None?
      {
        assert c[..i] == f[..i] && c[i] == f[i];
      }
    }
  }

  // ---------------------------------------------------------------------
  // Day analysis
  // ---------------------------------------------------------------------

  datatype SequenceEntry = SequenceEntry(kind: PunchType, time: int, isAutoGenerated: bool)

  datatype DriverDayAnalysis = DriverDayAnalysis(
    hasServiceStart: bool,
    hasBreakStart: bool,
    hasBreakEnd: bool,
    hasServiceEnd: bool,
    isComplete: bool,
    missingTypes: seq<PunchType>,
    sequence: seq<SequenceEntry>)

  function Kinds(logs: seq<Session>): (ks: seq<PunchType>)
    ensures |ks| == |logs|
    ensures forall i :: 0 <= i < |logs| ==> ks[i] == logs[i].kind
  {
    if |logs| == 0 then [] else Kinds(logs[..|logs| - 1]) + [logs[|logs| - 1].kind]
  }

  lemma KindsAppend(a: seq<Session>, b: seq<Session>)
    ensures Kinds(a + b) == Kinds(a) + Kinds(b)
  {
  }

  /** Position of a punch type in the fixed start/break/end order. */
  function Rank(t: PunchType): nat
  {
    match t
    case StartService => 0
    case StartBreak => 1
    case EndBreak => 2
    case EndService => 3
    case General => 4
  }

  function Entry(t: Session): SequenceEntry
  {
    SequenceEntry(t.kind, t.startTime, t.isAutoGenerated)
  }

  function Entries(logs: seq<Session>): (es: seq<SequenceEntry>)
    ensures |es| == |logs|
    ensures forall i :: 0 <= i < |logs| ==> es[i] == Entry(logs[i])
  {
    if |logs| == 0 then [] else Entries(logs[..|logs| - 1]) + [Entry(logs[|logs| - 1])]
  }

  function EntryTime(e: SequenceEntry): int { e.time }

  predicate RankIncreasing(s: seq<PunchType>)
  {
    forall i, j :: 0 <= i < j < |s| ==> Rank(s[i]) < Rank(s[j])
  }

  /** The members of `order` that do not occur in `ks`, in `order`'s order. */
  function Absent(order: seq<PunchType>, ks: seq<PunchType>): (r: seq<PunchType>)
    ensures forall t :: t in r <==> t in order && t !in ks
    ensures RankIncreasing(order) ==> RankIncreasing(r)
  {
    if |order| == 0 then []
    else
      var rest := Absent(order[1..], ks);
      AbsentCons(order, ks, rest);
      (if order[0] in ks then [] else [order[0]]) + rest
  }

  lemma AbsentCons(order: seq<PunchType>, ks: seq<PunchType>, rest: seq<PunchType>)
    requires |order| > 0
    requires forall t :: t in rest <==> t in order[1..] && t !in ks
    requires RankIncreasing(order[1..]) ==> RankIncreasing(rest)
    ensures var r := (if order[0] in ks then [] else [order[0]]) + rest;
      && (forall t :: t in r <==> t in order && t !in ks)
      && (RankIncreasing(order) ==> RankIncreasing(r))
  {
    assert order == [order[0]] + order[1..];
    if RankIncreasing(order) {
      assert RankIncreasing(order[1..]) by {
        forall i, j | 0 <= i < j < |order[1..]|
          ensures Rank(order[1..][i]) < Rank(order[1..][j])
        {
          assert order[1..][i] == order[i + 1] && order[1..][j] == order[j + 1];
        }
      }
      forall t | t in rest
        ensures Rank(order[0]) < Rank(t)
      {
        var m :| 0 <= m < |order[1..]| && order[1..][m] == t;
        assert order[m + 1] == t;
      }
    }
  }

  /** The absent punches of a day are the four types not punched, in order. */
  lemma MissingTypes(ks: seq<PunchType>)
    ensures forall t :: t in Absent(FullDay, ks) <==> t != General && t !in ks
    ensures RankIncreasing(Absent(FullDay, ks))
  {
    assert forall t :: t in FullDay <==> t != General;
    assert RankIncreasing(FullDay);
  }

  /** The analysis served to the driver's timelog screen. */
  function AnalyzeDriverTimelogs(logs: seq<Session>): (a: DriverDayAnalysis)
    ensures a.hasServiceStart <==> StartService in Kinds(logs)
    ensures a.hasBreakStart <==> StartBreak in Kinds(logs)
    ensures a.hasBreakEnd <==> EndBreak in Kinds(logs)
    ensures a.hasServiceEnd <==> EndService in Kinds(logs)
    ensures forall t :: t in a.missingTypes <==> t != General && t !in Kinds(logs)
    ensures forall i, j :: 0 <= i < j < |a.missingTypes| ==> Rank(a.missingTypes[i]) < Rank(a.missingTypes[j])
    ensures a.isComplete <==> |a.missingTypes| == 0
    ensures Sorting.SortedBy(a.sequence, EntryTime)
    ensures multiset(a.sequence) == multiset(Entries(logs))
  {
    var ks := Kinds(logs);
    var missing := Absent(FullDay, ks);
    MissingTypes(ks);
    DriverDayAnalysis(
      StartService in ks, StartBreak in ks, EndBreak in ks, EndService in ks,
      |missing| == 0, missing,
      Sorting.SortBy(Entries(logs), EntryTime))
  }

  /** A legal day holds all four punches only when it is the full day. */
  lemma LegalShapeHasAllFour(c: seq<PunchType>)
    requires LegalShape(c)
    ensures (StartService in c && StartBreak in c && EndBreak in c && EndService in c) <==> c == FullDay
  {
    if c == [StartService, EndService] {
      assert StartBreak !in c;
    } else if c == [StartService, StartBreak, EndBreak] {
      assert EndService !in c;
    }
  }

  /** For a day the validator accepted, the day is complete exactly when all
      four punches were made in the canonical order. */
  lemma CompleteLegalDay(logs: seq<Session>)
    requires AcceptedDay(Kinds(logs))
    ensures AnalyzeDriverTimelogs(logs).isComplete <==> Core(Kinds(logs)) == FullDay
  {
    var ks := Kinds(logs);
    AcceptedDayIsLegal(ks);
    var c := Core(ks);
    LegalShapeHasAllFour(c);
    var a := AnalyzeDriverTimelogs(logs);
    assert a.isComplete <==> (StartService in ks && StartBreak in ks && EndBreak in ks && EndService in ks) by {
      if !a.isComplete {
        assert a.missingTypes[0] in a.missingTypes;
      }
    }
  }

  // ---------------------------------------------------------------------
  // The session store and the punch-in / punch-out routes
  // ---------------------------------------------------------------------

  predicate IsActiveFor(s: Session, userId: string)
  {
    s.userId == userId && s.status == Active
  }

  predicate HasActive(store: seq<Session>, userId: string)
  {
    exists i :: 0 <= i < |store| && IsActiveFor(store[i], userId)
  }

  /** The store invariant: no user has two active timelogs. */
  predicate AtMostOneActive(store: seq<Session>)
  {
    forall i, j :: 0 <= i < j < |store| && store[i].status == Active && store[j].status == Active
      ==> store[i].userId != store[j].userId
  }

  /** `findOne({userId, status: 'active'})`: the first active timelog of the user. */
  function FindActive(store: seq<Session>, userId: string): (k: Option<nat>)
    ensures k.None? <==> !HasActive(store, userId)
    ensures k.Some? ==> k.value < |store| && IsActiveFor(store[k.value], userId)
    ensures k.Some? ==> forall j :: 0 <= j < k.value ==> !IsActiveFor(store[j], userId)
  {
    if |store| == 0 then None
    else if IsActiveFor(store[0], userId) then Some(0)
    else
      var k := FindActive(store[1..], userId);
      assert forall j :: 1 <= j < |store| ==> store[j] == store[1..][j - 1];
      if k.None? then None else Some(k.value + 1)
  }

  datatype PunchError =
    | InvalidType
    | SequenceRefused(reason: SequenceError)
    | AlreadyActive
    | NoActiveTimelog

  /** A punch request: the requested type (absent means `general`), the user's
      role, today's types for the validator, the clock and the new row's id. */
  datatype PunchRequest = PunchRequest(
    userId: string,
    role: string,
    requestedType: Option<string>,
    notes: string,
    now: int,
    newId: string)

  function NewSession(req: PunchRequest, t: PunchType): Session
  {
    Session(req.newId, req.userId, req.now, None, Active, t, false, None, false, "", req.notes)
  }

  /** POST `/`: whitelist, then the driver sequence rule, then the
      single-active guard; on success the new active row is appended. */
  function PunchIn(store: seq<Session>, req: PunchRequest, today: Option<seq<PunchType>>): (r: Result<seq<Session>, PunchError>)
    ensures var name := req.requestedType.GetOr("general");
      && (name !in ValidTypeNames ==> r == Err(InvalidType))
      && (name in ValidTypeNames ==>
            var t := ParsePunchType(name).value;
            var check := CheckPunchSequence(req.role, t, today);
            && (check.Some? ==> r == Err(SequenceRefused(check.value)))
            && (check.None? && HasActive(store, req.userId) ==> r == Err(AlreadyActive))
            && (check.None? && !HasActive(store, req.userId) ==> r == Ok(store + [NewSession(req, t)])))
    ensures r.Ok? && AtMostOneActive(store) ==> AtMostOneActive(r.value)
    ensures r.Ok? ==> HasActive(r.value, req.userId) && !HasActive(store, req.userId)
  {
    var name := req.requestedType.GetOr("general");
    match ParsePunchType(name)
    case None => Err(InvalidType)
    case Some(t) =>
      var check := CheckPunchSequence(req.role, t, today);
      if check.Some? then Err(SequenceRefused(check.value))
      else if FindActive(store, req.userId).Some? then Err(AlreadyActive)
      else
        var r := store + [NewSession(req, t)];
        assert IsActiveFor(r[|store|], req.userId);
        Ok(r)
  }

  /** POST `/end`: closes the user's active timelog at `now`; notes given with
      the request replace the stored ones. */
  function PunchOut(store: seq<Session>, userId: string, now: int, notes: string): (r: Result<seq<Session>, PunchError>)
    ensures r.Err? <==> !HasActive(store, userId)
    ensures r.Err? ==> r.error == NoActiveTimelog
    ensures r.Ok? ==> |r.value| == |store|
    ensures r.Ok? ==> exists k :: 0 <= k < |store| && IsActiveFor(store[k], userId) && r.value == store[k := Closed(store[k], now, notes)]
    ensures r.Ok? && AtMostOneActive(store) ==> AtMostOneActive(r.value) && !HasActive(r.value, userId)
  {
    match FindActive(store, userId)
    case None => Err(NoActiveTimelog)
    case Some(k) =>
      var r := store[k := Closed(store[k], now, notes)];
      assert forall j :: 0 <= j < |r| && j != k ==> r[j] == store[j];
      Ok(r)
  }

  /** The row written by POST `/end`. */
  function Closed(s: Session, now: int, notes: string): (c: Session)
    ensures c.status == Completed && c.endTime == Some(now)
    ensures c.notes == (if notes != "" then notes else s.notes)
    ensures c.(status := s.status, endTime := s.endTime, notes := s.notes) == s
  {
    s.(endTime := Some(now), status := Completed, notes := if notes != "" then notes else s.notes)
  }
}
